=== FILE: README.md ===
# LoomSathi dashboard: a Dafny model of its form and list logic

LoomSathi is a Next.js dashboard for a weaving business. It tracks workers,
loans given to workers, expenses and beam deliveries, and has sign-up, login
and account-settings forms. All of this logic runs in the browser. Each page
keeps a form in React state, checks it, and sends one JSON request to a
REST backend. The page then folds the answer back into what it shows.

This project models that logic as pure Dafny functions over immutable
values. A request is a value `Request(verb, path, body)`, and a submit
handler returns `Blocked(reason)` or `Sent(request)`. Response bodies are
modelled as JSON values with JavaScript truthiness. The project proves the
properties the pages rely on:

- each form accepts exactly the inputs its rules describe;
- typing into a field clears only that field's error;
- the date mask keeps exactly the digits typed and converts them for the
  backend;
- the list filters show exactly the matching rows, in order;
- the worker list updates and counters behave as the page assumes;
- every error path ends in the message the page shows.

The modules follow the source files:

- `WorkerModal`: the add-worker dialog (components/modals/AddWorkerModal.tsx).
- `WorkersPage`, `LoansPage`, `ExpensesPage`, `BeamPage`: the four dashboard
  pages.
- `SignupPage`, `LoginPage`: the sign-up and login pages.
- `SecuritySettings`, `PersonalInformation`: the two settings forms.
- `Api`: the fetch wrapper and result normaliser (lib/api.ts).

Shared building blocks live in their own modules:

- `Strings`: `trim`, `split`, `parseInt`, `padStart` and related string
  operations.
- `JsValues`: JSON values, truthiness, `||`, `&&` and serialisation.
- `Lists`: filtering, counting and sums.
- `Credentials`: the regex rules the forms share.
- `DateInput`: the date mask and the two date converters.
- `FormErrors`: the per-field error map.
- `Requests`: the request values.

The date converter written inline in the loan, expense and beam forms only
fires on a ten-character input. An unpadded date such as `"5/7/2024"` has
eight characters, so it stays unconverted until the user types the padded
form; `DateInput.ShortDateNotConverted` and `DateInput.UnpaddedNotConverted`
state this.

## Model

| member | source | states |
|---|---|---|
| Strings.Trim | components/settings/PersonalInformation.tsx:68 | `trim()` is empty exactly when every character is whitespace, is never longer than the input, otherwise starts and ends with a non-space, and is the infix of the input left between a whitespace prefix and a whitespace suffix |
| Strings.TrimIdempotent | components/settings/PersonalInformation.tsx:154-156 | trimming an already trimmed value changes nothing |
| Strings.RemoveSpacesTrim | components/settings/PersonalInformation.tsx:86 | removing all whitespace gives the same text whether or not the value was trimmed first |
| Strings.ToLower | app/dashboard/workers/page.tsx:119 | `toLowerCase()` keeps the length and lowers each character in place |
| Strings.ContainsIff | app/dashboard/workers/page.tsx:119-121 | `includes(t)` holds exactly when `t` occurs at some index |
| Strings.ContainsEmpty | app/dashboard/workers/page.tsx:119 | every string includes the empty search term |
| Strings.Split | components/modals/AddWorkerModal.tsx:68 | `split('/')` returns at least one part and no part contains the separator |
| Strings.JoinSplit | components/modals/AddWorkerModal.tsx:68 | joining the parts of a split with the separator restores the input |
| Strings.SplitJoin | components/modals/AddWorkerModal.tsx:68-73 | splitting a join of separator-free parts returns exactly those parts |
| Strings.SplitHead | app/dashboard/beam/page.tsx:130 | the first part of a split is the input up to, and not including, the first separator |
| Strings.PadStart2 | app/dashboard/loans/page.tsx:638 | `padStart(2, '0')` only adds leading zeros, reaches width two, and never truncates |
| Strings.ParseInt | app/dashboard/loans/page.tsx:615 | `parseInt` is NaN exactly when no digit follows the leading whitespace and optional sign |
| Strings.ParseIntDigits | components/modals/AddWorkerModal.tsx:86-88 | `parseInt` of a digit string is that string's decimal value |
| Strings.ParseIntNegated | app/dashboard/loans/page.tsx:615 | a minus sign before digits gives the negated value |
| Strings.ParseIntDecimal | app/dashboard/loans/page.tsx:614-615 | the decimal text of any integer, as a number input shows it, reads back through `parseInt` as that integer |
| Lists.Filter | app/dashboard/workers/page.tsx:118-124 | `filter` keeps the elements that pass, each as often as it occurs in the input, and nothing else |
| Lists.FilterIsSubsequence | app/dashboard/workers/page.tsx:183 | a filtered list is an order-preserving subsequence of its source |
| Lists.FilterAll | app/dashboard/workers/page.tsx:118-124 | when every element passes, `filter` returns the list unchanged |
| Lists.FilterIdempotent | app/dashboard/workers/page.tsx:183 | filtering twice with the same test is filtering once |
| Lists.FilterConcat | app/dashboard/workers/page.tsx:166 | filtering distributes over concatenation |
| Lists.Count | app/dashboard/workers/page.tsx:302 | `filter(p).length` is the length of the filtered list and at most the list's length |
| Lists.SumConcat | app/dashboard/workers/page.tsx:314 | a `reduce` sum over a concatenation is the sum of the two sums |
| Lists.SumNonNegative | app/dashboard/workers/page.tsx:314 | a sum of non-negative terms is non-negative |
| JsValues.Get | app/login/page.tsx:109 | `data.key` is the stored property when the object has it, and `undefined` otherwise |
| JsValues.Or | app/login/page.tsx:120 | `a \|\| b` is truthy iff either operand is, and is `a` when `a` is truthy and `b` otherwise |
| JsValues.And | lib/api.ts:49 | `a && b` is truthy iff both operands are, and is `a` when `a` is falsy and `b` otherwise |
| JsValues.ElementString | components/modals/AddWorkerModal.tsx:260 | `join` renders nullish elements as the empty string and strings as themselves |
| JsValues.ArrayStringIsJoin | app/dashboard/beam/page.tsx:186-191 | converting an array to a string is joining it with "," |
| JsValues.Put | components/modals/AddWorkerModal.tsx:226-244 | `JSON.stringify` drops a property whose value is `undefined`, keeps any other, and touches no other property |
| JsValues.ErrorOrMessage | app/login/page.tsx:120 | `data.error \|\| data.message \|\| fallback` picks the first truthy one and is truthy whenever the fallback is non-empty |
| Requests.SaveRequest | app/dashboard/loans/page.tsx:215-220 | with a record selected the save is `PUT /<resource>/<id>`, and without one it is `POST /<resource>`; the body is passed through |
| Requests.SaveRequestTargetsSelection | app/dashboard/loans/page.tsx:215-217 | two different selections never produce the same save request |
| Requests.RefusalText | components/settings/SecuritySettings.tsx:133-136 | a refused `PUT` shows the body's truthy `message` as text, else the fallback (also when the body does not parse); a `null` body yields the engine's error |
| FormErrors.Record | app/signup/page.tsx:45-67 | after a check, the field is in the map iff it was before or the check failed, failing holds the check's message, and other fields are untouched |
| FormErrors.ClearError | app/signup/page.tsx:78-80 | typing into a field removes that field's error and keeps every other error as it was |
| Api.ApiRequest | lib/api.ts:15-23 | `apiRequest` yields no response exactly on a 401, and otherwise the response itself |
| Api.FailureMessage | lib/api.ts:49 | the failure text is the body's truthy `message`, else its truthy `error`, else `"<status> <statusText>"`, and is never falsy |
| Api.ToApiResult | lib/api.ts:36-65 | no response becomes the unauthorised 401 failure; the status is kept; success implies an ok response; a non-ok response is a failure whose message and error are the failure text; an ok object with a boolean `success` passes `success`, `data`, `message` and `error` through; an ok object with `data` and no boolean `success` is a success carrying that `data`; any other ok body (array, string, number, boolean, `null`, unparsable, or an object with neither key) is a success whose data is the body itself |
| Api.UnauthorizedShortCircuit | lib/api.ts:17-39 | any 401 ends as `{ success: false, message: 'Unauthorized or network error', status: 401 }` whatever its body |
| Api.ResponseStatusKept | lib/api.ts:48-64 | every other response keeps its status, and a non-ok one carries a truthy message |
| Api.EnvelopeRoundTrip | lib/api.ts:53-56 | an ok response whose body is a serialised result normalises back to that result's success, data, message and error |
| Api.BareArrayAccepted | lib/api.ts:61-63 | an ok bare array is a success whose data is the array |
| Api.DataEnvelopeUnwrapped | lib/api.ts:57-59 | an ok object with `data` but no boolean `success` is a success carrying that `data` |
| Api.UnparsableOkBody | lib/api.ts:41-64 | an ok response whose body does not parse is a success with `null` data |
| Credentials.GmailIsDottedEmail | app/signup/page.tsx:50 | every address the gmail pattern accepts also passes the general e-mail pattern |
| Credentials.GmailOf | app/signup/page.tsx:50 | `local@gmail.com` matches iff the local part is non-empty and has no whitespace or '@' |
| Credentials.DottedEmailNoSpace | components/settings/PersonalInformation.tsx:75-80 | an address the general pattern accepts holds no whitespace, so trimming leaves it unchanged |
| Credentials.SpacedPhoneHasTenDigits | components/modals/AddWorkerModal.tsx:183 | a phone that is ten digits once spaces are removed has exactly ten digits overall |
| Credentials.NameFieldError | components/modals/AddWorkerModal.tsx:177-179 | the name check of the sign-up and add-worker forms fails iff the name is blank, and then says "Name is required" |
| Credentials.GmailFieldError | app/signup/page.tsx:48-52 | the e-mail check passes iff the gmail pattern matches; blank gives "Email is required", any other mismatch the pattern message |
| Credentials.GmailNotBlank | app/signup/page.tsx:48-52 | an address the gmail pattern accepts is never blank |
| Credentials.PasswordFieldError | app/signup/page.tsx:58-62 | the password check passes iff the strength pattern matches; empty gives "Password is required", any other mismatch the strength message |
| DateInput.MaskDate | components/modals/AddWorkerModal.tsx:278-296 | the masked text is at most ten characters, and up to two digits are shown as typed digits alone |
| DateInput.MaskContent | components/modals/AddWorkerModal.tsx:278-302 | the masked text holds exactly the first eight digits typed, in order, laid out as `DD/MM/YYYY` with slashes only after two and four digits |
| DateInput.MaskIdempotent | components/modals/AddWorkerModal.tsx:278-302 | masking already masked text changes nothing |
| DateInput.Take | components/modals/AddWorkerModal.tsx:294 | the first `n` characters, or all of them when there are fewer |
| DateInput.FormatDateForBackend | components/modals/AddWorkerModal.tsx:64-77 | empty stays empty, a value without exactly three '/'-parts is returned unchanged, and the length never changes |
| DateInput.BackendOfParts | components/modals/AddWorkerModal.tsx:68-73 | `d/m/y` with slash-free parts converts to `y-m-d` with the parts untouched |
| DateInput.SplitOfThree | components/modals/AddWorkerModal.tsx:68-69 | `d/m/y` with slash-free parts splits into exactly `[d, m, y]` |
| DateInput.MaskedToBackend | components/modals/AddWorkerModal.tsx:64-77 | once eight digits `DDMMYYYY` are typed, the masked value converts to the ten-character `YYYY-MM-DD` made of the same digits |
| DateInput.DateParts | components/modals/AddWorkerModal.tsx:83-90 | no day, month and year are read unless there are exactly three parts |
| DateInput.IsValidDateFormat | components/modals/AddWorkerModal.tsx:80-96 | empty is valid; otherwise valid iff three parts parse to a day in 1..31, a month in 1..12 and a year in 1900..2100 |
| DateInput.DatePartsOfDigits | components/modals/AddWorkerModal.tsx:86-88 | three digit strings joined by '/' read back as their values |
| DateInput.MaskedValidity | components/modals/AddWorkerModal.tsx:80-96 | a fully masked date is valid iff its day, month and year digits are in range |
| DateInput.NoDaysPerMonthCheck | components/modals/AddWorkerModal.tsx:91-93 | 31/02 with a year in range is accepted, because days per month are not checked |
| DateInput.ConvertDisplayDate | app/dashboard/loans/page.tsx:631-640 | the inline converter fires iff the input has ten characters, contains '/' and splits into three non-empty parts, and then yields `y-pad2(m)-pad2(d)` |
| DateInput.ConvertParts | app/dashboard/loans/page.tsx:631-640 | slash-free parts of total length eight convert to `y-pad2(m)-pad2(d)` |
| DateInput.ConvertAgreesOnMasked | app/dashboard/loans/page.tsx:638 | on a fully masked date the inline converter and `formatDateForBackend` agree |
| DateInput.ShortDateNotConverted | app/dashboard/loans/page.tsx:631 | `"5/7/2024"` is not converted: it has eight characters, not ten |
| DateInput.UnpaddedNotConverted | app/dashboard/loans/page.tsx:631 | no unpadded `d/m/yyyy` is ever converted |
| DateInput.Commit | app/dashboard/loans/page.tsx:631-640 | the committed ISO value is replaced by the conversion when there is one, and kept otherwise |
| DateInput.OnChange | app/dashboard/loans/page.tsx:628-643 | `onChange` stores the typed text; the ISO value becomes its conversion when there is one and is kept otherwise |
| DateInput.OnBlur | app/dashboard/loans/page.tsx:644-658 | `onBlur` keeps the typed text; the ISO value becomes its conversion when there is one and is kept otherwise |
| DateInput.BlurAfterChange | app/dashboard/loans/page.tsx:628-658 | blurring right after a change commits nothing new |
| WorkerModal.HandleDateInput | components/modals/AddWorkerModal.tsx:278-302 | the named date field holds the first eight digits typed in the `DD/MM/YYYY` shape, and every other field is kept |
| WorkerModal.LeaveDateError | components/modals/AddWorkerModal.tsx:197-208 | the leave date fails iff it is present and either malformed or, when a join date is given, not after it, both dates making a valid `Date`; the ordering message "Leave date must be after join date" is shown exactly in the second case, and "Please enter date in dd/mm/yyyy format" otherwise |
| WorkerModal.PhoneError | components/modals/AddWorkerModal.tsx:181-185 | the phone fails iff it is blank or not ten digits once spaces are removed; blank gives "Phone number is required", otherwise "Please enter a valid 10-digit phone number" |
| WorkerModal.EmailError | components/modals/AddWorkerModal.tsx:187-189 | the e-mail fails iff it is non-empty and not `local@domain.tld`, always with "Please enter a valid email address" |
| WorkerModal.JoinDateError | components/modals/AddWorkerModal.tsx:191-195 | the join date fails iff it is missing or invalid; missing gives "Join date is required", invalid gives "Please enter date in dd/mm/yyyy format" |
| WorkerModal.ValidateWorker | components/modals/AddWorkerModal.tsx:174-212 | each field is in the error map iff its rule fails, and its entry is that field's check text: "Name is required", the e-mail text, and the phone, join and leave texts as their checks state |
| WorkerModal.ValidWorkerIff | components/modals/AddWorkerModal.tsx:210-211 | the error map is empty iff the form meets every rule |
| WorkerModal.NewWorkerBlocked | components/modals/AddWorkerModal.tsx:99-108 | the form as the modal opens it is refused for name, phone and join date only |
| WorkerModal.EqualDatesRejected | components/modals/AddWorkerModal.tsx:201-207 | a leave date equal to a join date whose three parts parse into a day in 1..31 and a month in 1..12 is refused with the must-be-after message |
| WorkerModal.OutOfRangeLeaveNotOrdered | components/modals/AddWorkerModal.tsx:197-208 | a leave date whose day or month is out of range makes an invalid `Date`, which never compares as not after the join date, so it keeps "Please enter date in dd/mm/yyyy format" whatever the join date |
| WorkerModal.OptionalText | components/modals/AddWorkerModal.tsx:229-230 | `x.trim() \|\| undefined` is absent iff the text is blank, and otherwise the trimmed text |
| WorkerModal.WorkerRequired | components/modals/AddWorkerModal.tsx:226-233 | the payload's always-present properties hold the given values, and the optional ones are not set |
| WorkerModal.WorkerObject | components/modals/AddWorkerModal.tsx:226-244 | a serialised optional property is present iff its value is not `undefined`, and the required ones pass through |
| WorkerModal.WorkerPayload | components/modals/AddWorkerModal.tsx:226-235 | the body has no keys beyond `name`, `phone`, `email`, `address`, `designation`, `status`, `join_date` and `leave_date`; it carries the trimmed name and phone, the designation and status name as chosen, and the converted join date; e-mail and address appear iff non-blank, trimmed; a leave date appears iff one was typed, converted |
| WorkerModal.SubmitWorker | components/modals/AddWorkerModal.tsx:214-245 | nothing is sent iff validation fails, and then the reason is the error map; otherwise one `POST /api/v1/workers` |
| WorkerModal.SentWorkerPayload | components/modals/AddWorkerModal.tsx:214-235 | a sent worker has a non-blank name, a ten-digit phone, a valid join date and a well-formed e-mail if any |
| WorkerModal.TypedJoinDateSent | components/modals/AddWorkerModal.tsx:233 | a join date typed as eight digits reaches the backend as the ten-character `YYYY-MM-DD` |
| WorkerModal.CreateErrorMessage | components/modals/AddWorkerModal.tsx:257-264 | the banner is never empty: `message`, else `error`, else the default for no or an empty `errors` list; an unreadable body or a non-array `errors` gives the network message |
| WorkersPage.FilteredWorkers | app/dashboard/workers/page.tsx:118-124 | exactly the workers matching the search and the status filter are shown, each as often as it is listed, in list order |
| WorkersPage.NoFilterShowsAll | app/dashboard/workers/page.tsx:118-124 | an empty search with the "all" filter shows the whole list |
| WorkersPage.UpdateWorker | app/dashboard/workers/page.tsx:157-163 | entries with the edited worker's id are replaced and every other entry stays in place |
| WorkersPage.UpdateIdempotent | app/dashboard/workers/page.tsx:157-163 | applying the same update twice is applying it once |
| WorkersPage.UpdateUnknownIsNoop | app/dashboard/workers/page.tsx:157-163 | an update for an id that is not listed leaves the list as it was |
| WorkersPage.AddWorker | app/dashboard/workers/page.tsx:165-167 | the new worker goes first and the old list follows |
| WorkersPage.DeleteRequest | app/dashboard/workers/page.tsx:169-178 | a delete request is made iff a worker is selected, and is `DELETE /workers/<id>` |
| WorkersPage.ApplyDelete | app/dashboard/workers/page.tsx:180-188 | an ok delete removes exactly the entries with that id and keeps every other entry as often as it was listed, in order; otherwise the list is unchanged |
| WorkersPage.DeleteUndoesAdd | app/dashboard/workers/page.tsx:165-184 | deleting a just-added worker with a new id restores the previous list |
| WorkersPage.ActiveCount | app/dashboard/workers/page.tsx:302 | the active counter counts the active workers and never exceeds the total |
| WorkersPage.TotalLoans | app/dashboard/workers/page.tsx:314 | the total-loans counter is never negative |
| WorkersPage.PendingAmount | app/dashboard/workers/page.tsx:326 | the pending-amount counter is zero for no workers and never negative when no worker owes a negative amount |
| WorkersPage.PendingConcat | app/dashboard/workers/page.tsx:326 | the pending amount of two lists together is the sum of their pending amounts |
| WorkersPage.CountersAfterAdd | app/dashboard/workers/page.tsx:291-326 | adding a worker moves each counter by exactly that worker's share |
| WorkersPage.PendingAfterDelete | app/dashboard/workers/page.tsx:326 | an ok delete lowers the pending amount by exactly what the removed entries owed |
| LoansPage.WorkerName | app/dashboard/loans/page.tsx:285-290 | the shown name is never empty: the populated worker's name, else the stored name, else "Unknown Worker" |
| LoansPage.FilterLoans | app/dashboard/loans/page.tsx:159-167 | exactly the loans whose name, amount or formatted date matches are shown, each as often as it is listed, in order |
| LoansPage.EmptySearchShowsAllLoans | app/dashboard/loans/page.tsx:159-167 | an empty search shows every loan |
| LoansPage.FindWorker | app/dashboard/loans/page.tsx:276 | `find` yields nothing iff no worker has the id, and otherwise the first one that does |
| LoansPage.HandleWorkerChange | app/dashboard/loans/page.tsx:275-282 | the chosen id is stored with that worker's name, or an empty name when unknown; amount, date and status are kept |
| LoansPage.LoanBody | app/dashboard/loans/page.tsx:225-231 | the body is an object with exactly the keys `worker_id`, `worker_name`, `loan_amt`, `loan_date` and `status`, holding the form's values; an amount that did not parse (`NaN`) is sent as `null` |
| LoansPage.SubmitLoan | app/dashboard/loans/page.tsx:202-232 | blocked with the required-fields message iff no worker or a falsy amount; otherwise `PUT /loans/<id>` when editing and `POST /loans` when creating |
| LoansPage.NegativeAmountSent | app/dashboard/loans/page.tsx:206 | the handler's own guard checks presence only, so a negative amount reaching it is sent as typed |
| LoansPage.DefaultInstallment | app/dashboard/loans/page.tsx:300 | the default installment is the smaller of the remaining amount and 1000 |
| LoansPage.NewLoanEditor | app/dashboard/loans/page.tsx:169-181 | the create form opens with empty worker and date, amount 0, status active, no typed date, nothing selected and no error |
| LoansPage.NewLoanBlocked | app/dashboard/loans/page.tsx:169-181 | a fresh create form cannot be submitted |
| LoansPage.EditLoan | app/dashboard/loans/page.tsx:183-195 | the form takes the loan's worker id, worker name, amount, date and status, and the typed date shows `formatDate` of it |
| LoansPage.EditedLoanUpdatesItself | app/dashboard/loans/page.tsx:183-220 | saving an unchanged edited loan that has a worker and a non-zero amount sends `PUT` to that loan's own URL with the form's body |
| LoansPage.OnLoanDateChange | app/dashboard/loans/page.tsx:628-643 | typing stores the text and commits the conversion when there is one; nothing else changes |
| LoansPage.OnLoanDateBlur | app/dashboard/loans/page.tsx:644-658 | blurring offers the current text to the converter again |
| LoansPage.LoanBlurAfterChange | app/dashboard/loans/page.tsx:628-658 | blurring right after typing changes nothing |
| LoansPage.TypedLoanDateCommits | app/dashboard/loans/page.tsx:628-643 | typing a ten-character `d/m/y` with non-empty slash-free parts commits `y-pad2(m)-pad2(d)` |
| ExpensesPage.FilterExpenses | app/dashboard/expenses/page.tsx:148-157 | exactly the expenses whose title, category, amount or formatted date matches are shown, each as often as it is listed, in order |
| ExpensesPage.EmptySearchShowsAllExpenses | app/dashboard/expenses/page.tsx:148-157 | an empty search shows every expense |
| ExpensesPage.ExpenseError | app/dashboard/expenses/page.tsx:197-210 | the first failing check in the order title, amount, category gives the message; none iff all pass |
| ExpensesPage.ExpenseBody | app/dashboard/expenses/page.tsx:226-232 | the body has exactly the five form fields, as typed |
| ExpensesPage.SubmitExpense | app/dashboard/expenses/page.tsx:192-233 | blocked with the first failing message iff a check fails; otherwise `PUT /expenses/<id>` or `POST /expenses` with the body |
| ExpensesPage.SentExpenseIsComplete | app/dashboard/expenses/page.tsx:197-232 | whatever is sent has a non-blank title and category and a positive amount |
| ExpensesPage.NewExpenseEditor | app/dashboard/expenses/page.tsx:159-171 | the create form opens with empty texts and date, amount 0, no typed date, nothing selected and no error |
| ExpensesPage.NewExpenseRefused | app/dashboard/expenses/page.tsx:159-171 | a fresh create form is refused at the title |
| ExpensesPage.EditExpense | app/dashboard/expenses/page.tsx:173-185 | the form takes the expense's fields, and the typed date shows `formatDate` of it |
| ExpensesPage.OnExpenseDateChange | app/dashboard/expenses/page.tsx:605-620 | typing stores the text and commits the conversion when there is one; nothing else changes |
| ExpensesPage.OnExpenseDateBlur | app/dashboard/expenses/page.tsx:621-635 | blurring offers the current text to the converter again |
| ExpensesPage.ExpenseBlurAfterChange | app/dashboard/expenses/page.tsx:605-635 | blurring right after typing changes nothing |
| BeamPage.FilterBeams | app/dashboard/beam/page.tsx:103-110 | exactly the beams whose quantity or formatted arrival date matches are shown, each as often as it is listed, in order |
| BeamPage.EmptySearchShowsAllBeams | app/dashboard/beam/page.tsx:103-110 | an empty search shows every beam |
| BeamPage.CreateBeam | app/dashboard/beam/page.tsx:112-125 | the create form has all three dates and their texts empty, quantity 0, and nothing selected |
| BeamPage.DatePrefix | app/dashboard/beam/page.tsx:130-132 | `split('T')[0]` is the prefix before the first 'T', and all of the text when there is none |
| BeamPage.DatePrefixIdempotent | app/dashboard/beam/page.tsx:130 | cutting at 'T' twice is cutting once |
| BeamPage.DatePrefixOfTimestamp | app/dashboard/beam/page.tsx:130 | an ISO timestamp is cut to its date part |
| BeamPage.EditBeam | app/dashboard/beam/page.tsx:127-144 | every date is stored cut at 'T' with `formatDate` of it as text, and the quantity is copied |
| BeamPage.WithDate | app/dashboard/beam/page.tsx:232-237 | replacing one date input's text and value leaves the other two and the rest of the editor untouched |
| BeamPage.OnBeamDateChange | app/dashboard/beam/page.tsx:430-445 | typing into one date input stores its text and commits its conversion; the other inputs are untouched |
| BeamPage.OnBeamDateBlur | app/dashboard/beam/page.tsx:446-460 | blurring one date input offers its text to the converter again; nothing else changes |
| BeamPage.DateInputsIndependent | app/dashboard/beam/page.tsx:489-547 | typing into two different date inputs gives the same editor in either order |
| BeamPage.BeamBlurAfterChange | app/dashboard/beam/page.tsx:430-460 | blurring an input right after typing into it changes nothing |
| BeamPage.BeamBody | app/dashboard/beam/page.tsx:174 | the body is the four form fields as they are, with a `NaN` quantity as `null` |
| BeamPage.SubmitBeam | app/dashboard/beam/page.tsx:151-175 | the handler sends every form it receives: `PUT /beams/<id>` when editing and `POST /beams` otherwise |
| BeamPage.EditThenSave | app/dashboard/beam/page.tsx:127-175 | saving an unchanged edited beam sends `PUT` to its own URL with its arrival date cut at 'T' and its quantity |
| BeamPage.ThrownBeamMessage | app/dashboard/beam/page.tsx:177-191 | an unparsable or `null` error body gives the default with the status line; a truthy `errors` array gives its join with ", "; otherwise the first truthy of `error` and `message` as text, else "Failed to save beam" |
| BeamPage.BeamSaveError | app/dashboard/beam/page.tsx:177-198 | the banner is never empty, and an unparsable body shows the default with the status line |
| BeamPage.ErrorListShown | app/dashboard/beam/page.tsx:183-184 | an `errors` array whose join is non-empty is shown joined with ", " |
| BeamPage.ErrorTextShown | app/dashboard/beam/page.tsx:186 | without an `errors` array, a non-empty `error` wins over `message` |
| BeamPage.MessageTextShown | app/dashboard/beam/page.tsx:186 | with neither `errors` nor `error`, a non-empty `message` is shown |
| BeamPage.DefaultShown | app/dashboard/beam/page.tsx:180-198 | a body with none of the three keys, or an empty `errors` array, shows "Failed to save beam" |
| SignupPage.SetField | app/signup/page.tsx:75 | one field takes the value and the others are kept |
| SignupPage.PhoneError | app/signup/page.tsx:53-57 | the phone passes iff it is non-blank with exactly ten digits among its characters; blank and malformed phones get their own messages |
| SignupPage.ConfirmError | app/signup/page.tsx:63-67 | the confirmation passes iff it is non-empty and equals the password |
| SignupPage.ValidateSignup | app/signup/page.tsx:41-71 | each field is in the error map iff its check fails, holding that check's message |
| SignupPage.ValidSignupIff | app/signup/page.tsx:69-70 | the error map is empty iff the form meets every rule |
| SignupPage.HandleSignupInput | app/signup/page.tsx:73-81 | the edited field takes the value and loses its error; nothing else changes |
| SignupPage.SignupBody | app/signup/page.tsx:100-105 | the body has name, e-mail, phone and password as typed, and never the confirmation |
| SignupPage.SubmitSignup | app/signup/page.tsx:83-106 | nothing is sent iff the form is refused, and then the reason is its error map; otherwise one `POST /auth/signup` |
| SignupPage.SignupBanner | app/signup/page.tsx:108-126 | there is no banner iff the answer is ok with a readable body; a banner is always truthy; no response, an unparsable body or a `null` body gives the network message, ok or not; a refusal with a readable body shows `error || message || 'Registration failed. Please try again.'` |
| SignupPage.RefusalShowsServerError | app/signup/page.tsx:121-123 | a refusal whose body names an `error` shows that error |
| LoginPage.SetField | app/login/page.tsx:54 | one field takes the value and the other is kept |
| LoginPage.ValidateLogin | app/login/page.tsx:32-50 | e-mail and password are in the error map iff their patterns fail, with the required or pattern message as the code orders them |
| LoginPage.ValidLoginIff | app/login/page.tsx:48-49 | the error map is empty iff both patterns match |
| LoginPage.HandleLoginInput | app/login/page.tsx:52-60 | the edited field takes the value and loses its error; nothing else changes |
| LoginPage.LoginBody | app/login/page.tsx:92-95 | the body is exactly the e-mail and password as typed |
| LoginPage.SubmitLogin | app/login/page.tsx:62-97 | nothing is sent iff the form is refused; otherwise one `POST /auth/login` |
| LoginPage.SignupCredentialsLogIn | app/login/page.tsx:36-46 | credentials the sign-up form accepts are accepted by the login form |
| LoginPage.AfterLogin | app/login/page.tsx:99-130 | login succeeds iff the answer is ok with a readable body; a stored session holds the body's truthy token and user; timeout and network failure give their own messages; every failure banner is truthy |
| LoginPage.TokenStored | app/login/page.tsx:107-113 | an ok answer with a token stores exactly that token and user |
| LoginPage.RefusalBanner | app/login/page.tsx:119-123 | a refusal shows `error`, else `message`, else "Login failed. Please try again." |
| SecuritySettings.SetField | components/settings/SecuritySettings.tsx:81 | one field takes the value and the others are kept |
| SecuritySettings.CurrentError | components/settings/SecuritySettings.tsx:54-56 | the current password fails iff it is blank |
| SecuritySettings.NewPasswordError | components/settings/SecuritySettings.tsx:59-67 | the new password passes iff it is non-blank, at least eight long, with a lower-case letter and a symbol; each failure gives its own rule's message in order |
| SecuritySettings.ConfirmError | components/settings/SecuritySettings.tsx:70-74 | the confirmation passes iff it is non-blank and equals the new password |
| SecuritySettings.ValidatePasswordForm | components/settings/SecuritySettings.tsx:50-78 | each field is in the error map iff its rule fails, with the required messages for blank fields |
| SecuritySettings.ValidChangeIff | components/settings/SecuritySettings.tsx:76-77 | the error map is empty iff the change meets every rule |
| SecuritySettings.LowerNotBlank | components/settings/SecuritySettings.tsx:59-63 | a password with a lower-case letter is never blank |
| SecuritySettings.StrongPasswordAccepted | components/settings/SecuritySettings.tsx:59-67 | every password the login pattern accepts passes the new-password check |
| SecuritySettings.LineFeedAcceptedHere | components/settings/SecuritySettings.tsx:63-65 | "abcdefg!\n" passes the new-password check although the login pattern refuses it |
| SecuritySettings.HandlePasswordInput | components/settings/SecuritySettings.tsx:80-87 | the edited field takes the value and loses its error; nothing else changes |
| SecuritySettings.ChangeBody | components/settings/SecuritySettings.tsx:127-130 | the body is the current and new password; the confirmation is not sent |
| SecuritySettings.SubmitPasswordChange | components/settings/SecuritySettings.tsx:89-131 | a `PUT` is sent iff the form is valid and the endpoint is available; an invalid form records its errors and clears the general notice; no token and a missing endpoint give their notices |
| SecuritySettings.AfterPasswordChange | components/settings/SecuritySettings.tsx:133-152 | success resets the form to empty; a refusal shows the server's message or the default; a thrown error shows its text |
| SecuritySettings.ResetFormRefused | components/settings/SecuritySettings.tsx:139-143 | right after a successful change every field of the emptied form is refused |
| PersonalInformation.LoadProfile | components/settings/PersonalInformation.tsx:54-62 | with a user the form shows its name, e-mail and phone; without one the form is left as it is |
| PersonalInformation.SetField | components/settings/PersonalInformation.tsx:95 | one field takes the value and the others are kept |
| PersonalInformation.NameError | components/settings/PersonalInformation.tsx:68-72 | the name passes iff its trim has at least two characters; blank and one-character names get their own messages |
| PersonalInformation.EmailError | components/settings/PersonalInformation.tsx:75-80 | the e-mail passes iff it matches `local@domain.tld`; blank gives "Email is required" |
| PersonalInformation.PhoneError | components/settings/PersonalInformation.tsx:83-88 | the phone passes iff it is non-blank and ten digits once whitespace is removed |
| PersonalInformation.ValidateProfile | components/settings/PersonalInformation.tsx:64-92 | each field is in the error map iff its check fails, holding that check's message |
| PersonalInformation.ValidProfileIff | components/settings/PersonalInformation.tsx:90-91 | the error map is empty iff the profile meets every rule |
| PersonalInformation.HandleProfileInput | components/settings/PersonalInformation.tsx:94-101 | the edited field takes the value and loses its error; nothing else changes |
| PersonalInformation.TrimmedIdempotent | components/settings/PersonalInformation.tsx:178-180 | saving trims nothing more the second time |
| PersonalInformation.TrimmedStaysAcceptable | components/settings/PersonalInformation.tsx:152-156 | a valid profile stays valid once trimmed, and trimming leaves its e-mail unchanged |
| PersonalInformation.ProfileBody | components/settings/PersonalInformation.tsx:177-181 | the body is exactly name, e-mail and phone as given |
| PersonalInformation.LocalUser | components/settings/PersonalInformation.tsx:152-158 | the local user has the trimmed fields, and the signed-in id and role or "1" and "user" when those are empty |
| PersonalInformation.LocalSaveReloads | components/settings/PersonalInformation.tsx:150-169 | a locally saved user loads back as the trimmed form, which passes the checks again |
| PersonalInformation.SubmitProfile | components/settings/PersonalInformation.tsx:126-182 | an invalid form records its errors, clears the general notice and does nothing else; a valid one clears them and then shows the no-token error, keeps a local user, or sends one `PUT` of the trimmed fields |
| PersonalInformation.AfterProfileUpdate | components/settings/PersonalInformation.tsx:184-204 | a user is kept iff the answer is ok with a readable body; a refusal shows the server message or the default; a thrown error shows its text |

## Left out

- Rendering, animation, navigation, timers, `console` output and `localStorage` writes are left out. `localStorage` writes appear only as the session or user value a handler keeps.
- The backend is not modelled. A response is an input with a status, a status text and a body, where `None` means a body that does not parse as JSON.
- The bearer token and the `OPTIONS` probe of the two settings forms are a `Gate` parameter: no token, endpoint missing, or available.
- The `formatDate` helper the pages import is not part of this model. It is a function parameter wherever the pages call it.
- `formatDateForDisplay`, currency formatting and colour helpers are not modelled, because they only affect display.
- Fetching and normalising the lists are left out, and so are the loan payment form, the expense cleanup, two-factor toggling and profile image upload. None of these belongs to the form and list logic modelled here.
- The confirmed deletes of loans, expenses and beams are left out. They only send `DELETE` and reload the list.
- The save-error banners of the loan and expense pages are left out. They show `errorData.error || 'Failed to save …'` after a fetch whose failure text the JavaScript engine chooses.
- Error texts the JavaScript engine chooses are modelled as `None` or left out. These are the `TypeError` from a `null` body, the `SyntaxError` from an unparsable ok body and a failed `fetch`.
- Strings.Trim: whitespace is the six ASCII whitespace characters, not the full Unicode set that `trim()` and `\s` cover.
- Strings.ToLower: only ASCII letters are lowered.
- Credentials.IsStrongPassword: strings are sequences of code points, while JavaScript's `length` counts UTF-16 code units. A password of "ab!" and three U+1F600 emoji has length 9 in JavaScript and 6 here, so the two disagree on the eight-character minimum for text outside the Basic Multilingual Plane.
- SecuritySettings.NewPasswordError: the same code-point length, so the eight-character check can differ from the page's for characters outside the Basic Multilingual Plane.
- PersonalInformation.NameError: the same code-point length for the two-character minimum, so a trimmed name of one U+1F600 passes in JavaScript (length 2) and is too short here.
- DateInput.ConvertDisplayDate: the same code-point length for the ten-character test. "1/1/2024" followed by one U+1F600 has length 10 in JavaScript and converts there, but has length 9 here and does not.
- Browser constraint validation is not modelled. The `required` and `min="1"` attributes on the beam, loan and expense forms (app/dashboard/beam/page.tsx:428-530, app/dashboard/loans/page.tsx:592-626, app/dashboard/expenses/page.tsx:554-603) stop the browser from submitting. The submit handlers are modelled as called with whatever the form holds, so `BeamPage.SubmitBeam` and `LoansPage.NegativeAmountSent` describe the handlers, not what a browser lets through.
- Strings.ParseInt: the `0x` hexadecimal prefix, which `parseInt` accepts without a radix, is not modelled.
- Numbers are integers. The amount inputs cannot produce fractions through `parseInt`. `NaN` is `None` and serialises as `null`.
- WorkerModal.ValidateWorker: the leave/join comparison compares (year, month, day) number triples instead of JavaScript `Date` objects. `Date`'s rollover of out-of-range days (31/02 becoming early March) and its time-zone handling are not modelled. A date whose parts do not all parse, or whose day is outside 1..31 or month outside 1..12, compares false, as an invalid `Date` does. The year is compared as the number its digits spell; how an engine's `Date` parser reads a year of fewer than four digits is not modelled.
- PersonalInformation.ValidateProfile: the contract links each field to its check function rather than restating the rule. The rules themselves are on `NameError`, `EmailError` and `PhoneError`, and `ValidProfileIff` relates the whole map to them.
- SignupPage.ValidateSignup: the same structure as `ValidateProfile`. The rules are on the field checks, and `ValidSignupIff` relates the whole map to them.
- SecuritySettings.ValidatePasswordForm: states the messages only for the required cases. The length, lower-case, symbol and mismatch messages are on `NewPasswordError` and `ConfirmError`.
- DateInput.FormatDateForBackend: its own contract does not state what a three-part value converts to. `BackendOfParts` and `MaskedToBackend` state it.
- DateInput.MaskDate: its own contract states the ten-character bound and the short case only. `MaskContent` and `MaskIdempotent` state the full layout.
- DateInput.DateParts: its own contract only says that it fails without three parts. `DatePartsOfDigits` states what it reads.
- BeamPage.BeamSaveError: its own contract says only that the banner is non-empty and is the thrown message or the default. `ErrorListShown`, `ErrorTextShown`, `MessageTextShown` and `DefaultShown` state which message appears.
- WorkersPage.TotalLoans: its own contract states only non-negativity. `CountersAfterAdd` states how it moves.
- WorkerModal.CreateErrorMessage: a non-empty `errors` array is shown as its join with ", " through the same `||` chain. The contract does not restate that join.
- PersonalInformation.AfterProfileUpdate: an ok answer whose body does not parse shows an engine-chosen `SyntaxError` text. Here that general error is `None`.
- Requests.RefusalText: a `null` refusal body shows an engine-chosen `TypeError` text. Here that is `None`.

=== FILE: api.dfy ===
/**
 * The API client's response handling (lib/api.ts): `apiRequest` turns a 401
 * into "no response", and `toApiResult` normalises a possibly absent response
 * into one result shape whatever envelope the endpoint used.
 */
module Api {
  import opened Optional
  import opened Strings
  import opened JsValues

  /** A fetch response: status, status text, and the body as parsed by `response.json()` (`None` when it does not parse). */
  datatype Response = Response(status: int, statusText: string, body: Option<JsValue>) {
    /** `response.ok`. */
    predicate Ok() { 200 <= status <= 299 }
  }

  /** The normalised result; a field that the source leaves unset is `Undefined`. */
  datatype ApiResult = ApiResult(success: bool, data: JsValue, message: JsValue, error: JsValue, status: int)

  const UnauthorizedMessage: string := "Unauthorized or network error"

  /** `apiRequest` after the fetch: a 401 yields no response (the page is sent to the login screen). */
  function ApiRequest(response: Response): (r: Option<Response>)
    ensures r.None? <==> response.status == 401
    ensures r.Some? ==> r.value == response
  {
    if response.status == 401 then None else Some(response)
  }

  /** `(json && (json.message || json.error)) || "<status> <statusText>"`. */
  function FailureMessage(json: JsValue, status: int, statusText: string): (m: JsValue)
    ensures Truthy(m)
    ensures Truthy(json) && Truthy(Get(json, "message")) ==> m == Get(json, "message")
    ensures Truthy(json) && !Truthy(Get(json, "message")) && Truthy(Get(json, "error")) ==> m == Get(json, "error")
    ensures !(Truthy(json) && (Truthy(Get(json, "message")) || Truthy(Get(json, "error")))) ==>
      m == Str(IntToDecimal(status) + " " + statusText)
  {
    Or(And(json, Or(Get(json, "message"), Get(json, "error"))), Str(IntToDecimal(status) + " " + statusText))
  }

  /** `toApiResult`. */
  function ToApiResult(response: Option<Response>): (r: ApiResult)
    ensures response.None? ==> r == ApiResult(false, Undefined, Str(UnauthorizedMessage), Undefined, 401)
    ensures response.Some? ==> r.status == response.value.status
    ensures r.success ==> response.Some? && response.value.Ok()
    ensures response.Some? && !response.value.Ok() ==>
      var resp := response.value;
      && !r.success
      && r.message == r.error == FailureMessage(resp.body.GetOr(Null), resp.status, resp.statusText)
    ensures response.Some? && response.value.Ok() ==>
      var json := response.value.body.GetOr(Null);
      && (json.Obj? && Get(json, "success").Bool? ==>
            r == ApiResult(Get(json, "success").b, Get(json, "data"), Get(json, "message"), Get(json, "error"), response.value.status))
      && (json.Obj? && !Get(json, "success").Bool? && "data" in json.fields ==>
            r == ApiResult(true, json.fields["data"], Undefined, Undefined, response.value.status))
      && (!(json.Obj? && (Get(json, "success").Bool? || "data" in json.fields)) ==>
            r == ApiResult(true, json, Undefined, Undefined, response.value.status))
  {
    match response
    case None => ApiResult(false, Undefined, Str(UnauthorizedMessage), Undefined, 401)
    case Some(resp) =>
      var json := resp.body.GetOr(Null);
      if !resp.Ok() then
        var msg := FailureMessage(json, resp.status, resp.statusText);
        ApiResult(false, Undefined, msg, msg, resp.status)
      else if json.Obj? && Get(json, "success").Bool? then
        ApiResult(Get(json, "success").b, Get(json, "data"), Get(json, "message"), Get(json, "error"), resp.status)
      else if json.Obj? && "data" in json.fields then
        ApiResult(true, json.fields["data"], Undefined, Undefined, resp.status)
      else
        ApiResult(true, json, Undefined, Undefined, resp.status)
  }

  /** A 401 from any endpoint ends as the unauthorised failure, whatever its body. */
  lemma UnauthorizedShortCircuit(response: Response)
    requires response.status == 401
    ensures ToApiResult(ApiRequest(response)) == ApiResult(false, Undefined, Str(UnauthorizedMessage), Undefined, 401)
  {
  }

  /** Every other response keeps its status, and failures carry a non-empty message. */
  lemma ResponseStatusKept(response: Response)
    requires response.status != 401
    ensures ToApiResult(ApiRequest(response)).status == response.status
    ensures !response.Ok() ==> Truthy(ToApiResult(ApiRequest(response)).message)
  {
  }

  /** The envelope `{ success, data, message, error }` a result serialises to; unset fields are omitted. */
  function Envelope(r: ApiResult): JsValue {
    Obj(Put(Put(Put(Put(map[], "success", Bool(r.success)), "data", r.data), "message", r.message), "error", r.error))
  }

  /**
   * Normalisation is stable on its own output: an ok response whose body is
   * the envelope of a result normalises back to that result's success, data,
   * message and error.
   */
  lemma EnvelopeRoundTrip(r: ApiResult, status: int, statusText: string)
    requires 200 <= status <= 299
    ensures var back := ToApiResult(Some(Response(status, statusText, Some(Envelope(r)))));
      back == r.(status := status)
  {
    var env := Envelope(r);
    assert "success" in env.fields;
    assert Get(env, "success") == Bool(r.success);
    assert Get(env, "data") == r.data;
    assert Get(env, "message") == r.message;
    assert Get(env, "error") == r.error;
  }

  /** An ok bare array is accepted as the data itself. */
  lemma BareArrayAccepted(items: seq<JsValue>, status: int, statusText: string)
    requires 200 <= status <= 299
    ensures ToApiResult(Some(Response(status, statusText, Some(Arr(items))))) == ApiResult(true, Arr(items), Undefined, Undefined, status)
  {
  }

  /** An ok object with `data` but no boolean `success` is unwrapped to that data. */
  lemma DataEnvelopeUnwrapped(fields: map<string, JsValue>, status: int, statusText: string)
    requires 200 <= status <= 299
    requires "data" in fields
    requires !("success" in fields && fields["success"].Bool?)
    ensures ToApiResult(Some(Response(status, statusText, Some(Obj(fields))))) == ApiResult(true, fields["data"], Undefined, Undefined, status)
  {
  }

  /** An ok response whose body does not parse is a success with `null` data. */
  lemma UnparsableOkBody(status: int, statusText: string)
    requires 200 <= status <= 299
    ensures ToApiResult(Some(Response(status, statusText, None))) == ApiResult(true, Null, Undefined, Undefined, status)
  {
  }
}

=== FILE: beam_page.dfy ===
/**
 * The beam dashboard (app/dashboard/beam/page.tsx): the search filter, the
 * create reset and edit loading, the three independent date inputs, the save
 * request, and the error message built from a refused save.
 */
module BeamPage {
  import opened Optional
  import opened Strings
  import opened JsValues
  import opened Lists
  import opened DateInput
  import opened Requests

  /** A beam delivery as listed. */
  datatype Beam = Beam(id: string, arrivalDate: string, beamsArrived: int, weekStart: string, weekEnd: string)

  /** The beam form; `beamsArrived` is the `parseInt` of the quantity input, `None` for `NaN`. */
  datatype BeamForm = BeamForm(arrivalDate: string, beamsArrived: Option<int>, weekStart: string, weekEnd: string)

  /** The editor state: the form, the three typed date texts, the beam being edited, and the error banner. */
  datatype BeamEditor = BeamEditor(
    form: BeamForm,
    rawArrival: string,
    rawWeekStart: string,
    rawWeekEnd: string,
    selected: Option<Beam>,
    error: string)

  /** The three date inputs of the form. */
  datatype BeamDate = Arrival | WeekStart | WeekEnd

  /** The committed ISO value of one date input. */
  function IsoOf(form: BeamForm, which: BeamDate): string {
    match which
    case Arrival => form.arrivalDate
    case WeekStart => form.weekStart
    case WeekEnd => form.weekEnd
  }

  /** The typed text of one date input. */
  function RawOf(e: BeamEditor, which: BeamDate): string {
    match which
    case Arrival => e.rawArrival
    case WeekStart => e.rawWeekStart
    case WeekEnd => e.rawWeekEnd
  }

  /** The search rule: the quantity's decimal text or the formatted arrival date contains the term. */
  predicate BeamMatches(b: Beam, term: string, formatDate: string -> string) {
    Contains(IntToDecimal(b.beamsArrived), term) || Contains(formatDate(b.arrivalDate), term)
  }

  /** The filtered list: exactly the matching beams, in their original order. */
  function FilterBeams(beams: seq<Beam>, term: string, formatDate: string -> string): (shown: seq<Beam>)
    ensures IsSubsequence(shown, beams)
    ensures forall i :: 0 <= i < |shown| ==> BeamMatches(shown[i], term, formatDate)
    ensures forall i :: 0 <= i < |beams| && BeamMatches(beams[i], term, formatDate) ==>
      multiset(shown)[beams[i]] == multiset(beams)[beams[i]]
  {
    var keep := b => BeamMatches(b, term, formatDate);
    FilterIsSubsequence(beams, keep);
    Filter(beams, keep)
  }

  /** An empty search shows every beam. */
  lemma EmptySearchShowsAllBeams(beams: seq<Beam>, formatDate: string -> string)
    ensures FilterBeams(beams, "", formatDate) == beams
  {
    forall i | 0 <= i < |beams|
      ensures BeamMatches(beams[i], "", formatDate)
    {
      ContainsEmpty(IntToDecimal(beams[i].beamsArrived));
    }
    FilterAll(beams, b => BeamMatches(b, "", formatDate));
  }

  /** `handleCreate`: an empty form with quantity 0, all three typed dates cleared, nothing selected, no error. */
  function CreateBeam(): (e: BeamEditor)
    ensures forall which :: RawOf(e, which) == "" && IsoOf(e.form, which) == ""
    ensures e.form.beamsArrived == Some(0)
    ensures e.selected.None? && e.error == ""
  {
    BeamEditor(BeamForm("", Some(0), "", ""), "", "", "", None, "")
  }

  /** `date.split('T')[0]`: the text before the first 'T', which is all of it when there is none. */
  function DatePrefix(s: string): (r: string)
    ensures IsPrefix(r, s)
    ensures 'T' !in r
    ensures |r| < |s| ==> s[|r|] == 'T'
    ensures 'T' !in s ==> r == s
  {
    SplitHead(s, 'T');
    Split(s, 'T')[0]
  }

  /** Cutting at 'T' twice is cutting once. */
  lemma DatePrefixIdempotent(s: string)
    ensures DatePrefix(DatePrefix(s)) == DatePrefix(s)
  {
  }

  /** An ISO timestamp is cut to its date part. */
  lemma DatePrefixOfTimestamp(date: string, time: string)
    requires 'T' !in date
    ensures DatePrefix(date + "T" + time) == date
  {
    SplitAfterSepFree(date, time, 'T');
  }

  /**
   * `handleEdit`: each date is cut at its 'T' and stored, its typed text is
   * `formatDate` of the cut date, and the quantity is copied.
   */
  function EditBeam(b: Beam, formatDate: string -> string): (e: BeamEditor)
    ensures e.form.arrivalDate == DatePrefix(b.arrivalDate) && e.rawArrival == formatDate(DatePrefix(b.arrivalDate))
    ensures e.form.weekStart == DatePrefix(b.weekStart) && e.rawWeekStart == formatDate(DatePrefix(b.weekStart))
    ensures e.form.weekEnd == DatePrefix(b.weekEnd) && e.rawWeekEnd == formatDate(DatePrefix(b.weekEnd))
    ensures forall which :: 'T' !in IsoOf(e.form, which)
    ensures e.form.beamsArrived == Some(b.beamsArrived)
    ensures e.selected == Some(b) && e.error == ""
  {
    var arrival := DatePrefix(b.arrivalDate);
    var weekStart := DatePrefix(b.weekStart);
    var weekEnd := DatePrefix(b.weekEnd);
    BeamEditor(BeamForm(arrival, Some(b.beamsArrived), weekStart, weekEnd),
      formatDate(arrival), formatDate(weekStart), formatDate(weekEnd), Some(b), "")
  }

  /** The editor with one date input's text and committed value replaced. */
  function WithDate(e: BeamEditor, which: BeamDate, raw: string, iso: string): (r: BeamEditor)
    ensures RawOf(r, which) == raw && IsoOf(r.form, which) == iso
    ensures forall other :: other != which ==> RawOf(r, other) == RawOf(e, other) && IsoOf(r.form, other) == IsoOf(e.form, other)
    ensures r.form.beamsArrived == e.form.beamsArrived && r.selected == e.selected && r.error == e.error
  {
    match which
    case Arrival => e.(rawArrival := raw, form := e.form.(arrivalDate := iso))
    case WeekStart => e.(rawWeekStart := raw, form := e.form.(weekStart := iso))
    case WeekEnd => e.(rawWeekEnd := raw, form := e.form.(weekEnd := iso))
  }

  /**
   * One date input's `onChange`: its text is stored and, when it converts,
   * its ISO value; the other two inputs and the rest of the editor are untouched.
   */
  function OnBeamDateChange(e: BeamEditor, which: BeamDate, input: string): (r: BeamEditor)
    ensures RawOf(r, which) == input
    ensures IsoOf(r.form, which) == Commit(IsoOf(e.form, which), input)
    ensures forall other :: other != which ==> RawOf(r, other) == RawOf(e, other) && IsoOf(r.form, other) == IsoOf(e.form, other)
    ensures r.form.beamsArrived == e.form.beamsArrived && r.selected == e.selected && r.error == e.error
  {
    var f := OnChange(DateField(RawOf(e, which), IsoOf(e.form, which)), input);
    WithDate(e, which, f.raw, f.iso)
  }

  /** One date input's `onBlur`: its current text is offered to the converter again; nothing else changes. */
  function OnBeamDateBlur(e: BeamEditor, which: BeamDate): (r: BeamEditor)
    ensures RawOf(r, which) == RawOf(e, which)
    ensures IsoOf(r.form, which) == Commit(IsoOf(e.form, which), RawOf(e, which))
    ensures forall other :: other != which ==> RawOf(r, other) == RawOf(e, other) && IsoOf(r.form, other) == IsoOf(e.form, other)
    ensures r.form.beamsArrived == e.form.beamsArrived && r.selected == e.selected && r.error == e.error
  {
    var f := OnBlur(DateField(RawOf(e, which), IsoOf(e.form, which)));
    WithDate(e, which, f.raw, f.iso)
  }

  /** Typing into two different date inputs gives the same editor in either order. */
  lemma DateInputsIndependent(e: BeamEditor, a: BeamDate, b: BeamDate, x: string, y: string)
    requires a != b
    ensures OnBeamDateChange(OnBeamDateChange(e, a, x), b, y) == OnBeamDateChange(OnBeamDateChange(e, b, y), a, x)
  {
  }

  /** Blurring an input right after typing into it changes nothing. */
  lemma BeamBlurAfterChange(e: BeamEditor, which: BeamDate, input: string)
    ensures OnBeamDateBlur(OnBeamDateChange(e, which, input), which) == OnBeamDateChange(e, which, input)
  {
  }

  function BeamFields(form: BeamForm): map<string, JsValue> {
    map[
      "beam_arrival_date" := Str(form.arrivalDate),
      "beams_arrived" := if form.beamsArrived.Some? then Num(form.beamsArrived.value) else Null,
      "week_start" := Str(form.weekStart),
      "week_end" := Str(form.weekEnd)
    ]
  }

  /** `JSON.stringify(formData)`: the four form fields as they are, a `NaN` quantity as `null`. */
  function BeamBody(form: BeamForm): (body: JsValue)
    ensures body.Obj?
    ensures body.fields.Keys == {"beam_arrival_date", "beams_arrived", "week_start", "week_end"}
    ensures Get(body, "beam_arrival_date") == Str(form.arrivalDate)
    ensures Get(body, "week_start") == Str(form.weekStart) && Get(body, "week_end") == Str(form.weekEnd)
    ensures Get(body, "beams_arrived") == if form.beamsArrived.Some? then Num(form.beamsArrived.value) else Null
  {
    var fields := BeamFields(form);
    assert fields["beam_arrival_date"] == Str(form.arrivalDate);
    assert fields["beams_arrived"] == if form.beamsArrived.Some? then Num(form.beamsArrived.value) else Null;
    assert fields["week_start"] == Str(form.weekStart);
    assert fields["week_end"] == Str(form.weekEnd);
    Obj(fields)
  }

  /** The id of the beam being edited, if any. */
  function SelectedBeamId(selected: Option<Beam>): Option<string> {
    if selected.Some? then Some(selected.value.id) else None
  }

  /**
   * `handleSubmit`: there are no client-side checks, so every submit sends
   * the form, to `PUT /beams/<id>` when editing and `POST /beams` otherwise.
   */
  function SubmitBeam(form: BeamForm, selected: Option<Beam>): (r: Request)
    ensures r.verb == PUT <==> selected.Some?
    ensures r.verb == POST <==> selected.None?
    ensures selected.Some? ==> r.path == "/beams/" + selected.value.id
    ensures selected.None? ==> r.path == "/beams"
    ensures r.body == BeamBody(form)
  {
    assert "/" + "beams" == "/beams" && "/" + "beams" + "/" == "/beams/";
    SaveRequest("beams", SelectedBeamId(selected), BeamBody(form))
  }

  /** Editing a beam and saving without changes writes back its dates cut at 'T'. */
  lemma EditThenSave(b: Beam, formatDate: string -> string)
    ensures var e := EditBeam(b, formatDate);
      var r := SubmitBeam(e.form, e.selected);
      && r.verb == PUT && r.path == "/beams/" + b.id
      && Get(r.body, "beam_arrival_date") == Str(DatePrefix(b.arrivalDate))
      && Get(r.body, "beams_arrived") == Num(b.beamsArrived)
  {
  }

  const SaveFailed: string := "Failed to save beam"

  /** The message when the error body is not JSON (or is `null`): the default with the status line. */
  function UnreadableBodyMessage(status: int, statusText: string): string {
    SaveFailed + ": " + IntToDecimal(status) + " " + statusText
  }

  /**
   * The message thrown for a refused save, from the parsed error body
   * (`None` when it is not JSON): an `errors` array joined with ", ",
   * otherwise `error || message || 'Failed to save beam'` as text. A `null`
   * body throws while reading `.errors` and ends in the same handler as
   * unparsable text.
   */
  function ThrownBeamMessage(status: int, statusText: string, parsed: Option<JsValue>): (m: string)
    ensures parsed.None? || IsNullish(parsed.value) ==> m == UnreadableBodyMessage(status, statusText)
    ensures parsed.Some? && !IsNullish(parsed.value) ==>
      var data := parsed.value;
      var errors := Get(data, "errors");
      && (Truthy(errors) && errors.Arr? ==> m == JoinArray(errors.items, ", "))
      && (!(Truthy(errors) && errors.Arr?) && Truthy(Get(data, "error")) ==> m == ToJsString(Get(data, "error")))
      && (!(Truthy(errors) && errors.Arr?) && !Truthy(Get(data, "error")) && Truthy(Get(data, "message")) ==>
          m == ToJsString(Get(data, "message")))
      && (!(Truthy(errors) && errors.Arr?) && !Truthy(Get(data, "error")) && !Truthy(Get(data, "message")) ==>
          m == SaveFailed)
  {
    match parsed
    case None => UnreadableBodyMessage(status, statusText)
    case Some(data) =>
      if IsNullish(data) then UnreadableBodyMessage(status, statusText)
      else
        var errors := Get(data, "errors");
        if Truthy(errors) && errors.Arr? then JoinArray(errors.items, ", ")
        else ToJsString(Or(Or(Get(data, "error"), Get(data, "message")), Str(SaveFailed)))
  }

  /** The banner: the thrown message, or the default when that message is empty. */
  function BeamSaveError(status: int, statusText: string, parsed: Option<JsValue>): (m: string)
    ensures m != ""
    ensures parsed.None? ==> m == UnreadableBodyMessage(status, statusText)
    ensures m == SaveFailed || m == ThrownBeamMessage(status, statusText, parsed)
  {
    var thrown := ThrownBeamMessage(status, statusText, parsed);
    if thrown == "" then SaveFailed else thrown
  }

  /** A server list of validation errors is shown joined with ", ". */
  lemma ErrorListShown(status: int, statusText: string, fields: map<string, JsValue>, items: seq<JsValue>)
    requires "errors" in fields && fields["errors"] == Arr(items)
    requires JoinArray(items, ", ") != ""
    ensures BeamSaveError(status, statusText, Some(Obj(fields))) == JoinArray(items, ", ")
  {
  }

  /** Without an `errors` array, a non-empty `error` text wins over `message`. */
  lemma ErrorTextShown(status: int, statusText: string, fields: map<string, JsValue>, text: string)
    requires !("errors" in fields && Truthy(fields["errors"]) && fields["errors"].Arr?)
    requires "error" in fields && fields["error"] == Str(text) && text != ""
    ensures BeamSaveError(status, statusText, Some(Obj(fields))) == text
  {
  }

  /** With neither an `errors` array nor an `error`, a non-empty `message` text is shown. */
  lemma MessageTextShown(status: int, statusText: string, fields: map<string, JsValue>, text: string)
    requires !("errors" in fields && Truthy(fields["errors"]) && fields["errors"].Arr?)
    requires !("error" in fields && Truthy(fields["error"]))
    requires "message" in fields && fields["message"] == Str(text) && text != ""
    ensures BeamSaveError(status, statusText, Some(Obj(fields))) == text
  {
  }

  /** A body with none of the three keys, or an empty `errors` array, falls back to the default. */
  lemma DefaultShown(status: int, statusText: string, fields: map<string, JsValue>)
    requires "errors" !in fields || fields["errors"] == Arr([])
    requires "error" !in fields && "message" !in fields
    ensures BeamSaveError(status, statusText, Some(Obj(fields))) == SaveFailed
  {
  }
}

=== FILE: credentials.dfy ===
/**
 * The field rules the sign-up, login, worker and profile forms share, stated
 * as predicates: the two e-mail patterns, the password pattern, and the two
 * ten-digit phone checks.
 */
module Credentials {
  import opened Optional
  import opened Strings

  /** Membership in the regex class `[^\s@]`. */
  predicate PlainChar(c: char) { !IsSpace(c) && c != '@' }

  predicate AllPlain(s: string) { forall i :: 0 <= i < |s| ==> PlainChar(s[i]) }

  const GmailSuffix: string := "@gmail.com"

  /** `/^[^\s@]+@gmail\.com$/`: a non-empty run of non-space, non-'@' characters, then `@gmail.com`. */
  predicate IsGmailAddress(s: string) {
    |s| > |GmailSuffix| && s[|s| - |GmailSuffix|..] == GmailSuffix && AllPlain(s[..|s| - |GmailSuffix|])
  }

  /** A domain for `/^[^\s@]+@[^\s@]+\.[^\s@]+$/`: non-space, non-'@', with a '.' that has something on both sides. */
  predicate IsDottedDomain(x: string) {
    AllPlain(x) && exists k :: 0 < k < |x| - 1 && x[k] == '.'
  }

  /** `s` splits at index `i` into a local part, '@', and a dotted domain. */
  predicate AtSplit(s: string, i: int) {
    0 < i < |s| && s[i] == '@' && AllPlain(s[..i]) && IsDottedDomain(s[i + 1..])
  }

  /** `/^[^\s@]+@[^\s@]+\.[^\s@]+$/`: `local@domain.tld`. */
  predicate IsDottedEmail(s: string) {
    exists i :: 0 <= i < |s| && AtSplit(s, i)
  }

  /** Every address the sign-up and login pattern accepts also passes the general e-mail pattern. */
  lemma GmailIsDottedEmail(s: string)
    requires IsGmailAddress(s)
    ensures IsDottedEmail(s)
  {
    var i := |s| - |GmailSuffix|;
    var domain := s[i + 1..];
    assert domain == "gmail.com";
    assert domain[5] == '.';
    assert AllPlain(domain);
    assert AtSplit(s, i);
  }

  /** The gmail pattern in constructive form: a non-empty plain local part followed by the suffix. */
  lemma GmailOf(local: string)
    ensures IsGmailAddress(local + GmailSuffix) <==> |local| > 0 && AllPlain(local)
  {
    var s := local + GmailSuffix;
    assert s[|s| - |GmailSuffix|..] == GmailSuffix;
    assert s[..|s| - |GmailSuffix|] == local;
  }

  /** An address the general pattern accepts holds no whitespace, so trimming leaves it as it is. */
  lemma DottedEmailNoSpace(s: string)
    requires IsDottedEmail(s)
    ensures NoSpace(s)
    ensures Trim(s) == s
  {
    var i :| 0 <= i < |s| && AtSplit(s, i);
    forall j | 0 <= j < |s|
      ensures !IsSpace(s[j])
    {
      if j < i {
        assert s[j] == s[..i][j];
      } else if j > i {
        assert s[j] == s[i + 1..][j - i - 1];
      }
    }
    TrimNoSpace(s);
  }

  /** The characters `.` does not match in a JavaScript regex. */
  predicate IsLineTerminator(c: char) {
    c == '\n' || c == '\r' || c == '\U{2028}' || c == '\U{2029}'
  }

  predicate HasLower(p: string) { exists i :: 0 <= i < |p| && IsLower(p[i]) }

  /** Contains a character outside `[A-Za-z0-9]`. */
  predicate HasSymbol(p: string) { exists i :: 0 <= i < |p| && !IsAlnum(p[i]) }

  predicate NoLineTerminator(p: string) { forall i :: 0 <= i < |p| ==> !IsLineTerminator(p[i]) }

  /**
   * `/^(?=.*[a-z])(?=.*[^A-Za-z0-9]).{8,}$/`: at least eight characters, none a
   * line terminator, with a lower-case letter and a symbol.
   */
  predicate IsStrongPassword(p: string) {
    |p| >= 8 && NoLineTerminator(p) && HasLower(p) && HasSymbol(p)
  }

  /** `/^\d{10}$/` applied after `replace(/\s/g, '')`: ten digits once whitespace is removed. */
  predicate IsSpacedTenDigitPhone(s: string) {
    var t := RemoveSpaces(s);
    |t| == 10 && AllDigits(t)
  }

  /** `/^[0-9]{10}$/` applied after `replace(/\D/g, '')`: exactly ten digits among all the characters. */
  predicate HasTenDigits(s: string) {
    |DigitsOf(s)| == 10
  }

  /** The stricter phone rule implies the looser one: ten digits after removing spaces are ten digits overall. */
  lemma SpacedPhoneHasTenDigits(s: string)
    requires IsSpacedTenDigitPhone(s)
    ensures HasTenDigits(s)
  {
    KeepDigitsOfSpaceFree(s);
  }

  lemma {:induction false} KeepDigitsOfSpaceFree(s: string)
    ensures DigitsOf(s) == DigitsOf(RemoveSpaces(s))
  {
    if |s| > 0 {
      KeepDigitsOfSpaceFree(s[1..]);
      if NotSpace(s[0]) {
        assert RemoveSpaces(s) == [s[0]] + RemoveSpaces(s[1..]);
        assert ([s[0]] + RemoveSpaces(s[1..]))[1..] == RemoveSpaces(s[1..]);
      } else {
        assert !IsDigit(s[0]);
        assert RemoveSpaces(s) == RemoveSpaces(s[1..]);
        assert DigitsOf(s) == DigitsOf(s[1..]);
      }
    }
  }

  // ---------------------------------------- the field checks several forms share

  const NameRequiredMessage: string := "Name is required"
  const EmailInvalidMessage: string := "Please enter a valid email address"
  const PhoneRequiredMessage: string := "Phone number is required"
  const PhoneInvalidMessage: string := "Please enter a valid 10-digit phone number"

  /** The name check of the sign-up and add-worker forms: required, a blank name counting as missing. */
  function NameFieldError(name: string): (r: Option<string>)
    ensures r.Some? <==> IsBlank(name)
    ensures r.Some? ==> r.value == NameRequiredMessage
  {
    if IsBlank(name) then Some(NameRequiredMessage) else None
  }

  const EmailRequiredMessage: string := "Email is required"
  const GmailPatternMessage: string := "Please enter a valid @gmail.com address"
  const PasswordRequiredMessage: string := "Password is required"
  const WeakPasswordMessage: string := "Password must be at least 8 characters, contain a lowercase letter, and a symbol"

  /** The e-mail check of the sign-up and login forms: required after trimming, then the gmail pattern on the text as typed. */
  function GmailFieldError(email: string): (r: Option<string>)
    ensures r.None? <==> IsGmailAddress(email)
    ensures IsBlank(email) ==> r == Some(EmailRequiredMessage)
    ensures !IsBlank(email) && !IsGmailAddress(email) ==> r == Some(GmailPatternMessage)
  {
    if IsBlank(email) then
      assert !IsGmailAddress(email) by {
        if IsGmailAddress(email) {
          GmailNotBlank(email);
        }
      }
      Some(EmailRequiredMessage)
    else if !IsGmailAddress(email) then Some(GmailPatternMessage)
    else None
  }

  /** A gmail address is never blank: its local part has a non-space character. */
  lemma GmailNotBlank(email: string)
    requires IsGmailAddress(email)
    ensures !IsBlank(email)
  {
    assert !IsSpace(email[0]) by {
      assert email[0] == email[..|email| - |GmailSuffix|][0];
    }
  }

  /** The password check of the sign-up and login forms: required (not trimmed), then the strength pattern. */
  function PasswordFieldError(password: string): (r: Option<string>)
    ensures r.None? <==> IsStrongPassword(password)
    ensures password == "" ==> r == Some(PasswordRequiredMessage)
    ensures password != "" && !IsStrongPassword(password) ==> r == Some(WeakPasswordMessage)
  {
    if password == "" then Some(PasswordRequiredMessage)
    else if !IsStrongPassword(password) then Some(WeakPasswordMessage)
    else None
  }
}

=== FILE: date_input.dfy ===
/**
 * The date-entry pipeline shared by the worker modal and the loan, expense and
 * beam forms: the keystroke mask that shapes digits into `DD/MM/YYYY`, the
 * unpadded `formatDateForBackend` converter, the `isValidDateFormat` range
 * check, and the padded inline converter that commits an ISO value on change
 * and on blur.
 */
module DateInput {
  import opened Optional
  import opened Strings

  // ------------------------------------------------------------------ mask

  /** The shape of masked text: digits, with '/' exactly at positions 2 and 5, never trailing. */
  predicate IsMasked(r: string) {
    && |r| <= 10
    && |r| != 3 && |r| != 6
    && forall i :: 0 <= i < |r| ==> (if i == 2 || i == 5 then r[i] == '/' else IsDigit(r[i]))
  }

  /** Lays out at most eight digits as `DD`, `DD/M…`, `DD/MM/Y…`; extra digits are dropped. */
  function MaskDigits(d: string): (r: string)
    requires AllDigits(d)
    ensures |r| <= 10
  {
    if |d| <= 2 then d
    else if |d| <= 4 then d[..2] + "/" + d[2..]
    else if |d| <= 8 then d[..2] + "/" + d[2..4] + "/" + d[4..]
    else d[..2] + "/" + d[2..4] + "/" + d[4..8]
  }

  /** `handleDateInput`: keep the digits of what was typed and re-lay them out. */
  function MaskDate(value: string): (r: string)
    ensures |r| <= 10
    ensures |DigitsOf(value)| <= 2 ==> r == DigitsOf(value)
  {
    MaskDigits(DigitsOf(value))
  }

  /** The first `n` characters, or all of them when there are fewer. */
  function Take(s: string, n: nat): (r: string)
    ensures |r| == if |s| <= n then |s| else n
    ensures r == s[..|r|]
  {
    if |s| <= n then s else s[..n]
  }

  lemma DigitsOfDigits(d: string)
    requires AllDigits(d)
    ensures DigitsOf(d) == d
  {
  }

  lemma DigitsOfSlash(a: string, b: string)
    requires AllDigits(a) && AllDigits(b)
    ensures DigitsOf(a + "/" + b) == a + b
  {
    KeepConcat(a + "/", b, IsDigit);
    KeepConcat(a, "/", IsDigit);
    assert Keep("/", IsDigit) == "";
  }

  lemma DigitsOfSlashes(a: string, b: string, c: string)
    requires AllDigits(a) && AllDigits(b) && AllDigits(c)
    ensures DigitsOf(a + "/" + b + "/" + c) == a + b + c
  {
    KeepConcat(a + "/" + b + "/", c, IsDigit);
    KeepConcat(a + "/" + b, "/", IsDigit);
    DigitsOfSlash(a, b);
    assert Keep("/", IsDigit) == "";
  }

  /** The mask keeps exactly the first eight digits typed, in order, and lays them out in the `DD/MM/YYYY` shape. */
  lemma MaskContent(value: string)
    ensures DigitsOf(MaskDate(value)) == Take(DigitsOf(value), 8)
    ensures IsMasked(MaskDate(value))
    ensures |MaskDate(value)| > 2 <==> |DigitsOf(value)| > 2
    ensures |MaskDate(value)| > 5 <==> |DigitsOf(value)| > 4
  {
    var d := DigitsOf(value);
    if |d| <= 2 {
    } else if |d| <= 4 {
      DigitsOfSlash(d[..2], d[2..]);
      assert d[..2] + d[2..] == d;
    } else {
      var e := Take(d, 8);
      assert MaskDate(value) == d[..2] + "/" + d[2..4] + "/" + e[4..];
      DigitsOfSlashes(d[..2], d[2..4], e[4..]);
      assert d[..2] + d[2..4] + e[4..] == e;
    }
  }

  /** Masking is idempotent: re-masking masked text changes nothing. */
  lemma MaskIdempotent(value: string)
    ensures MaskDate(MaskDate(value)) == MaskDate(value)
  {
    MaskContent(value);
    var d := DigitsOf(value);
    var e := Take(d, 8);
    if |d| > 8 {
      assert e[..2] == d[..2] && e[2..4] == d[2..4] && e[4..] == d[4..8];
    }
  }

  // ----------------------------------------------------- backend converter

  /**
   * `formatDateForBackend`: a value with exactly two '/' becomes `y-m-d` from
   * its parts `d/m/y`, unpadded; anything else, the empty string included,
   * is returned unchanged. The conversion never changes the length.
   */
  function FormatDateForBackend(s: string): (r: string)
    ensures s == "" ==> r == ""
    ensures |Split(s, '/')| != 3 ==> r == s
    ensures |r| == |s|
  {
    if s == "" then ""
    else
      var parts := Split(s, '/');
      if |parts| == 3 then
        JoinSplit(s, '/');
        JoinThree(parts[0], parts[1], parts[2], "/");
        assert parts == [parts[0], parts[1], parts[2]];
        parts[2] + "-" + parts[1] + "-" + parts[0]
      else s
  }

  /** Three slash-free parts `d/m/y` convert to `y-m-d` with the parts untouched. */
  lemma BackendOfParts(d: string, m: string, y: string)
    requires '/' !in d && '/' !in m && '/' !in y
    ensures FormatDateForBackend(d + "/" + m + "/" + y) == y + "-" + m + "-" + d
  {
    SplitOfThree(d, m, y);
  }

  lemma JoinThree(a: string, b: string, c: string, sep: string)
    ensures Join([a, b, c], sep) == a + sep + b + sep + c
  {
    assert [a, b, c][1..] == [b, c];
    assert [b, c][1..] == [c];
    assert Join([b, c], sep) == b + sep + c;
    assert Join([a, b, c], sep) == a + sep + (b + sep + c);
  }

  lemma SplitOfThree(d: string, m: string, y: string)
    requires '/' !in d && '/' !in m && '/' !in y
    ensures Split(d + "/" + m + "/" + y, '/') == [d, m, y]
  {
    JoinThree(d, m, y, "/");
    SplitJoin([d, m, y], '/');
  }

  /**
   * Round trip of the worker modal: once eight digits `DDMMYYYY` have been
   * typed, the masked value converts to the ten-character `YYYY-MM-DD` made of
   * the same digits reordered.
   */
  lemma MaskedToBackend(value: string)
    requires |DigitsOf(value)| >= 8
    ensures var d := DigitsOf(value);
      FormatDateForBackend(MaskDate(value)) == d[4..8] + "-" + d[2..4] + "-" + d[..2]
    ensures |FormatDateForBackend(MaskDate(value))| == 10
  {
    var d := DigitsOf(value);
    assert MaskDate(value) == d[..2] + "/" + d[2..4] + "/" + d[4..8];
    BackendOfParts(d[..2], d[2..4], d[4..8]);
  }

  // ------------------------------------------------------------- validator

  /** A day, month and year as read by `parseInt` from the three parts of `d/m/y`. */
  datatype DayMonthYear = DayMonthYear(day: int, month: int, year: int)

  /** The `parseInt` values of the parts of `d/m/y`, when there are exactly three and each parses. */
  function DateParts(s: string): (r: Option<DayMonthYear>)
    ensures |Split(s, '/')| != 3 ==> r.None?
  {
    var parts := Split(s, '/');
    if |parts| != 3 then None
    else
      var day := ParseInt(parts[0]);
      var month := ParseInt(parts[1]);
      var year := ParseInt(parts[2]);
      if day.None? || month.None? || year.None? then None
      else Some(DayMonthYear(day.value, month.value, year.value))
  }

  predicate InRange(p: DayMonthYear) {
    && 1 <= p.day <= 31
    && 1 <= p.month <= 12
    && 1900 <= p.year <= 2100
  }

  /**
   * `isValidDateFormat`: empty is accepted (optional fields); otherwise there
   * must be exactly three '/'-separated parts whose `parseInt` values are a day
   * in 1..31, a month in 1..12 and a year in 1900..2100. Days per month are not
   * checked.
   */
  function IsValidDateFormat(s: string): (r: bool)
    ensures s == "" ==> r
    ensures s != "" && |Split(s, '/')| != 3 ==> !r
    ensures s != "" ==> (r <==> DateParts(s).Some? && InRange(DateParts(s).value))
  {
    if s == "" then true
    else
      match DateParts(s)
      case None => false
      case Some(p) =>
        if p.day < 1 || p.day > 31 then false
        else if p.month < 1 || p.month > 12 then false
        else if p.year < 1900 || p.year > 2100 then false
        else true
  }

  /** Three slash-free digit strings read back as their values. */
  lemma DatePartsOfDigits(d: string, m: string, y: string)
    requires |d| > 0 && |m| > 0 && |y| > 0
    requires AllDigits(d) && AllDigits(m) && AllDigits(y)
    ensures DateParts(d + "/" + m + "/" + y) == Some(DayMonthYear(DigitsValue(d), DigitsValue(m), DigitsValue(y)))
  {
    assert '/' !in d && '/' !in m && '/' !in y by {
      assert !IsDigit('/');
    }
    SplitOfThree(d, m, y);
    ParseIntDigits(d);
    ParseIntDigits(m);
    ParseIntDigits(y);
  }

  /** A fully masked date is valid exactly when its day, month and year digits are in range. */
  lemma MaskedValidity(value: string)
    requires |DigitsOf(value)| >= 8
    ensures var d := DigitsOf(value);
      IsValidDateFormat(MaskDate(value)) <==>
        && 1 <= DigitsValue(d[..2]) <= 31
        && 1 <= DigitsValue(d[2..4]) <= 12
        && 1900 <= DigitsValue(d[4..8]) <= 2100
  {
    var d := DigitsOf(value);
    assert MaskDate(value) == d[..2] + "/" + d[2..4] + "/" + d[4..8];
    DatePartsOfDigits(d[..2], d[2..4], d[4..8]);
  }

  /** There is no days-per-month check: day 31 of month 2 passes whenever the year is in range. */
  lemma NoDaysPerMonthCheck(d: string, m: string, y: string)
    requires |d| > 0 && |m| > 0 && |y| > 0
    requires AllDigits(d) && AllDigits(m) && AllDigits(y)
    requires DigitsValue(d) == 31 && DigitsValue(m) == 2 && 1900 <= DigitsValue(y) <= 2100
    ensures IsValidDateFormat(d + "/" + m + "/" + y)
  {
    DatePartsOfDigits(d, m, y);
  }

  // ------------------------------------------------ inline padded converter

  /**
   * The converter written inline in the loan, expense and beam forms: it fires
   * only for a ten-character input containing '/' that splits into exactly
   * three non-empty parts `d/m/y`, and yields `y-pad2(m)-pad2(d)`.
   */
  function ConvertDisplayDate(raw: string): (r: Option<string>)
    ensures r.Some? <==>
      var parts := Split(raw, '/');
      |raw| == 10 && '/' in raw && |parts| == 3 && parts[0] != "" && parts[1] != "" && parts[2] != ""
    ensures r.Some? ==>
      var parts := Split(raw, '/');
      r.value == parts[2] + "-" + PadStart2(parts[1]) + "-" + PadStart2(parts[0])
  {
    if |raw| == 10 && '/' in raw then
      var parts := Split(raw, '/');
      if |parts| == 3 then
        var day := parts[0];
        var month := parts[1];
        var year := parts[2];
        if day != "" && month != "" && year != "" then
          Some(year + "-" + PadStart2(month) + "-" + PadStart2(day))
        else None
      else None
    else None
  }

  /**
   * For slash-free parts of total length eight, the conversion of `d/m/y` is
   * `y-pad2(m)-pad2(d)`; padding only adds leading zeros, so `m` and `d` end
   * the padded fields unchanged.
   */
  lemma ConvertParts(d: string, m: string, y: string)
    requires '/' !in d && '/' !in m && '/' !in y
    requires d != "" && m != "" && y != ""
    requires |d| + |m| + |y| == 8
    ensures ConvertDisplayDate(d + "/" + m + "/" + y) == Some(y + "-" + PadStart2(m) + "-" + PadStart2(d))
  {
    var raw := d + "/" + m + "/" + y;
    assert raw[|d|] == '/';
    SplitOfThree(d, m, y);
  }

  /** On a fully masked date the padded inline converter and `formatDateForBackend` agree. */
  lemma ConvertAgreesOnMasked(value: string)
    requires |DigitsOf(value)| >= 8
    ensures ConvertDisplayDate(MaskDate(value)) == Some(FormatDateForBackend(MaskDate(value)))
  {
    var d := DigitsOf(value);
    assert MaskDate(value) == d[..2] + "/" + d[2..4] + "/" + d[4..8];
    ConvertParts(d[..2], d[2..4], d[4..8]);
    BackendOfParts(d[..2], d[2..4], d[4..8]);
  }

  /** An unpadded date such as `"5/7/2024"` does not convert: it has eight characters, and the converter only fires on ten. */
  lemma ShortDateNotConverted()
    ensures ConvertDisplayDate("5/7/2024") == None
  {
    var raw := "5/7/2024";
    assert |raw| == 8;
  }

  /** Unpadded day and month never convert: `d/m/yyyy` is eight characters, not ten. */
  lemma UnpaddedNotConverted(d: string, m: string, y: string)
    requires |d| == 1 && |m| == 1 && |y| == 4
    ensures ConvertDisplayDate(d + "/" + m + "/" + y) == None
  {
  }

  // ---------------------------------------------------- dual-representation field

  /** A date input's two representations: the text typed and the committed ISO value. */
  datatype DateField = DateField(raw: string, iso: string)

  /** The committed value after offering `raw` to the converter: replaced when it converts, untouched otherwise. */
  function Commit(iso: string, raw: string): (r: string)
    ensures ConvertDisplayDate(raw).Some? ==> r == ConvertDisplayDate(raw).value
    ensures ConvertDisplayDate(raw).None? ==> r == iso
  {
    match ConvertDisplayDate(raw)
    case Some(converted) => converted
    case None => iso
  }

  /** `onChange`: the typed text is stored and offered to the converter. */
  function OnChange(f: DateField, input: string): (r: DateField)
    ensures r.raw == input
    ensures ConvertDisplayDate(input).Some? ==> r.iso == ConvertDisplayDate(input).value
    ensures ConvertDisplayDate(input).None? ==> r.iso == f.iso
  {
    DateField(input, Commit(f.iso, input))
  }

  /** `onBlur`: the current text is offered to the converter again. */
  function OnBlur(f: DateField): (r: DateField)
    ensures r.raw == f.raw
    ensures ConvertDisplayDate(f.raw).Some? ==> r.iso == ConvertDisplayDate(f.raw).value
    ensures ConvertDisplayDate(f.raw).None? ==> r.iso == f.iso
  {
    DateField(f.raw, Commit(f.iso, f.raw))
  }

  /** Blurring after a change commits nothing new: change then blur equals the change alone. */
  lemma BlurAfterChange(f: DateField, input: string)
    ensures OnBlur(OnChange(f, input)) == OnChange(f, input)
  {
  }
}

=== FILE: expenses_page.dfy ===
/**
 * The expense dashboard (app/dashboard/expenses/page.tsx): the search filter,
 * the ordered submit checks, the save request, the create reset, and the
 * expense-date input with its inline converter.
 */
module ExpensesPage {
  import opened Optional
  import opened Strings
  import opened JsValues
  import opened Lists
  import opened DateInput
  import opened Requests

  /** An expense as listed; amounts are whole rupees. */
  datatype Expense = Expense(id: string, title: string, amount: int, category: string, description: string, expenseDate: string)

  /** The expense form; `amount` is the `parseInt` of the amount input, `None` for `NaN`. */
  datatype ExpenseForm = ExpenseForm(title: string, amount: Option<int>, category: string, description: string, expenseDate: string)

  /** The editor state: the form, the typed date text, the expense being edited, and the error banner. */
  datatype ExpenseEditor = ExpenseEditor(form: ExpenseForm, rawExpenseDate: string, selected: Option<Expense>, error: string)

  /**
   * The search rule: title or category contains the term ignoring case, or
   * the amount's decimal text or the formatted date contains it.
   */
  predicate ExpenseMatches(e: Expense, term: string, formatDate: string -> string) {
    || Contains(ToLower(e.title), ToLower(term))
    || Contains(ToLower(e.category), ToLower(term))
    || Contains(IntToDecimal(e.amount), term)
    || Contains(formatDate(e.expenseDate), term)
  }

  /** The filtered list: exactly the matching expenses, in their original order. */
  function FilterExpenses(expenses: seq<Expense>, term: string, formatDate: string -> string): (shown: seq<Expense>)
    ensures IsSubsequence(shown, expenses)
    ensures forall i :: 0 <= i < |shown| ==> ExpenseMatches(shown[i], term, formatDate)
    ensures forall i :: 0 <= i < |expenses| && ExpenseMatches(expenses[i], term, formatDate) ==>
      multiset(shown)[expenses[i]] == multiset(expenses)[expenses[i]]
  {
    var keep := e => ExpenseMatches(e, term, formatDate);
    FilterIsSubsequence(expenses, keep);
    Filter(expenses, keep)
  }

  /** An empty search shows every expense. */
  lemma EmptySearchShowsAllExpenses(expenses: seq<Expense>, formatDate: string -> string)
    ensures FilterExpenses(expenses, "", formatDate) == expenses
  {
    forall i | 0 <= i < |expenses|
      ensures ExpenseMatches(expenses[i], "", formatDate)
    {
      ContainsEmpty(ToLower(expenses[i].title));
    }
    FilterAll(expenses, e => ExpenseMatches(e, "", formatDate));
  }

  const TitleMessage: string := "Please enter a valid title."
  const AmountMessage: string := "Please enter a valid amount greater than 0."
  const CategoryMessage: string := "Please select a valid category."

  /** `!amount || amount <= 0` rejects `NaN`, zero and negatives. */
  predicate PositiveAmount(amount: Option<int>) {
    amount.Some? && amount.value > 0
  }

  /** The rules an expense must satisfy to be saved. */
  predicate IsAcceptableExpense(form: ExpenseForm) {
    !IsBlank(form.title) && PositiveAmount(form.amount) && !IsBlank(form.category)
  }

  /**
   * `handleSubmit`'s checks in order title, amount, category: the result is
   * the message of the first that fails, and none when all pass.
   */
  function ExpenseError(form: ExpenseForm): (r: Option<string>)
    ensures r.None? <==> IsAcceptableExpense(form)
    ensures r == Some(TitleMessage) <==> IsBlank(form.title)
    ensures r == Some(AmountMessage) <==> !IsBlank(form.title) && !PositiveAmount(form.amount)
    ensures r == Some(CategoryMessage) <==> !IsBlank(form.title) && PositiveAmount(form.amount) && IsBlank(form.category)
  {
    assert TitleMessage != AmountMessage && AmountMessage != CategoryMessage && TitleMessage != CategoryMessage by {
      assert TitleMessage[21] != AmountMessage[21];
      assert AmountMessage[7] != CategoryMessage[7];
      assert TitleMessage[7] != CategoryMessage[7];
    }
    if IsBlank(form.title) then Some(TitleMessage)
    else if !PositiveAmount(form.amount) then Some(AmountMessage)
    else if IsBlank(form.category) then Some(CategoryMessage)
    else None
  }

  function ExpenseFields(form: ExpenseForm): map<string, JsValue> {
    map[
      "title" := Str(form.title),
      "amount" := if form.amount.Some? then Num(form.amount.value) else Null,
      "category" := Str(form.category),
      "description" := Str(form.description),
      "expense_date" := Str(form.expenseDate)
    ]
  }

  /** The request body: exactly the five form fields, as typed. */
  function ExpenseBody(form: ExpenseForm): (body: JsValue)
    ensures body.Obj?
    ensures body.fields.Keys == {"title", "amount", "category", "description", "expense_date"}
    ensures Get(body, "title") == Str(form.title) && Get(body, "category") == Str(form.category)
    ensures Get(body, "description") == Str(form.description) && Get(body, "expense_date") == Str(form.expenseDate)
    ensures form.amount.Some? ==> Get(body, "amount") == Num(form.amount.value)
    ensures form.amount.None? ==> Get(body, "amount") == Null
  {
    var fields := ExpenseFields(form);
    assert fields["title"] == Str(form.title);
    assert fields["amount"] == if form.amount.Some? then Num(form.amount.value) else Null;
    assert fields["category"] == Str(form.category);
    assert fields["description"] == Str(form.description);
    assert fields["expense_date"] == Str(form.expenseDate);
    Obj(fields)
  }

  /** The id of the expense being edited, if any. */
  function SelectedExpenseId(selected: Option<Expense>): Option<string> {
    if selected.Some? then Some(selected.value.id) else None
  }

  /**
   * `handleSubmit`: blocked with the first failing message; otherwise
   * `PUT /expenses/<id>` for the expense being edited or `POST /expenses`.
   */
  function SubmitExpense(form: ExpenseForm, selected: Option<Expense>): (r: Submission<string>)
    ensures r.Blocked? <==> !IsAcceptableExpense(form)
    ensures r.Blocked? ==> Some(r.reason) == ExpenseError(form)
    ensures r.Sent? ==> (r.request.verb == PUT <==> selected.Some?)
    ensures r.Sent? && selected.Some? ==> r.request.path == "/expenses/" + selected.value.id
    ensures r.Sent? && selected.None? ==> r.request.path == "/expenses"
    ensures r.Sent? ==> r.request.body == ExpenseBody(form)
  {
    match ExpenseError(form)
    case Some(message) => Blocked(message)
    case None =>
      assert "/" + "expenses" == "/expenses" && "/" + "expenses" + "/" == "/expenses/";
      Sent(SaveRequest("expenses", SelectedExpenseId(selected), ExpenseBody(form)))
  }

  /** Whatever is sent has a title and category with visible text and a positive amount. */
  lemma SentExpenseIsComplete(form: ExpenseForm, selected: Option<Expense>)
    requires SubmitExpense(form, selected).Sent?
    ensures var body := SubmitExpense(form, selected).request.body;
      && Get(body, "title") == Str(form.title) && !IsBlank(form.title)
      && Get(body, "category") == Str(form.category) && !IsBlank(form.category)
      && Get(body, "amount") == Num(form.amount.value) && form.amount.value > 0
  {
  }

  /** `handleCreate`: empty strings, a zero amount, no typed date, nothing selected, no error. */
  function NewExpenseEditor(): (e: ExpenseEditor)
    ensures e.form.title == "" && e.form.category == "" && e.form.description == "" && e.form.expenseDate == ""
    ensures e.form.amount == Some(0)
    ensures e.rawExpenseDate == "" && e.selected.None? && e.error == ""
  {
    ExpenseEditor(ExpenseForm("", Some(0), "", "", ""), "", None, "")
  }

  /** Opening the create form from any state gives the same blank editor, whose form is refused at the title. */
  lemma NewExpenseRefused()
    ensures SubmitExpense(NewExpenseEditor().form, NewExpenseEditor().selected) == Blocked(TitleMessage)
    ensures NewExpenseEditor().selected.None? && NewExpenseEditor().rawExpenseDate == "" && NewExpenseEditor().error == ""
  {
    assert IsBlank("");
  }

  /** `handleEdit`: the form takes the expense's fields and the typed date shows `formatDate(expense_date)`. */
  function EditExpense(e: Expense, formatDate: string -> string): (r: ExpenseEditor)
    ensures r.selected == Some(e) && r.error == ""
    ensures r.form.title == e.title && r.form.amount == Some(e.amount) && r.form.category == e.category
    ensures r.form.description == e.description && r.form.expenseDate == e.expenseDate
    ensures r.rawExpenseDate == formatDate(e.expenseDate)
  {
    ExpenseEditor(ExpenseForm(e.title, Some(e.amount), e.category, e.description, e.expenseDate),
      formatDate(e.expenseDate), Some(e), "")
  }

  function ExpenseDateField(e: ExpenseEditor): DateField {
    DateField(e.rawExpenseDate, e.form.expenseDate)
  }

  /** The expense-date `onChange`: stores the text and, when it converts, the ISO date; nothing else changes. */
  function OnExpenseDateChange(e: ExpenseEditor, input: string): (r: ExpenseEditor)
    ensures r.rawExpenseDate == input
    ensures r.form.expenseDate == Commit(e.form.expenseDate, input)
    ensures r.form == e.form.(expenseDate := r.form.expenseDate)
    ensures r.selected == e.selected && r.error == e.error
  {
    var f := OnChange(ExpenseDateField(e), input);
    e.(rawExpenseDate := f.raw, form := e.form.(expenseDate := f.iso))
  }

  /** The expense-date `onBlur`: offers the current text to the converter again. */
  function OnExpenseDateBlur(e: ExpenseEditor): (r: ExpenseEditor)
    ensures r.rawExpenseDate == e.rawExpenseDate
    ensures r.form == e.form.(expenseDate := Commit(e.form.expenseDate, e.rawExpenseDate))
    ensures r.selected == e.selected && r.error == e.error
  {
    var f := OnBlur(ExpenseDateField(e));
    e.(rawExpenseDate := f.raw, form := e.form.(expenseDate := f.iso))
  }

  /** Blurring right after typing changes nothing. */
  lemma ExpenseBlurAfterChange(e: ExpenseEditor, input: string)
    ensures OnExpenseDateBlur(OnExpenseDateChange(e, input)) == OnExpenseDateChange(e, input)
  {
    BlurAfterChange(ExpenseDateField(e), input);
  }
}

=== FILE: form_errors.dfy ===
/**
 * Per-field error maps as the forms keep them: a field is in the map exactly
 * when one of its rules failed, holding the message of the rule that decided,
 * and the form is valid iff the map is empty.
 */
module FormErrors {
  import opened Optional

  /**
   * `newErrors.f = message` when the check on `f` produced a message; the map
   * is left as it was when the check passed.
   */
  function Record<F(!new)>(errors: map<F, string>, f: F, check: Option<string>): (r: map<F, string>)
    ensures f in r <==> f in errors || check.Some?
    ensures check.Some? ==> r[f] == check.value
    ensures check.None? ==> r == errors
    ensures forall g :: g != f ==> (g in r <==> g in errors)
    ensures forall g :: g != f && g in r ==> r[g] == errors[g]
  {
    if check.Some? then errors[f := check.value] else errors
  }

  /** Typing into field `f` clears that field's error and no other. */
  function ClearError<F(!new)>(errors: map<F, string>, f: F): (r: map<F, string>)
    ensures f !in r
    ensures forall g :: g != f ==> (g in r <==> g in errors)
    ensures forall g :: g in r ==> r[g] == errors[g]
  {
    errors - {f}
  }
}

=== FILE: js_values.dfy ===
/**
 * The JavaScript values that response bodies and request bodies are made of,
 * with the three language rules the components lean on: truthiness, the
 * short-circuit operators `||` and `&&` (which return an operand, not a
 * boolean), and `String(v)` / `Array.prototype.join`.
 */
module JsValues {
  import opened Strings

  /** A JavaScript value as parsed from JSON, plus `undefined` for an absent property. Numbers are integers. */
  datatype JsValue =
    | Undefined
    | Null
    | Bool(b: bool)
    | Num(n: int)
    | Str(s: string)
    | Arr(items: seq<JsValue>)
    | Obj(fields: map<string, JsValue>)

  /** JavaScript truthiness: `undefined`, `null`, `false`, `0` and `""` are falsy. */
  predicate Truthy(v: JsValue) {
    match v
    case Undefined => false
    case Null => false
    case Bool(b) => b
    case Num(n) => n != 0
    case Str(s) => s != ""
    case Arr(_) => true
    case Obj(_) => true
  }

  predicate IsNullish(v: JsValue) { v.Undefined? || v.Null? }

  /** Property access `v.key` on a value that is not `null` or `undefined`; only objects carry the keys used here. */
  function Get(v: JsValue, key: string): (r: JsValue)
    ensures v.Obj? && key in v.fields ==> r == v.fields[key]
    ensures !(v.Obj? && key in v.fields) ==> r == Undefined
  {
    if v.Obj? && key in v.fields then v.fields[key] else Undefined
  }

  /** `a || b`: the first operand when it is truthy, else the second. */
  function Or(a: JsValue, b: JsValue): (r: JsValue)
    ensures Truthy(r) <==> Truthy(a) || Truthy(b)
    ensures Truthy(a) ==> r == a
    ensures !Truthy(a) ==> r == b
  {
    if Truthy(a) then a else b
  }

  /** `a && b`: the first operand when it is falsy, else the second. */
  function And(a: JsValue, b: JsValue): (r: JsValue)
    ensures Truthy(r) <==> Truthy(a) && Truthy(b)
    ensures !Truthy(a) ==> r == a
    ensures Truthy(a) ==> r == b
  {
    if Truthy(a) then b else a
  }

  /** `String(v)`. Arrays render as their elements joined with ",", nullish elements as "". */
  function ToJsString(v: JsValue): string
    decreases v, 1
  {
    match v
    case Undefined => "undefined"
    case Null => "null"
    case Bool(b) => if b then "true" else "false"
    case Num(n) => IntToDecimal(n)
    case Str(s) => s
    case Arr(items) =>
      Join(seq(|items|, i requires 0 <= i < |items| => ElementString(items[i])), ",")
    case Obj(_) => "[object Object]"
  }

  /** How `Array.prototype.join` renders one element: nullish elements become "". */
  function ElementString(v: JsValue): (r: string)
    ensures IsNullish(v) ==> r == ""
    ensures v.Str? ==> r == v.s
    decreases v, 2
  {
    if IsNullish(v) then "" else ToJsString(v)
  }

  /** `items.join(sep)`. */
  function JoinArray(items: seq<JsValue>, sep: string): string {
    Join(seq(|items|, i requires 0 <= i < |items| => ElementString(items[i])), sep)
  }

  /** `String` of an array is its join with ",". */
  lemma ArrayStringIsJoin(items: seq<JsValue>)
    ensures ToJsString(Arr(items)) == JoinArray(items, ",")
  {
  }

  /**
   * One property of an object literal as `JSON.stringify` writes it: a
   * property whose value is `undefined` is dropped, any other is set; the
   * rest of the object is untouched.
   */
  function Put(fields: map<string, JsValue>, key: string, v: JsValue): (r: map<string, JsValue>)
    ensures key in r <==> key in fields || !v.Undefined?
    ensures !v.Undefined? ==> r[key] == v
    ensures forall k :: k != key ==> (k in r <==> k in fields)
    ensures forall k :: k != key && k in r ==> r[k] == fields[k]
  {
    if v.Undefined? then fields else fields[key := v]
  }

  /** `data.error || data.message || fallback` on a body that is neither `null` nor `undefined`. */
  function ErrorOrMessage(data: JsValue, fallback: string): (m: JsValue)
    ensures fallback != "" ==> Truthy(m)
    ensures Truthy(Get(data, "error")) ==> m == Get(data, "error")
    ensures !Truthy(Get(data, "error")) && Truthy(Get(data, "message")) ==> m == Get(data, "message")
    ensures !Truthy(Get(data, "error")) && !Truthy(Get(data, "message")) ==> m == Str(fallback)
  {
    Or(Or(Get(data, "error"), Get(data, "message")), Str(fallback))
  }
}

=== FILE: lists.dfy ===
/**
 * Order-preserving list operations behind every list page: `Array.prototype.filter`,
 * `map` that replaces matching entries, prepending, and counting/summing.
 */
module Lists {

  /** `a` can be obtained from `b` by deleting elements, keeping the order of the rest. */
  predicate IsSubsequence<T(==)>(a: seq<T>, b: seq<T>)
    decreases |b|
  {
    |a| == 0 || (|b| > 0 && (if a[0] == b[0] then IsSubsequence(a[1..], b[1..]) else IsSubsequence(a, b[1..])))
  }

  lemma {:induction false} SubsequenceRefl<T>(a: seq<T>)
    ensures IsSubsequence(a, a)
  {
    if |a| > 0 {
      SubsequenceRefl(a[1..]);
    }
  }

  /**
   * `xs.filter(keep)`: the elements satisfying `keep`, in their original order.
   * Each passing value occurs in the result as often as in `xs`, and no other
   * value occurs at all (every element of the result passes and comes from `xs`).
   */
  function Filter<T>(xs: seq<T>, keep: T -> bool): (r: seq<T>)
    ensures |r| <= |xs|
    ensures forall i :: 0 <= i < |r| ==> keep(r[i]) && r[i] in xs
    ensures forall i :: 0 <= i < |xs| && keep(xs[i]) ==> xs[i] in r
    ensures forall i :: 0 <= i < |xs| && keep(xs[i]) ==> multiset(r)[xs[i]] == multiset(xs)[xs[i]]
  {
    if |xs| == 0 then []
    else
      assert xs == [xs[0]] + xs[1..];
      if keep(xs[0]) then [xs[0]] + Filter(xs[1..], keep)
      else Filter(xs[1..], keep)
  }

  /** A filtered list is an order-preserving subsequence of its source. */
  lemma {:induction false} FilterIsSubsequence<T>(xs: seq<T>, keep: T -> bool)
    ensures IsSubsequence(Filter(xs, keep), xs)
  {
    if |xs| > 0 {
      FilterIsSubsequence(xs[1..], keep);
      var rest := Filter(xs[1..], keep);
      if keep(xs[0]) {
        assert ([xs[0]] + rest)[1..] == rest;
      } else if |rest| > 0 && rest[0] == xs[0] {
        // rest is a subsequence of xs[1..] that starts with xs[0]; skipping xs[0] is also fine.
        SubsequenceSkipHead(rest, xs);
      }
    }
  }

  lemma {:induction false} SubsequenceTail<T>(a: seq<T>, b: seq<T>)
    requires |a| > 0 && IsSubsequence(a, b)
    ensures IsSubsequence(a[1..], b)
    decreases |b|, 0
  {
    if a[0] == b[0] {
      SubsequenceWeaken(a[1..], b[1..], b[0]);
    } else {
      SubsequenceTail(a, b[1..]);
      SubsequenceWeaken(a[1..], b[1..], b[0]);
    }
  }

  /** Prepending an element to the longer sequence keeps a subsequence a subsequence. */
  lemma {:induction false} SubsequenceWeaken<T>(a: seq<T>, b: seq<T>, x: T)
    requires IsSubsequence(a, b)
    ensures IsSubsequence(a, [x] + b)
    decreases |b|, 1
  {
    assert ([x] + b)[1..] == b;
    if |a| > 0 && a[0] == x {
      SubsequenceTail(a, b);
    }
  }

  lemma {:induction false} SubsequenceSkipHead<T>(a: seq<T>, b: seq<T>)
    requires |b| > 0 && IsSubsequence(a, b[1..])
    ensures IsSubsequence(a, b)
  {
    SubsequenceWeaken(a, b[1..], b[0]);
    assert [b[0]] + b[1..] == b;
  }

  /** When every element passes, filtering returns the list unchanged. */
  lemma {:induction false} FilterAll<T>(xs: seq<T>, keep: T -> bool)
    requires forall i :: 0 <= i < |xs| ==> keep(xs[i])
    ensures Filter(xs, keep) == xs
  {
    if |xs| > 0 {
      FilterAll(xs[1..], keep);
      assert [xs[0]] + xs[1..] == xs;
    }
  }

  /** Filtering twice with the same test is filtering once. */
  lemma FilterIdempotent<T>(xs: seq<T>, keep: T -> bool)
    ensures Filter(Filter(xs, keep), keep) == Filter(xs, keep)
  {
    FilterAll(Filter(xs, keep), keep);
  }

  /** Filtering distributes over concatenation. */
  lemma {:induction false} FilterConcat<T>(xs: seq<T>, ys: seq<T>, keep: T -> bool)
    ensures Filter(xs + ys, keep) == Filter(xs, keep) + Filter(ys, keep)
  {
    if |xs| == 0 {
      assert xs + ys == ys;
    } else {
      assert (xs + ys)[1..] == xs[1..] + ys;
      FilterConcat(xs[1..], ys, keep);
    }
  }

  /** The number of elements satisfying `p` (`xs.filter(p).length`). */
  function Count<T>(xs: seq<T>, p: T -> bool): (n: nat)
    ensures n <= |xs|
    ensures n == |Filter(xs, p)|
  {
    if |xs| == 0 then 0 else (if p(xs[0]) then 1 else 0) + Count(xs[1..], p)
  }

  /** `xs.reduce((sum, x) => sum + f(x), 0)`. */
  function Sum<T>(xs: seq<T>, f: T -> int): int {
    if |xs| == 0 then 0 else f(xs[0]) + Sum(xs[1..], f)
  }

  lemma {:induction false} SumConcat<T>(xs: seq<T>, ys: seq<T>, f: T -> int)
    ensures Sum(xs + ys, f) == Sum(xs, f) + Sum(ys, f)
  {
    if |xs| == 0 {
      assert xs + ys == ys;
    } else {
      assert (xs + ys)[1..] == xs[1..] + ys;
      SumConcat(xs[1..], ys, f);
    }
  }

  /** A sum of non-negative terms is non-negative. */
  lemma {:induction false} SumNonNegative<T>(xs: seq<T>, f: T -> int)
    ensures (forall i :: 0 <= i < |xs| ==> f(xs[i]) >= 0) ==> Sum(xs, f) >= 0
  {
    if |xs| > 0 && forall i :: 0 <= i < |xs| ==> f(xs[i]) >= 0 {
      assert forall i :: 0 <= i < |xs[1..]| ==> xs[1..][i] == xs[i + 1];
      SumNonNegative(xs[1..], f);
    }
  }
}

=== FILE: loans_page.dfy ===
/**
 * The loan dashboard (app/dashboard/loans/page.tsx): the search filter, the
 * worker-name fallback, choosing a worker, the submit guard and request, the
 * default installment, and the loan-date input with its inline converter.
 */
module LoansPage {
  import opened Optional
  import opened Strings
  import opened JsValues
  import opened Lists
  import opened DateInput
  import opened Requests

  datatype LoanStatus = LoanActive | LoanInactive | Paid

  function LoanStatusName(s: LoanStatus): string {
    match s
    case LoanActive => "active"
    case LoanInactive => "inactive"
    case Paid => "paid"
  }

  /** `worker_id` as the API returns it: a bare id, or the populated worker record. */
  datatype WorkerRef = WorkerId(id: string) | PopulatedWorker(id: string, name: string)

  /** A loan as listed; the amounts are whole rupees. */
  datatype Loan = Loan(
    id: string,
    worker: WorkerRef,
    workerName: string,
    loanAmt: int,
    loanDate: string,
    status: LoanStatus,
    remainingAmount: int)

  /** An entry of the worker drop-down. */
  datatype WorkerOption = WorkerOption(id: string, name: string, phone: string)

  /** The loan form; `loanAmt` is the `parseInt` of the amount input, `None` for `NaN`. */
  datatype LoanForm = LoanForm(workerId: string, workerName: string, loanAmt: Option<int>, loanDate: string, status: LoanStatus)

  /** The editor state: the form, the typed date text, the loan being edited, and the error banner. */
  datatype LoanEditor = LoanEditor(form: LoanForm, rawLoanDate: string, selected: Option<Loan>, error: string)

  const UnknownWorker: string := "Unknown Worker"

  /** `getWorkerName`: the populated worker's name, else the stored `worker_name`, else a placeholder. */
  function WorkerName(loan: Loan): (name: string)
    ensures name != ""
    ensures loan.worker.PopulatedWorker? && loan.worker.name != "" ==> name == loan.worker.name
    ensures name == loan.workerName || name == UnknownWorker || (loan.worker.PopulatedWorker? && name == loan.worker.name)
    ensures !(loan.worker.PopulatedWorker? && loan.worker.name != "") && loan.workerName != "" ==> name == loan.workerName
  {
    if loan.worker.PopulatedWorker? && loan.worker.name != "" then loan.worker.name
    else if loan.workerName != "" then loan.workerName
    else UnknownWorker
  }

  /**
   * The search rule: the worker name contains the term ignoring case, or the
   * amount's decimal text contains it, or the formatted loan date does.
   */
  predicate LoanMatches(loan: Loan, term: string, formatDate: string -> string) {
    || Contains(ToLower(WorkerName(loan)), ToLower(term))
    || Contains(IntToDecimal(loan.loanAmt), term)
    || Contains(formatDate(loan.loanDate), term)
  }

  /** The filtered list: exactly the matching loans, in their original order. */
  function FilterLoans(loans: seq<Loan>, term: string, formatDate: string -> string): (shown: seq<Loan>)
    ensures IsSubsequence(shown, loans)
    ensures forall i :: 0 <= i < |shown| ==> LoanMatches(shown[i], term, formatDate)
    ensures forall i :: 0 <= i < |loans| && LoanMatches(loans[i], term, formatDate) ==>
      multiset(shown)[loans[i]] == multiset(loans)[loans[i]]
  {
    var keep := l => LoanMatches(l, term, formatDate);
    FilterIsSubsequence(loans, keep);
    Filter(loans, keep)
  }

  /** An empty search shows every loan. */
  lemma EmptySearchShowsAllLoans(loans: seq<Loan>, formatDate: string -> string)
    ensures FilterLoans(loans, "", formatDate) == loans
  {
    forall i | 0 <= i < |loans|
      ensures LoanMatches(loans[i], "", formatDate)
    {
      ContainsEmpty(ToLower(WorkerName(loans[i])));
    }
    FilterAll(loans, l => LoanMatches(l, "", formatDate));
  }

  /** `workers.find(w => w._id === id)`: the first worker with that id. */
  function FindWorker(workers: seq<WorkerOption>, id: string): (found: Option<WorkerOption>)
    ensures found.None? <==> forall i :: 0 <= i < |workers| ==> workers[i].id != id
    ensures found.Some? ==> found.value.id == id
    ensures found.Some? ==> exists i :: 0 <= i < |workers| && workers[i] == found.value &&
                                        (forall j :: 0 <= j < i ==> workers[j].id != id)
  {
    if |workers| == 0 then None
    else if workers[0].id == id then Some(workers[0])
    else
      var rest := FindWorker(workers[1..], id);
      assert rest.Some? ==> exists i :: 0 <= i < |workers| && workers[i] == rest.value &&
                                         (forall j :: 0 <= j < i ==> workers[j].id != id) by {
        if rest.Some? {
          var k :| 0 <= k < |workers| - 1 && workers[1..][k] == rest.value &&
                   (forall j :: 0 <= j < k ==> workers[1..][j].id != id);
          assert workers[k + 1] == rest.value;
          assert forall j :: 0 <= j < k + 1 ==> workers[j].id != id by {
            forall j | 0 <= j < k + 1
              ensures workers[j].id != id
            {
              if j > 0 { assert workers[j] == workers[1..][j - 1]; }
            }
          }
        }
      }
      rest
  }

  /**
   * `handleWorkerChange`: records the chosen id and that worker's name, or an
   * empty name when the id is not in the list; nothing else in the form changes.
   */
  function HandleWorkerChange(form: LoanForm, workers: seq<WorkerOption>, id: string): (r: LoanForm)
    ensures r.workerId == id
    ensures (forall i :: 0 <= i < |workers| ==> workers[i].id != id) ==> r.workerName == ""
    ensures workers != [] && workers[0].id == id ==> r.workerName == workers[0].name
    ensures FindWorker(workers, id).Some? ==> r.workerName == FindWorker(workers, id).value.name
    ensures r.loanAmt == form.loanAmt && r.loanDate == form.loanDate && r.status == form.status
  {
    var worker := FindWorker(workers, id);
    form.(workerId := id, workerName := if worker.Some? then worker.value.name else "")
  }

  const FillRequiredMessage: string := "Please fill in all required fields."

  /** `!formData.loan_amt`: zero and `NaN` are falsy; a negative amount is not. */
  predicate AmountMissing(amount: Option<int>) {
    amount.None? || amount.value == 0
  }

  /** The id of the loan being edited, if any. */
  function SelectedLoanId(selected: Option<Loan>): Option<string> {
    if selected.Some? then Some(selected.value.id) else None
  }

  /** The request body: the five form fields; a `NaN` amount serialises as `null`. */
  function LoanBody(form: LoanForm): (body: JsValue)
    ensures body.Obj?
    ensures body.fields.Keys == {"worker_id", "worker_name", "loan_amt", "loan_date", "status"}
    ensures Get(body, "worker_id") == Str(form.workerId) && Get(body, "worker_name") == Str(form.workerName)
    ensures form.loanAmt.Some? ==> Get(body, "loan_amt") == Num(form.loanAmt.value)
    ensures form.loanAmt.None? ==> Get(body, "loan_amt") == Null
    ensures Get(body, "loan_date") == Str(form.loanDate)
    ensures Get(body, "status") == Str(LoanStatusName(form.status))
  {
    var fields := LoanFields(form);
    assert fields["worker_id"] == Str(form.workerId);
    assert fields["worker_name"] == Str(form.workerName);
    assert fields["status"] == Str(LoanStatusName(form.status));
    assert fields["loan_amt"] == (if form.loanAmt.Some? then Num(form.loanAmt.value) else Null);
    assert fields["loan_date"] == Str(form.loanDate);
    assert fields.Keys == {"worker_id", "worker_name", "loan_amt", "loan_date", "status"};
    Obj(fields)
  }

  function LoanFields(form: LoanForm): map<string, JsValue> {
    map[
      "worker_id" := Str(form.workerId),
      "worker_name" := Str(form.workerName),
      "loan_amt" := if form.loanAmt.Some? then Num(form.loanAmt.value) else Null,
      "loan_date" := Str(form.loanDate),
      "status" := Str(LoanStatusName(form.status))
    ]
  }

  /**
   * `handleSubmit`: blocked with the required-fields message when no worker
   * is chosen or the amount is falsy; otherwise `PUT /loans/<id>` for the
   * loan being edited or `POST /loans` for a new one.
   */
  function SubmitLoan(form: LoanForm, selected: Option<Loan>): (r: Submission<string>)
    ensures r.Blocked? <==> form.workerId == "" || AmountMissing(form.loanAmt)
    ensures r.Blocked? ==> r.reason == FillRequiredMessage
    ensures r.Sent? ==> (r.request.verb == PUT <==> selected.Some?)
    ensures r.Sent? && selected.Some? ==> r.request.path == "/loans/" + selected.value.id
    ensures r.Sent? && selected.None? ==> r.request.path == "/loans"
    ensures r.Sent? ==> r.request.body == LoanBody(form)
  {
    if form.workerId == "" || AmountMissing(form.loanAmt) then Blocked(FillRequiredMessage)
    else
      assert "/" + "loans" == "/loans" && "/" + "loans" + "/" == "/loans/";
      Sent(SaveRequest("loans", SelectedLoanId(selected), LoanBody(form)))
  }

  /** The guard checks presence only: a negative amount with a worker chosen is sent as typed. */
  lemma NegativeAmountSent(form: LoanForm, selected: Option<Loan>)
    requires form.workerId != "" && form.loanAmt.Some? && form.loanAmt.value < 0
    ensures SubmitLoan(form, selected).Sent?
    ensures Get(SubmitLoan(form, selected).request.body, "loan_amt") == Num(form.loanAmt.value)
  {
  }

  const InstallmentCap: int := 1000

  /** `handlePayment`'s default installment: the remaining amount, capped at 1000. */
  function DefaultInstallment(loan: Loan): (amount: int)
    ensures amount <= InstallmentCap && amount <= loan.remainingAmount
    ensures amount == InstallmentCap || amount == loan.remainingAmount
  {
    if loan.remainingAmount < InstallmentCap then loan.remainingAmount else InstallmentCap
  }

  /** `handleCreate`: an empty form with a zero amount and an active status, no typed date, nothing selected, no error. */
  function NewLoanEditor(): (e: LoanEditor)
    ensures e.form.workerId == "" && e.form.workerName == "" && e.form.loanDate == ""
    ensures e.form.loanAmt == Some(0) && e.form.status == LoanActive
    ensures e.rawLoanDate == "" && e.selected.None? && e.error == ""
  {
    LoanEditor(LoanForm("", "", Some(0), "", LoanActive), "", None, "")
  }

  /** A freshly opened create form cannot be submitted until a worker and an amount are chosen. */
  lemma NewLoanBlocked()
    ensures SubmitLoan(NewLoanEditor().form, NewLoanEditor().selected) == Blocked(FillRequiredMessage)
  {
  }

  /** `handleEdit`: the form takes the loan's fields and the typed date shows `formatDate(loan_date)`. */
  function EditLoan(loan: Loan, formatDate: string -> string): (e: LoanEditor)
    ensures e.selected == Some(loan) && e.error == ""
    ensures e.form.workerId == loan.worker.id && e.form.loanAmt == Some(loan.loanAmt)
    ensures e.form.workerName == loan.workerName && e.form.status == loan.status
    ensures e.form.loanDate == loan.loanDate && e.rawLoanDate == formatDate(loan.loanDate)
  {
    LoanEditor(
      LoanForm(loan.worker.id, loan.workerName, Some(loan.loanAmt), loan.loanDate, loan.status),
      formatDate(loan.loanDate), Some(loan), "")
  }

  /** Editing an unchanged loan re-submits it to its own URL. */
  lemma EditedLoanUpdatesItself(loan: Loan, formatDate: string -> string)
    requires loan.worker.id != "" && loan.loanAmt != 0
    ensures var e := EditLoan(loan, formatDate);
      SubmitLoan(e.form, e.selected) == Sent(Request(PUT, "/loans/" + loan.id, LoanBody(e.form)))
  {
  }

  /** The loan-date input as a two-representation field. */
  function LoanDateField(e: LoanEditor): DateField {
    DateField(e.rawLoanDate, e.form.loanDate)
  }

  /** The loan-date `onChange`: stores the text and, when it converts, the ISO date; nothing else changes. */
  function OnLoanDateChange(e: LoanEditor, input: string): (r: LoanEditor)
    ensures r.rawLoanDate == input
    ensures r.form.loanDate == Commit(e.form.loanDate, input)
    ensures r.form == e.form.(loanDate := r.form.loanDate)
    ensures r.selected == e.selected && r.error == e.error
  {
    var f := OnChange(LoanDateField(e), input);
    e.(rawLoanDate := f.raw, form := e.form.(loanDate := f.iso))
  }

  /** The loan-date `onBlur`: offers the current text to the converter again. */
  function OnLoanDateBlur(e: LoanEditor): (r: LoanEditor)
    ensures r.rawLoanDate == e.rawLoanDate
    ensures r.form == e.form.(loanDate := Commit(e.form.loanDate, e.rawLoanDate))
    ensures r.selected == e.selected && r.error == e.error
  {
    var f := OnBlur(LoanDateField(e));
    e.(rawLoanDate := f.raw, form := e.form.(loanDate := f.iso))
  }

  /** Blurring right after typing changes nothing: the blur converts the same text the change did. */
  lemma LoanBlurAfterChange(e: LoanEditor, input: string)
    ensures OnLoanDateBlur(OnLoanDateChange(e, input)) == OnLoanDateChange(e, input)
  {
    BlurAfterChange(LoanDateField(e), input);
  }

  /** Typing eight digits in `DD/MM/YYYY` form commits the zero-padded ISO date. */
  lemma TypedLoanDateCommits(e: LoanEditor, d: string, m: string, y: string)
    requires '/' !in d && '/' !in m && '/' !in y
    requires d != "" && m != "" && y != ""
    requires |d| + |m| + |y| == 8
    ensures OnLoanDateChange(e, d + "/" + m + "/" + y).form.loanDate == y + "-" + PadStart2(m) + "-" + PadStart2(d)
  {
    ConvertParts(d, m, y);
  }
}

=== FILE: login_page.dfy ===
/**
 * The login page (app/login/page.tsx): the two field checks, clearing a
 * field's error as it is edited, the login request, and what happens when
 * it answers, fails or times out.
 */
module LoginPage {
  import opened Optional
  import opened Strings
  import opened JsValues
  import opened Credentials
  import opened FormErrors
  import opened Requests
  import opened Api
  import SignupPage

  datatype LoginForm = LoginForm(email: string, password: string)

  datatype LoginField = Email | Password

  /** The form with the errors `validateForm` last recorded. */
  datatype LoginState = LoginState(form: LoginForm, errors: map<LoginField, string>)

  function FieldValue(form: LoginForm, f: LoginField): string {
    match f
    case Email => form.email
    case Password => form.password
  }

  /** `{ ...prev, [name]: value }`: one field replaced, the other kept. */
  function SetField(form: LoginForm, f: LoginField, value: string): (r: LoginForm)
    ensures FieldValue(r, f) == value
    ensures forall g :: g != f ==> FieldValue(r, g) == FieldValue(form, g)
  {
    match f
    case Email => form.(email := value)
    case Password => form.(password := value)
  }

  /** `validateForm`: the error map, one entry per failing field. */
  function ValidateLogin(form: LoginForm): (errors: map<LoginField, string>)
    ensures Email in errors <==> !IsGmailAddress(form.email)
    ensures Password in errors <==> !IsStrongPassword(form.password)
    ensures IsBlank(form.email) ==> Email in errors && errors[Email] == EmailRequiredMessage
    ensures !IsBlank(form.email) && !IsGmailAddress(form.email) ==> Email in errors && errors[Email] == GmailPatternMessage
    ensures form.password == "" ==> Password in errors && errors[Password] == PasswordRequiredMessage
    ensures form.password != "" && !IsStrongPassword(form.password) ==>
      Password in errors && errors[Password] == WeakPasswordMessage
  {
    Record(Record(map[], Email, GmailFieldError(form.email)), Password, PasswordFieldError(form.password))
  }

  /** The rules a login must satisfy. */
  predicate IsAcceptableLogin(form: LoginForm) {
    IsGmailAddress(form.email) && IsStrongPassword(form.password)
  }

  /** The form is valid iff its error map is empty. */
  lemma ValidLoginIff(form: LoginForm)
    ensures |ValidateLogin(form)| == 0 <==> IsAcceptableLogin(form)
  {
    var errors := ValidateLogin(form);
    if |errors| != 0 {
      var f :| f in errors;
    }
  }

  /** `handleInputChange`: the edited field takes the value and loses its error; nothing else changes. */
  function HandleLoginInput(st: LoginState, f: LoginField, value: string): (r: LoginState)
    ensures FieldValue(r.form, f) == value
    ensures forall g :: g != f ==> FieldValue(r.form, g) == FieldValue(st.form, g)
    ensures f !in r.errors
    ensures forall g :: g != f ==> (g in r.errors <==> g in st.errors)
    ensures forall g :: g in r.errors ==> r.errors[g] == st.errors[g]
  {
    LoginState(SetField(st.form, f, value), ClearError(st.errors, f))
  }

  const LoginPath: string := "/auth/login"

  /** The login body: exactly the e-mail and password as typed. */
  function LoginBody(form: LoginForm): (body: JsValue)
    ensures body.Obj? && body.fields.Keys == {"email", "password"}
    ensures Get(body, "email") == Str(form.email) && Get(body, "password") == Str(form.password)
  {
    Obj(map["email" := Str(form.email), "password" := Str(form.password)])
  }

  /** `handleSubmit`: nothing is sent when validation fails; otherwise one `POST /auth/login`. */
  function SubmitLogin(form: LoginForm): (r: Submission<map<LoginField, string>>)
    ensures r.Blocked? <==> !IsAcceptableLogin(form)
    ensures r.Blocked? ==> r.reason == ValidateLogin(form) && |r.reason| > 0
    ensures r.Sent? ==> r.request == Request(POST, LoginPath, LoginBody(form))
  {
    ValidLoginIff(form);
    var errors := ValidateLogin(form);
    if |errors| > 0 then Blocked(errors) else Sent(Request(POST, LoginPath, LoginBody(form)))
  }

  /** Whatever the sign-up form accepts, the login form accepts for the same e-mail and password. */
  lemma SignupCredentialsLogIn(f: SignupPage.SignupForm)
    ensures SignupPage.IsAcceptableSignup(f) ==> SubmitLogin(LoginForm(f.email, f.password)).Sent?
  {
  }

  /** How the request ended: aborted by the ten-second timer, failed in the network, or answered. */
  datatype LoginAttempt = TimedOut | Unreachable | Answered(response: Response)

  /** What the browser keeps after a successful login: the token and the user record. */
  datatype Session = Session(token: JsValue, user: JsValue)

  /** Success (with the session stored, if the body carried a token) or the banner text shown. */
  datatype LoginOutcome = LoggedIn(stored: Option<Session>) | Failed(banner: JsValue)

  const TimeoutMessage: string := "Request timed out. Please check your connection and try again."
  const NetworkMessage: string := "Network error. Please check your connection and try again."
  const LoginFailed: string := "Login failed. Please try again."

  /**
   * The end of `handleSubmit`. A body that is not JSON, or a `null` body
   * (reading `data.token` or `data.error` then throws), ends in the network
   * message like a failed fetch.
   */
  function AfterLogin(attempt: LoginAttempt): (r: LoginOutcome)
    ensures r.LoggedIn? <==>
      (attempt.Answered? && attempt.response.Ok() && attempt.response.body.Some? && !IsNullish(attempt.response.body.value))
    ensures r.Failed? ==> Truthy(r.banner)
    ensures attempt.TimedOut? ==> r == Failed(Str(TimeoutMessage))
    ensures attempt.Unreachable? ==> r == Failed(Str(NetworkMessage))
    ensures r.LoggedIn? && r.stored.Some? ==>
      var data := attempt.response.body.value;
      Truthy(r.stored.value.token) && r.stored.value == Session(Get(data, "token"), Get(data, "user"))
  {
    match attempt
    case TimedOut => Failed(Str(TimeoutMessage))
    case Unreachable => Failed(Str(NetworkMessage))
    case Answered(resp) =>
      match resp.body
      case None => Failed(Str(NetworkMessage))
      case Some(data) =>
        if IsNullish(data) then Failed(Str(NetworkMessage))
        else if resp.Ok() then
          LoggedIn(if Truthy(Get(data, "token")) then Some(Session(Get(data, "token"), Get(data, "user"))) else None)
        else Failed(ErrorOrMessage(data, LoginFailed))
  }

  /** An ok answer whose body carries a token stores exactly that token. */
  lemma TokenStored(resp: Response, data: JsValue)
    requires resp.Ok() && resp.body == Some(data) && data.Obj?
    requires Truthy(Get(data, "token"))
    ensures AfterLogin(Answered(resp)) == LoggedIn(Some(Session(Get(data, "token"), Get(data, "user"))))
  {
  }

  /** A refusal shows the server's `error`, else its `message`, else the generic failure text. */
  lemma RefusalBanner(resp: Response, data: JsValue)
    requires !resp.Ok() && resp.body == Some(data) && data.Obj?
    ensures Truthy(Get(data, "error")) ==> AfterLogin(Answered(resp)) == Failed(Get(data, "error"))
    ensures !Truthy(Get(data, "error")) && Truthy(Get(data, "message")) ==>
      AfterLogin(Answered(resp)) == Failed(Get(data, "message"))
    ensures !Truthy(Get(data, "error")) && !Truthy(Get(data, "message")) ==>
      AfterLogin(Answered(resp)) == Failed(Str(LoginFailed))
  {
  }
}

=== FILE: optional.dfy ===
/** The optional-value wrapper used wherever the source has `undefined`, `null` or `NaN`. */
module Optional {

  datatype Option<+T> = None | Some(value: T) {

    /** The wrapped value, or `default` when there is none (JavaScript's `x ?? default`). */
    function GetOr(default: T): T {
      match this
      case Some(v) => v
      case None => default
    }
  }
}

=== FILE: personal_information.dfy ===
/**
 * The profile form of the settings page
 * (components/settings/PersonalInformation.tsx): loading the form from the
 * signed-in user, the three field checks, clearing a field's error as it is
 * edited, and the save, which either sends the trimmed fields or, when the
 * endpoint is missing, keeps a locally built user record instead.
 */
module PersonalInformation {
  import opened Optional
  import opened Strings
  import opened JsValues
  import opened Credentials
  import opened FormErrors
  import opened Requests

  datatype User = User(id: string, name: string, email: string, phone: string, role: string)

  datatype ProfileForm = ProfileForm(name: string, email: string, phone: string)

  datatype ProfileField = Name | Email | Phone

  /** The form, its per-field errors, and the form-wide `general` error. */
  datatype ProfileState = ProfileState(form: ProfileForm, errors: map<ProfileField, string>, general: Option<string>)

  /** The effect `useEffect` has when the user changes: the form shows the user's fields; with no user it is left as it is. */
  function LoadProfile(user: Option<User>, form: ProfileForm): (r: ProfileForm)
    ensures user.None? ==> r == form
    ensures user.Some? ==> r.name == user.value.name && r.email == user.value.email && r.phone == user.value.phone
  {
    match user
    case None => form
    case Some(u) => ProfileForm(u.name, u.email, u.phone)
  }

  function FieldValue(form: ProfileForm, f: ProfileField): string {
    match f
    case Name => form.name
    case Email => form.email
    case Phone => form.phone
  }

  /** `{ ...prev, [field]: value }`: one field replaced, the others kept. */
  function SetField(form: ProfileForm, f: ProfileField, value: string): (r: ProfileForm)
    ensures FieldValue(r, f) == value
    ensures forall g :: g != f ==> FieldValue(r, g) == FieldValue(form, g)
  {
    match f
    case Name => form.(name := value)
    case Email => form.(email := value)
    case Phone => form.(phone := value)
  }

  const NameTooShortMessage: string := "Name must be at least 2 characters"

  /** The name check: required after trimming, then at least two characters once trimmed. */
  function NameError(name: string): (r: Option<string>)
    ensures r.None? <==> |Trim(name)| >= 2
    ensures IsBlank(name) ==> r == Some(NameRequiredMessage)
    ensures |Trim(name)| == 1 ==> r == Some(NameTooShortMessage)
  {
    if IsBlank(name) then Some(NameRequiredMessage)
    else if |Trim(name)| < 2 then Some(NameTooShortMessage)
    else None
  }

  /** The e-mail check: required after trimming, then the general pattern on the text as typed. */
  function EmailError(email: string): (r: Option<string>)
    ensures r.None? <==> IsDottedEmail(email)
    ensures IsBlank(email) ==> r == Some(EmailRequiredMessage)
    ensures !IsBlank(email) && !IsDottedEmail(email) ==> r == Some(EmailInvalidMessage)
  {
    if IsBlank(email) then
      assert !IsDottedEmail(email) by {
        if IsDottedEmail(email) {
          DottedEmailNoSpace(email);
        }
      }
      Some(EmailRequiredMessage)
    else if !IsDottedEmail(email) then Some(EmailInvalidMessage)
    else None
  }

  /** The phone check: required after trimming, then ten digits once whitespace is removed. */
  function PhoneError(phone: string): (r: Option<string>)
    ensures r.None? <==> !IsBlank(phone) && IsSpacedTenDigitPhone(phone)
    ensures IsBlank(phone) ==> r == Some(PhoneRequiredMessage)
    ensures !IsBlank(phone) && !IsSpacedTenDigitPhone(phone) ==> r == Some(PhoneInvalidMessage)
  {
    if IsBlank(phone) then Some(PhoneRequiredMessage)
    else if !IsSpacedTenDigitPhone(phone) then Some(PhoneInvalidMessage)
    else None
  }

  /** `validateForm`: each field is in the error map exactly when its check failed, holding that check's message. */
  function ValidateProfile(form: ProfileForm): (errors: map<ProfileField, string>)
    ensures Name in errors <==> NameError(form.name).Some?
    ensures Email in errors <==> EmailError(form.email).Some?
    ensures Phone in errors <==> PhoneError(form.phone).Some?
    ensures Name in errors ==> errors[Name] == NameError(form.name).value
    ensures Email in errors ==> errors[Email] == EmailError(form.email).value
    ensures Phone in errors ==> errors[Phone] == PhoneError(form.phone).value
  {
    var named := Record(map[], Name, NameError(form.name));
    var mailed := Record(named, Email, EmailError(form.email));
    Record(mailed, Phone, PhoneError(form.phone))
  }

  /** The rules a profile must satisfy. */
  predicate IsAcceptableProfile(form: ProfileForm) {
    && |Trim(form.name)| >= 2
    && IsDottedEmail(form.email)
    && !IsBlank(form.phone) && IsSpacedTenDigitPhone(form.phone)
  }

  /** The form is valid iff its error map is empty. */
  lemma ValidProfileIff(form: ProfileForm)
    ensures |ValidateProfile(form)| == 0 <==> IsAcceptableProfile(form)
  {
    var errors := ValidateProfile(form);
    if |errors| != 0 {
      var f :| f in errors;
    }
  }

  /** `handleInputChange`: the edited field takes the value and loses its error; nothing else changes. */
  function HandleProfileInput(st: ProfileState, f: ProfileField, value: string): (r: ProfileState)
    ensures FieldValue(r.form, f) == value
    ensures forall g :: g != f ==> FieldValue(r.form, g) == FieldValue(st.form, g)
    ensures f !in r.errors
    ensures forall g :: g != f ==> (g in r.errors <==> g in st.errors)
    ensures forall g :: g in r.errors ==> r.errors[g] == st.errors[g]
    ensures r.general == st.general
  {
    ProfileState(SetField(st.form, f, value), ClearError(st.errors, f), st.general)
  }

  /** The fields as saved: each one trimmed. */
  function Trimmed(form: ProfileForm): ProfileForm {
    ProfileForm(Trim(form.name), Trim(form.email), Trim(form.phone))
  }

  /** Saving trims nothing more the second time. */
  lemma TrimmedIdempotent(form: ProfileForm)
    ensures Trimmed(Trimmed(form)) == Trimmed(form)
  {
    TrimIdempotent(form.name);
    TrimIdempotent(form.email);
    TrimIdempotent(form.phone);
  }

  /** A profile that passes the checks still passes them once trimmed, and its e-mail is unchanged by trimming. */
  lemma TrimmedStaysAcceptable(form: ProfileForm)
    requires IsAcceptableProfile(form)
    ensures IsAcceptableProfile(Trimmed(form))
    ensures Trimmed(form).email == form.email
  {
    TrimIdempotent(form.name);
    DottedEmailNoSpace(form.email);
    TrimIdempotent(form.phone);
    RemoveSpacesTrim(form.phone);
  }

  const ProfilePath: string := "/api/v1/auth/update-profile"

  /** The update body: the three fields of `form`, which the save passes already trimmed. */
  function ProfileBody(form: ProfileForm): (body: JsValue)
    ensures body.Obj? && body.fields.Keys == {"name", "email", "phone"}
    ensures Get(body, "name") == Str(form.name)
    ensures Get(body, "email") == Str(form.email)
    ensures Get(body, "phone") == Str(form.phone)
  {
    var fields := map["name" := Str(form.name), "email" := Str(form.email), "phone" := Str(form.phone)];
    assert fields["name"] == Str(form.name);
    assert fields["email"] == Str(form.email);
    assert fields["phone"] == Str(form.phone);
    Obj(fields)
  }

  /**
   * The user kept when the endpoint is missing: the trimmed fields, with the
   * signed-in user's id and role when they are non-empty and `"1"` and
   * `"user"` otherwise.
   */
  function LocalUser(user: Option<User>, form: ProfileForm): (u: User)
    ensures u.name == Trim(form.name) && u.email == Trim(form.email) && u.phone == Trim(form.phone)
    ensures u.id != "" && u.role != ""
    ensures user.Some? && user.value.id != "" ==> u.id == user.value.id
    ensures (user.None? || user.value.id == "") ==> u.id == "1"
    ensures user.Some? && user.value.role != "" ==> u.role == user.value.role
    ensures (user.None? || user.value.role == "") ==> u.role == "user"
  {
    var id := if user.Some? && user.value.id != "" then user.value.id else "1";
    var role := if user.Some? && user.value.role != "" then user.value.role else "user";
    User(id, Trim(form.name), Trim(form.email), Trim(form.phone), role)
  }

  /** A user saved locally loads back as a form that passes the checks again. */
  lemma LocalSaveReloads(user: Option<User>, form: ProfileForm, shown: ProfileForm)
    requires IsAcceptableProfile(form)
    ensures LoadProfile(Some(LocalUser(user, form)), shown) == Trimmed(form)
    ensures IsAcceptableProfile(LoadProfile(Some(LocalUser(user, form)), shown))
  {
    TrimmedStaysAcceptable(form);
  }

  /** What a save does besides updating the form state: nothing, keep a local user, or send the update. */
  datatype SaveEffect = NoEffect | KeptLocally(user: User) | UpdateSent(request: Request)

  /**
   * `handleSubmit` up to the update request: an invalid form records its
   * errors, which replace any earlier general error, and does nothing else;
   * a valid one clears the errors and then, by the gate, shows the
   * missing-token error, keeps a local user, or sends one `PUT` with the
   * trimmed fields.
   */
  function SubmitProfile(st: ProfileState, user: Option<User>, gate: Gate): (r: (ProfileState, SaveEffect))
    ensures r.0.form == st.form
    ensures !IsAcceptableProfile(st.form) ==> r.0.errors == ValidateProfile(st.form) && |r.0.errors| > 0 && r.1.NoEffect?
    ensures !IsAcceptableProfile(st.form) ==> r.0.general.None?
    ensures IsAcceptableProfile(st.form) ==> |r.0.errors| == 0
    ensures IsAcceptableProfile(st.form) && gate.NoToken? ==> r.0.general == Some(NoTokenMessage) && r.1.NoEffect?
    ensures IsAcceptableProfile(st.form) && gate.ProbeMissing? ==> r.1 == KeptLocally(LocalUser(user, st.form))
    ensures r.1.UpdateSent? <==> IsAcceptableProfile(st.form) && gate.Available?
    ensures r.1.UpdateSent? ==> r.1.request == Request(PUT, ProfilePath, ProfileBody(Trimmed(st.form)))
  {
    ValidProfileIff(st.form);
    var errors := ValidateProfile(st.form);
    if |errors| > 0 then (ProfileState(st.form, errors, None), NoEffect)
    else
      match gate
      case NoToken => (ProfileState(st.form, map[], Some(NoTokenMessage)), NoEffect)
      case ProbeMissing => (ProfileState(st.form, map[], None), KeptLocally(LocalUser(user, st.form)))
      case Available => (ProfileState(st.form, map[], None), UpdateSent(Request(PUT, ProfilePath, ProfileBody(Trimmed(st.form)))))
  }

  const UpdateFailed: string := "Failed to update profile"

  /**
   * How the update request ended: refused with a body, answered ok with a
   * body (`None` when it does not parse), or thrown with the error's text.
   */
  datatype UpdateReply = Refused(body: Option<JsValue>) | Updated(body: Option<JsValue>) | Thrown(text: string)

  /**
   * The general error after the update request, and the user record kept on
   * success (the parsed body, as the server sent it). An ok answer whose
   * body does not parse throws a `SyntaxError` whose text the engine
   * chooses; that case keeps nothing and shows `None` here.
   */
  function AfterProfileUpdate(reply: UpdateReply): (r: (Option<string>, Option<JsValue>))
    ensures r.1.Some? <==> reply.Updated? && reply.body.Some?
    ensures r.1.Some? ==> r.1.value == reply.body.value && r.0.None?
    ensures reply.Refused? ==> r.0 == RefusalText(reply.body, UpdateFailed)
    ensures reply.Thrown? ==> r.0 == Some(reply.text)
  {
    match reply
    case Refused(body) => (RefusalText(body, UpdateFailed), None)
    case Updated(body) => (None, body)
    case Thrown(text) => (Some(text), None)
  }
}

=== FILE: requests.dfy ===
/**
 * The requests the pages issue, as values: a method, a path relative to the
 * API base URL, and a JSON body. A submit either sends one request or is
 * blocked with the reason shown to the user.
 */
module Requests {
  import opened Optional
  import opened JsValues

  datatype Method = GET | POST | PUT | DELETE

  datatype Request = Request(verb: Method, path: string, body: JsValue)

  /** The outcome of a submit handler: blocked before any request, or exactly one request sent. */
  datatype Submission<E> = Blocked(reason: E) | Sent(request: Request)

  /**
   * The save request of the loan, expense and beam pages: with a record
   * selected it updates that record (`PUT /<resource>/<id>`), without one it
   * creates a record (`POST /<resource>`).
   */
  function SaveRequest(resource: string, selectedId: Option<string>, body: JsValue): (r: Request)
    ensures r.verb == PUT <==> selectedId.Some?
    ensures r.verb == POST <==> selectedId.None?
    ensures selectedId.Some? ==> r.path == "/" + resource + "/" + selectedId.value
    ensures selectedId.None? ==> r.path == "/" + resource
    ensures r.body == body
  {
    match selectedId
    case Some(id) => Request(PUT, "/" + resource + "/" + id, body)
    case None => Request(POST, "/" + resource, body)
  }

  /** Different selected records are never sent to the same URL. */
  lemma SaveRequestTargetsSelection(resource: string, a: Option<string>, b: Option<string>, body: JsValue)
    requires SaveRequest(resource, a, body) == SaveRequest(resource, b, body)
    ensures a == b
  {
    if a.Some? && b.Some? {
      var prefix := "/" + resource + "/";
      assert SaveRequest(resource, a, body).path == prefix + a.value;
      assert (prefix + a.value)[|prefix|..] == a.value;
      assert (prefix + b.value)[|prefix|..] == b.value;
    }
  }

  /**
   * What the two settings forms check before their `PUT`: a stored token, then
   * an `OPTIONS` probe of the endpoint. The probe failing or answering 404
   * counts as the endpoint missing.
   */
  datatype Gate = NoToken | ProbeMissing | Available

  const NoTokenMessage: string := "No authentication token found"

  /**
   * The text a settings form shows when its `PUT` is refused:
   * `new Error(errorData.message || fallback).message`, where `errorData` is
   * the parsed body, or `{ message: fallback }` when the body does not parse.
   * A `null` body makes reading `.message` throw a `TypeError` whose text the
   * JavaScript engine chooses; that case yields `None`.
   */
  function RefusalText(body: Option<JsValue>, fallback: string): (r: Option<string>)
    ensures r.None? <==> body.Some? && IsNullish(body.value)
    ensures body.None? ==> r == Some(fallback)
    ensures body.Some? && Truthy(Get(body.value, "message")) ==> r == Some(ToJsString(Get(body.value, "message")))
    ensures body.Some? && !IsNullish(body.value) && !Truthy(Get(body.value, "message")) ==> r == Some(fallback)
  {
    match body
    case None => Some(fallback)
    case Some(data) =>
      if IsNullish(data) then None
      else Some(ToJsString(Or(Get(data, "message"), Str(fallback))))
  }
}

=== FILE: security_settings.dfy ===
/**
 * The password-change form of the settings page
 * (components/settings/SecuritySettings.tsx): the three field checks,
 * clearing a field's error as it is edited, the change request, and the
 * form's state once the request has ended.
 */
module SecuritySettings {
  import opened Optional
  import opened Strings
  import opened JsValues
  import opened Credentials
  import opened FormErrors
  import opened Requests
  import opened Api

  datatype PasswordForm = PasswordForm(currentPassword: string, newPassword: string, confirmPassword: string)

  datatype PasswordField = Current | New | Confirm

  const EmptyPasswordForm: PasswordForm := PasswordForm("", "", "")

  /** The form, its per-field errors, and the form-wide `general` error. */
  datatype PasswordState = PasswordState(form: PasswordForm, errors: map<PasswordField, string>, general: Option<string>)

  function FieldValue(form: PasswordForm, f: PasswordField): string {
    match f
    case Current => form.currentPassword
    case New => form.newPassword
    case Confirm => form.confirmPassword
  }

  /** `{ ...prev, [field]: value }`: one field replaced, the others kept. */
  function SetField(form: PasswordForm, f: PasswordField, value: string): (r: PasswordForm)
    ensures FieldValue(r, f) == value
    ensures forall g :: g != f ==> FieldValue(r, g) == FieldValue(form, g)
  {
    match f
    case Current => form.(currentPassword := value)
    case New => form.(newPassword := value)
    case Confirm => form.(confirmPassword := value)
  }

  const CurrentRequiredMessage: string := "Current password is required"
  const NewRequiredMessage: string := "New password is required"
  const TooShortMessage: string := "Password must be at least 8 characters"
  const NoLowerMessage: string := "Password must contain at least one lowercase letter"
  const NoSymbolMessage: string := "Password must contain at least one symbol"
  const ConfirmRequiredMessage: string := "Please confirm your new password"
  const MismatchMessage: string := "Passwords do not match"

  /** The current-password check: required after trimming. */
  function CurrentError(current: string): (r: Option<string>)
    ensures r.Some? <==> IsBlank(current)
  {
    if IsBlank(current) then Some(CurrentRequiredMessage) else None
  }

  /**
   * The new-password check, rule by rule: required after trimming, at least
   * eight characters, a lower-case letter, a symbol. The two lookahead
   * patterns are unanchored, so a line terminator does not stop them.
   */
  function NewPasswordError(p: string): (r: Option<string>)
    ensures r.None? <==> !IsBlank(p) && |p| >= 8 && HasLower(p) && HasSymbol(p)
    ensures IsBlank(p) ==> r == Some(NewRequiredMessage)
    ensures !IsBlank(p) && |p| < 8 ==> r == Some(TooShortMessage)
    ensures !IsBlank(p) && |p| >= 8 && !HasLower(p) ==> r == Some(NoLowerMessage)
    ensures !IsBlank(p) && |p| >= 8 && HasLower(p) && !HasSymbol(p) ==> r == Some(NoSymbolMessage)
  {
    if IsBlank(p) then Some(NewRequiredMessage)
    else if |p| < 8 then Some(TooShortMessage)
    else if !HasLower(p) then Some(NoLowerMessage)
    else if !HasSymbol(p) then Some(NoSymbolMessage)
    else None
  }

  /** The confirmation check: required after trimming, then equal to the new password. */
  function ConfirmError(newPassword: string, confirm: string): (r: Option<string>)
    ensures r.None? <==> !IsBlank(confirm) && confirm == newPassword
    ensures IsBlank(confirm) ==> r == Some(ConfirmRequiredMessage)
    ensures !IsBlank(confirm) && confirm != newPassword ==> r == Some(MismatchMessage)
  {
    if IsBlank(confirm) then Some(ConfirmRequiredMessage)
    else if newPassword != confirm then Some(MismatchMessage)
    else None
  }

  /** `validatePasswordForm`: the error map, one entry per failing field. */
  function ValidatePasswordForm(form: PasswordForm): (errors: map<PasswordField, string>)
    ensures Current in errors <==> IsBlank(form.currentPassword)
    ensures New in errors <==> !(!IsBlank(form.newPassword) && |form.newPassword| >= 8 && HasLower(form.newPassword) && HasSymbol(form.newPassword))
    ensures Confirm in errors <==> IsBlank(form.confirmPassword) || form.confirmPassword != form.newPassword
    ensures Current in errors ==> errors[Current] == CurrentRequiredMessage
    ensures IsBlank(form.newPassword) ==> New in errors && errors[New] == NewRequiredMessage
    ensures IsBlank(form.confirmPassword) ==> Confirm in errors && errors[Confirm] == ConfirmRequiredMessage
  {
    var current := Record(map[], Current, CurrentError(form.currentPassword));
    var next := Record(current, New, NewPasswordError(form.newPassword));
    Record(next, Confirm, ConfirmError(form.newPassword, form.confirmPassword))
  }

  /** The rules a password change must satisfy. */
  predicate IsAcceptableChange(form: PasswordForm) {
    && !IsBlank(form.currentPassword)
    && !IsBlank(form.newPassword) && |form.newPassword| >= 8 && HasLower(form.newPassword) && HasSymbol(form.newPassword)
    && form.confirmPassword == form.newPassword
  }

  /** The form is valid iff its error map is empty. */
  lemma ValidChangeIff(form: PasswordForm)
    ensures |ValidatePasswordForm(form)| == 0 <==> IsAcceptableChange(form)
  {
    var errors := ValidatePasswordForm(form);
    if |errors| != 0 {
      var f :| f in errors;
    }
  }

  /** A string with a lower-case letter is not blank. */
  lemma LowerNotBlank(p: string)
    requires HasLower(p)
    ensures !IsBlank(p)
  {
    var i :| 0 <= i < |p| && IsLower(p[i]);
    assert !IsSpace(p[i]);
  }

  /**
   * Any password the sign-up and login pattern accepts also passes this
   * form's new-password check; the converse fails for passwords holding a
   * line terminator.
   */
  lemma StrongPasswordAccepted(p: string)
    requires IsStrongPassword(p)
    ensures NewPasswordError(p).None?
  {
    LowerNotBlank(p);
  }

  /** A password with a line feed passes this form's check although the login pattern refuses it. */
  lemma LineFeedAcceptedHere()
    ensures NewPasswordError("abcdefg!\n").None?
    ensures !IsStrongPassword("abcdefg!\n")
  {
    var p := "abcdefg!\n";
    assert IsLower(p[0]);
    assert !IsAlnum(p[7]);
    LowerNotBlank(p);
    assert IsLineTerminator(p[8]);
  }

  /** `handlePasswordInputChange`: the edited field takes the value and loses its error; nothing else changes. */
  function HandlePasswordInput(st: PasswordState, f: PasswordField, value: string): (r: PasswordState)
    ensures FieldValue(r.form, f) == value
    ensures forall g :: g != f ==> FieldValue(r.form, g) == FieldValue(st.form, g)
    ensures f !in r.errors
    ensures forall g :: g != f ==> (g in r.errors <==> g in st.errors)
    ensures forall g :: g in r.errors ==> r.errors[g] == st.errors[g]
    ensures r.general == st.general
  {
    PasswordState(SetField(st.form, f, value), ClearError(st.errors, f), st.general)
  }

  const ChangePasswordPath: string := "/api/v1/auth/change-password"

  /** The change body: the current and the new password; the confirmation is not sent. */
  function ChangeBody(form: PasswordForm): (body: JsValue)
    ensures body.Obj? && body.fields.Keys == {"currentPassword", "newPassword"}
    ensures Get(body, "currentPassword") == Str(form.currentPassword)
    ensures Get(body, "newPassword") == Str(form.newPassword)
  {
    Obj(map["currentPassword" := Str(form.currentPassword), "newPassword" := Str(form.newPassword)])
  }

  const DemoModeMessage: string := "Password change feature is not available yet. This is a demo mode."

  /**
   * `handlePasswordSubmit` up to the change request: an invalid form records
   * its errors, which replace any earlier general notice, and sends nothing;
   * a valid one clears the errors and then either stops with a general notice
   * or sends one `PUT`.
   */
  function SubmitPasswordChange(st: PasswordState, gate: Gate): (r: (PasswordState, Option<Request>))
    ensures r.1.Some? <==> IsAcceptableChange(st.form) && gate.Available?
    ensures r.1.Some? ==> r.1.value == Request(PUT, ChangePasswordPath, ChangeBody(st.form))
    ensures r.0.form == st.form
    ensures !IsAcceptableChange(st.form) ==> r.0.errors == ValidatePasswordForm(st.form) && |r.0.errors| > 0
    ensures !IsAcceptableChange(st.form) ==> r.0.general.None?
    ensures IsAcceptableChange(st.form) ==> |r.0.errors| == 0
    ensures IsAcceptableChange(st.form) && gate.NoToken? ==> r.0.general == Some(NoTokenMessage)
    ensures IsAcceptableChange(st.form) && gate.ProbeMissing? ==> r.0.general == Some(DemoModeMessage)
  {
    ValidChangeIff(st.form);
    var errors := ValidatePasswordForm(st.form);
    if |errors| > 0 then (PasswordState(st.form, errors, None), None)
    else
      match gate
      case NoToken => (PasswordState(st.form, map[], Some(NoTokenMessage)), None)
      case ProbeMissing => (PasswordState(st.form, map[], Some(DemoModeMessage)), None)
      case Available => (PasswordState(st.form, map[], None), Some(Request(PUT, ChangePasswordPath, ChangeBody(st.form))))
  }

  const ChangeFailed: string := "Failed to change password"

  /** How the change request ended: refused with a body (`None` when it does not parse), accepted, or thrown with the error's text. */
  datatype ChangeReply = Refused(body: Option<JsValue>) | Accepted | Thrown(text: string)

  /**
   * The state after the change request: on success the form is reset to
   * empty; a refusal shows the server's message or the default; a thrown
   * error shows its text.
   */
  function AfterPasswordChange(st: PasswordState, reply: ChangeReply): (r: PasswordState)
    ensures reply.Accepted? ==> r == PasswordState(EmptyPasswordForm, map[], None)
    ensures !reply.Accepted? ==> r.form == st.form && r.errors == map[]
    ensures reply.Refused? ==> r.general == RefusalText(reply.body, ChangeFailed)
    ensures reply.Thrown? ==> r.general == Some(reply.text)
  {
    match reply
    case Accepted => PasswordState(EmptyPasswordForm, map[], None)
    case Thrown(text) => PasswordState(st.form, map[], Some(text))
    case Refused(body) => PasswordState(st.form, map[], RefusalText(body, ChangeFailed))
  }

  /** After a successful change the form is blank again, so submitting it at once is refused on every field. */
  lemma ResetFormRefused(st: PasswordState)
    ensures var errors := ValidatePasswordForm(AfterPasswordChange(st, Accepted).form);
      Current in errors && New in errors && Confirm in errors
  {
    assert AllSpace("");
  }
}

=== FILE: signup_page.dfy ===
/**
 * The sign-up page (app/signup/page.tsx): the five field checks, clearing a
 * field's error as it is edited, the registration request, and the banner
 * shown when registration fails.
 */
module SignupPage {
  import opened Optional
  import opened Strings
  import opened JsValues
  import opened Credentials
  import opened FormErrors
  import opened Requests
  import opened Api

  datatype SignupForm = SignupForm(name: string, email: string, phone: string, password: string, confirmPassword: string)

  datatype SignupField = Name | Email | Phone | Password | ConfirmPassword

  /** The form with the errors `validateForm` last recorded. */
  datatype SignupState = SignupState(form: SignupForm, errors: map<SignupField, string>)

  function FieldValue(form: SignupForm, f: SignupField): string {
    match f
    case Name => form.name
    case Email => form.email
    case Phone => form.phone
    case Password => form.password
    case ConfirmPassword => form.confirmPassword
  }

  /** `{ ...prev, [name]: value }`: one field replaced, the others kept. */
  function SetField(form: SignupForm, f: SignupField, value: string): (r: SignupForm)
    ensures FieldValue(r, f) == value
    ensures forall g :: g != f ==> FieldValue(r, g) == FieldValue(form, g)
  {
    match f
    case Name => form.(name := value)
    case Email => form.(email := value)
    case Phone => form.(phone := value)
    case Password => form.(password := value)
    case ConfirmPassword => form.(confirmPassword := value)
  }

  const ConfirmRequiredMessage: string := "Please confirm your password"
  const MismatchMessage: string := "Passwords do not match"

  /** The phone check: required after trimming, then exactly ten digits among all the characters. */
  function PhoneError(phone: string): (r: Option<string>)
    ensures r.None? <==> !IsBlank(phone) && HasTenDigits(phone)
    ensures IsBlank(phone) ==> r == Some(PhoneRequiredMessage)
    ensures !IsBlank(phone) && !HasTenDigits(phone) ==> r == Some(PhoneInvalidMessage)
  {
    if IsBlank(phone) then Some(PhoneRequiredMessage)
    else if !HasTenDigits(phone) then Some(PhoneInvalidMessage)
    else None
  }

  /** The confirmation check: required (not trimmed), then equal to the password. */
  function ConfirmError(password: string, confirm: string): (r: Option<string>)
    ensures r.None? <==> confirm != "" && confirm == password
    ensures confirm == "" ==> r == Some(ConfirmRequiredMessage)
    ensures confirm != "" && confirm != password ==> r == Some(MismatchMessage)
  {
    if confirm == "" then Some(ConfirmRequiredMessage)
    else if password != confirm then Some(MismatchMessage)
    else None
  }

  /** `validateForm`: each field is in the error map exactly when its check failed, holding that check's message. */
  function ValidateSignup(form: SignupForm): (errors: map<SignupField, string>)
    ensures Name in errors <==> NameFieldError(form.name).Some?
    ensures Email in errors <==> GmailFieldError(form.email).Some?
    ensures Phone in errors <==> PhoneError(form.phone).Some?
    ensures Password in errors <==> PasswordFieldError(form.password).Some?
    ensures ConfirmPassword in errors <==> ConfirmError(form.password, form.confirmPassword).Some?
    ensures Name in errors ==> errors[Name] == NameFieldError(form.name).value
    ensures Email in errors ==> errors[Email] == GmailFieldError(form.email).value
    ensures Phone in errors ==> errors[Phone] == PhoneError(form.phone).value
    ensures Password in errors ==> errors[Password] == PasswordFieldError(form.password).value
    ensures ConfirmPassword in errors ==> errors[ConfirmPassword] == ConfirmError(form.password, form.confirmPassword).value
  {
    var named := Record(map[], Name, NameFieldError(form.name));
    var mailed := Record(named, Email, GmailFieldError(form.email));
    var phoned := Record(mailed, Phone, PhoneError(form.phone));
    var passworded := Record(phoned, Password, PasswordFieldError(form.password));
    Record(passworded, ConfirmPassword, ConfirmError(form.password, form.confirmPassword))
  }

  /** The rules a registration must satisfy. */
  predicate IsAcceptableSignup(form: SignupForm) {
    && !IsBlank(form.name)
    && IsGmailAddress(form.email)
    && !IsBlank(form.phone) && HasTenDigits(form.phone)
    && IsStrongPassword(form.password)
    && form.confirmPassword == form.password
  }

  /** The form is valid iff its error map is empty. */
  lemma ValidSignupIff(form: SignupForm)
    ensures |ValidateSignup(form)| == 0 <==> IsAcceptableSignup(form)
  {
    var errors := ValidateSignup(form);
    if |errors| != 0 {
      var f :| f in errors;
    }
    if IsAcceptableSignup(form) {
      assert form.confirmPassword != "" by {
        assert |form.password| >= 8;
      }
    }
  }

  /** `handleInputChange`: the edited field takes the value and loses its error; nothing else changes. */
  function HandleSignupInput(st: SignupState, f: SignupField, value: string): (r: SignupState)
    ensures FieldValue(r.form, f) == value
    ensures forall g :: g != f ==> FieldValue(r.form, g) == FieldValue(st.form, g)
    ensures f !in r.errors
    ensures forall g :: g != f ==> (g in r.errors <==> g in st.errors)
    ensures forall g :: g in r.errors ==> r.errors[g] == st.errors[g]
  {
    SignupState(SetField(st.form, f, value), ClearError(st.errors, f))
  }

  function SignupFieldsOf(form: SignupForm): map<string, JsValue> {
    map["name" := Str(form.name), "email" := Str(form.email), "phone" := Str(form.phone), "password" := Str(form.password)]
  }

  /** The registration body: the four fields as typed; the confirmation is not sent. */
  function SignupBody(form: SignupForm): (body: JsValue)
    ensures body.Obj? && body.fields.Keys == {"name", "email", "phone", "password"}
    ensures "confirmPassword" !in body.fields
    ensures Get(body, "name") == Str(form.name) && Get(body, "phone") == Str(form.phone)
    ensures Get(body, "email") == Str(form.email) && Get(body, "password") == Str(form.password)
  {
    var fields := SignupFieldsOf(form);
    assert fields["name"] == Str(form.name);
    assert fields["phone"] == Str(form.phone);
    assert fields["email"] == Str(form.email);
    assert fields["password"] == Str(form.password);
    Obj(fields)
  }

  const SignupPath: string := "/auth/signup"

  /** `handleSubmit`: nothing is sent when validation fails; otherwise one `POST /auth/signup`. */
  function SubmitSignup(form: SignupForm): (r: Submission<map<SignupField, string>>)
    ensures r.Blocked? <==> !IsAcceptableSignup(form)
    ensures r.Blocked? ==> r.reason == ValidateSignup(form) && |r.reason| > 0
    ensures r.Sent? ==> r.request == Request(POST, SignupPath, SignupBody(form))
  {
    ValidSignupIff(form);
    var errors := ValidateSignup(form);
    if |errors| > 0 then Blocked(errors) else Sent(Request(POST, SignupPath, SignupBody(form)))
  }

  const SignupFailed: string := "Registration failed. Please try again."
  const NetworkMessage: string := "Network error. Please check your connection and try again."

  /**
   * The banner after the request (`None` for no banner): no response, a body
   * that is not JSON, or a `null` body give the network message; an ok
   * response gives none; otherwise `error || message || default`.
   */
  function SignupBanner(reply: Option<Response>): (banner: Option<JsValue>)
    ensures banner.Some? ==> Truthy(banner.value)
    ensures banner.None? <==> reply.Some? && reply.value.Ok() && reply.value.body.Some? && !IsNullish(reply.value.body.value)
    ensures reply.None? ==> banner == Some(Str(NetworkMessage))
    ensures reply.Some? && (reply.value.body.None? || IsNullish(reply.value.body.value)) ==>
      banner == Some(Str(NetworkMessage))
    ensures reply.Some? && !reply.value.Ok() && reply.value.body.Some? && !IsNullish(reply.value.body.value) ==>
      banner == Some(ErrorOrMessage(reply.value.body.value, SignupFailed))
  {
    match reply
    case None => Some(Str(NetworkMessage))
    case Some(resp) =>
      match resp.body
      case None => Some(Str(NetworkMessage))
      case Some(data) =>
        if IsNullish(data) then Some(Str(NetworkMessage))
        else if resp.Ok() then None
        else Some(ErrorOrMessage(data, SignupFailed))
  }

  /** A refusal whose body names an error shows that error, whatever the message says. */
  lemma RefusalShowsServerError(resp: Response, data: JsValue)
    requires !resp.Ok() && resp.body == Some(data) && data.Obj?
    requires Truthy(Get(data, "error"))
    ensures SignupBanner(Some(resp)) == Some(Get(data, "error"))
  {
  }
}

=== FILE: strings.dfy ===
/**
 * Character classes and string operations the forms rely on: ASCII whitespace
 * and trimming, digit filtering, lower-casing, substring search, splitting and
 * joining on a separator, `padStart(2, '0')`, integer-to-decimal rendering and
 * `parseInt`.
 */
module Strings {
  import opened Optional

  /** The ASCII whitespace characters `\s` and `trim()` remove. */
  predicate IsSpace(c: char) {
    c == ' ' || c == '\t' || c == '\n' || c == '\r' || c == '\U{000B}' || c == '\U{000C}'
  }

  predicate IsDigit(c: char) { '0' <= c <= '9' }

  predicate IsLower(c: char) { 'a' <= c <= 'z' }

  predicate IsUpper(c: char) { 'A' <= c <= 'Z' }

  /** Membership in the regex class `[A-Za-z0-9]`. */
  predicate IsAlnum(c: char) { IsLower(c) || IsUpper(c) || IsDigit(c) }

  predicate AllSpace(s: string) { forall i :: 0 <= i < |s| ==> IsSpace(s[i]) }

  predicate AllDigits(s: string) { forall i :: 0 <= i < |s| ==> IsDigit(s[i]) }

  predicate NoSpace(s: string) { forall i :: 0 <= i < |s| ==> !IsSpace(s[i]) }

  // ---------------------------------------------------------------- trimming

  /** Drops leading whitespace: the result is the suffix starting at the first non-space. */
  function TrimStart(s: string): (r: string)
    ensures |r| <= |s| && r == s[|s| - |r|..]
    ensures AllSpace(s[..|s| - |r|])
    ensures |r| > 0 ==> !IsSpace(r[0])
  {
    if |s| > 0 && IsSpace(s[0]) then TrimStart(s[1..]) else s
  }

  /** Drops trailing whitespace: the result is the prefix ending at the last non-space. */
  function TrimEnd(s: string): (r: string)
    ensures |r| <= |s| && r == s[..|r|]
    ensures AllSpace(s[|r|..])
    ensures |r| > 0 ==> !IsSpace(r[|r| - 1])
  {
    if |s| > 0 && IsSpace(s[|s| - 1]) then TrimEnd(s[..|s| - 1]) else s
  }

  /**
   * `s.trim()`: the part of `s` left between a leading and a trailing run of
   * whitespace (the leading run ends at the first non-space); empty exactly
   * when `s` is all whitespace, and otherwise bounded by non-spaces.
   */
  function Trim(s: string): (r: string)
    ensures |r| == 0 <==> AllSpace(s)
    ensures |r| <= |s|
    ensures |r| > 0 ==> !IsSpace(r[0]) && !IsSpace(r[|r| - 1])
    ensures var i := |s| - |TrimStart(s)|;
      i + |r| <= |s| && r == s[i..i + |r|] && AllSpace(s[..i]) && AllSpace(s[i + |r|..])
  {
    var t := TrimStart(s);
    var r := TrimEnd(t);
    TrimmedInfix(s);
    assert |r| == 0 ==> AllSpace(s) by {
      if |r| == 0 {
        assert s == s[..|s| - |t|] + t;
        assert t == t[..0] + t[0..];
      }
    }
    r
  }

  /** Trimming the start and then the end leaves an infix of `s` with whitespace on both sides. */
  lemma TrimmedInfix(s: string)
    ensures var t := TrimStart(s);
      var r := TrimEnd(t);
      var i := |s| - |t|;
      i + |r| <= |s| && r == s[i..i + |r|] && AllSpace(s[..i]) && AllSpace(s[i + |r|..])
  {
    var t := TrimStart(s);
    var r := TrimEnd(t);
    var i := |s| - |t|;
    assert t == s[i..];
    assert s[i..i + |r|] == t[..|r|];
    assert s[i + |r|..] == t[|r|..];
  }

  /** Blank in the JavaScript sense `!s.trim()`: by `Trim`'s contract, the trim is empty exactly when every character is whitespace. */
  predicate IsBlank(s: string) { AllSpace(s) }

  /** A string that starts and ends with a non-space is its own trim. */
  lemma TrimBounded(s: string)
    requires |s| > 0 && !IsSpace(s[0]) && !IsSpace(s[|s| - 1])
    ensures Trim(s) == s
  {
    assert TrimStart(s) == s;
    assert TrimEnd(s) == s;
  }

  /** Trimming twice is trimming once. */
  lemma TrimIdempotent(s: string)
    ensures Trim(Trim(s)) == Trim(s)
  {
    if |Trim(s)| > 0 {
      TrimBounded(Trim(s));
    }
  }

  /** A string without whitespace is its own trim. */
  lemma TrimNoSpace(s: string)
    requires NoSpace(s)
    ensures Trim(s) == s
  {
    if |s| > 0 {
      TrimBounded(s);
    }
  }

  // --------------------------------------------------------------- filtering

  /** The characters of `s` satisfying `keep`, in order (`s.replace(/[^…]/g, '')`). */
  function Keep(s: string, keep: char -> bool): (r: string)
    ensures |r| <= |s|
    ensures forall i :: 0 <= i < |r| ==> keep(r[i])
    ensures (forall i :: 0 <= i < |s| ==> keep(s[i])) ==> r == s
  {
    if |s| == 0 then "" else (if keep(s[0]) then [s[0]] else []) + Keep(s[1..], keep)
  }

  lemma {:induction false} KeepConcat(a: string, b: string, keep: char -> bool)
    ensures Keep(a + b, keep) == Keep(a, keep) + Keep(b, keep)
  {
    if |a| == 0 {
      assert a + b == b;
    } else {
      assert (a + b)[1..] == a[1..] + b;
      KeepConcat(a[1..], b, keep);
    }
  }

  /** `s.replace(/\D/g, '')`. */
  function DigitsOf(s: string): (r: string)
    ensures AllDigits(r)
  {
    Keep(s, IsDigit)
  }

  predicate NotSpace(c: char) { !IsSpace(c) }

  /** `s.replace(/\s/g, '')`. */
  function RemoveSpaces(s: string): (r: string)
    ensures NoSpace(r)
  {
    Keep(s, NotSpace)
  }

  /** Removing whitespace is unaffected by dropping leading whitespace first. */
  lemma {:induction false} RemoveSpacesTrimStart(s: string)
    ensures RemoveSpaces(TrimStart(s)) == RemoveSpaces(s)
  {
    if |s| > 0 && IsSpace(s[0]) {
      RemoveSpacesTrimStart(s[1..]);
      assert RemoveSpaces(s) == RemoveSpaces(s[1..]);
    }
  }

  /** Removing whitespace is unaffected by dropping trailing whitespace first. */
  lemma {:induction false} RemoveSpacesTrimEnd(s: string)
    ensures RemoveSpaces(TrimEnd(s)) == RemoveSpaces(s)
  {
    if |s| > 0 && IsSpace(s[|s| - 1]) {
      var init := s[..|s| - 1];
      RemoveSpacesTrimEnd(init);
      assert s == init + [s[|s| - 1]];
      KeepConcat(init, [s[|s| - 1]], NotSpace);
      assert Keep([s[|s| - 1]], NotSpace) == [];
    }
  }

  /** Removing whitespace after trimming is removing it from the untrimmed text. */
  lemma RemoveSpacesTrim(s: string)
    ensures RemoveSpaces(Trim(s)) == RemoveSpaces(s)
  {
    assert Trim(s) == TrimEnd(TrimStart(s));
    RemoveSpacesTrimEnd(TrimStart(s));
    RemoveSpacesTrimStart(s);
  }

  // ------------------------------------------------------------ lower-casing

  function LowerChar(c: char): char {
    if IsUpper(c) then (c as int + 32) as char else c
  }

  /** `s.toLowerCase()` over ASCII letters. */
  function ToLower(s: string): (r: string)
    ensures |r| == |s|
    ensures forall i :: 0 <= i < |s| ==> r[i] == LowerChar(s[i])
  {
    seq(|s|, i requires 0 <= i < |s| => LowerChar(s[i]))
  }

  // -------------------------------------------------------- substring search

  predicate IsPrefix(p: string, s: string) { |p| <= |s| && s[..|p|] == p }

  /** `t` occurs in `s` starting at index `i`. */
  predicate OccursAt(s: string, t: string, i: int) {
    0 <= i <= |s| - |t| && s[i..i + |t|] == t
  }

  /** `s.includes(t)`. */
  predicate Contains(s: string, t: string) {
    IsPrefix(t, s) || (|s| > 0 && Contains(s[1..], t))
  }

  lemma {:induction false} ContainsIff(s: string, t: string)
    ensures Contains(s, t) <==> exists i :: OccursAt(s, t, i)
  {
    if IsPrefix(t, s) {
      assert OccursAt(s, t, 0);
    } else if |s| == 0 {
      assert forall i :: !OccursAt(s, t, i);
    } else {
      ContainsIff(s[1..], t);
      if Contains(s[1..], t) {
        var i :| OccursAt(s[1..], t, i);
        assert s[1..][i..i + |t|] == s[i + 1..i + 1 + |t|];
        assert OccursAt(s, t, i + 1);
      } else {
        forall i | OccursAt(s, t, i) ensures false {
          assert i != 0;
          assert s[1..][i - 1..i - 1 + |t|] == s[i..i + |t|];
          assert OccursAt(s[1..], t, i - 1);
        }
      }
    }
  }

  /** Every string contains the empty string, so an empty search term matches everything. */
  lemma ContainsEmpty(s: string)
    ensures Contains(s, "")
  {
    assert IsPrefix("", s);
  }

  // ----------------------------------------------------- split and join

  /** `s.split(sep)` for a one-character separator. */
  function Split(s: string, sep: char): (r: seq<string>)
    ensures |r| >= 1
    ensures forall k :: 0 <= k < |r| ==> sep !in r[k]
  {
    if |s| == 0 then [""]
    else if s[0] == sep then [""] + Split(s[1..], sep)
    else
      var rest := Split(s[1..], sep);
      [[s[0]] + rest[0]] + rest[1..]
  }

  /** `parts.join(sep)`. */
  function Join(parts: seq<string>, sep: string): string {
    if |parts| == 0 then ""
    else if |parts| == 1 then parts[0]
    else parts[0] + sep + Join(parts[1..], sep)
  }

  /** Splitting loses nothing: joining the parts back with the separator restores the input. */
  lemma {:induction false} JoinSplit(s: string, sep: char)
    ensures Join(Split(s, sep), [sep]) == s
  {
    if |s| == 0 {
    } else if s[0] == sep {
      JoinSplit(s[1..], sep);
      assert s == [sep] + s[1..];
    } else {
      JoinSplit(s[1..], sep);
      var rest := Split(s[1..], sep);
      if |rest| == 1 {
      } else {
        assert Join(rest, [sep]) == rest[0] + [sep] + Join(rest[1..], [sep]);
        assert s == [s[0]] + s[1..];
      }
    }
  }

  /** Splitting a join of separator-free parts gives the parts back. */
  lemma {:induction false} SplitJoin(parts: seq<string>, sep: char)
    requires |parts| >= 1
    requires forall k :: 0 <= k < |parts| ==> sep !in parts[k]
    ensures Split(Join(parts, [sep]), sep) == parts
  {
    if |parts| == 1 {
      SplitNoSep(parts[0], sep);
    } else {
      SplitJoin(parts[1..], sep);
      SplitAfterSepFree(parts[0], Join(parts[1..], [sep]), sep);
      assert parts == [parts[0]] + parts[1..];
    }
  }

  lemma {:induction false} SplitNoSep(s: string, sep: char)
    requires sep !in s
    ensures Split(s, sep) == [s]
  {
    if |s| > 0 {
      assert s[0] in s;
      SplitNoSep(s[1..], sep);
      assert [s[0]] + s[1..] == s;
    }
  }

  lemma {:induction false} SplitAfterSepFree(a: string, b: string, sep: char)
    requires sep !in a
    ensures Split(a + [sep] + b, sep) == [a] + Split(b, sep)
  {
    if |a| == 0 {
      assert a + [sep] + b == [sep] + b;
      assert ([sep] + b)[1..] == b;
    } else {
      assert (a + [sep] + b)[1..] == a[1..] + [sep] + b;
      SplitAfterSepFree(a[1..], b, sep);
      assert [a[0]] + a[1..] == a;
    }
  }

  /** The first part of a split is the input up to, not including, the first separator. */
  lemma {:induction false} SplitHead(s: string, sep: char)
    ensures IsPrefix(Split(s, sep)[0], s)
    ensures |Split(s, sep)[0]| < |s| ==> s[|Split(s, sep)[0]|] == sep
  {
    if |s| > 0 && s[0] != sep {
      SplitHead(s[1..], sep);
    }
  }

  // ----------------------------------------------------------- padding

  /** `s.padStart(2, '0')`: pads with leading zeros up to width 2 and never truncates. */
  function PadStart2(s: string): (r: string)
    ensures |r| == if |s| >= 2 then |s| else 2
    ensures r[|r| - |s|..] == s
    ensures forall i :: 0 <= i < |r| - |s| ==> r[i] == '0'
  {
    if |s| >= 2 then s else if |s| == 1 then "0" + s else "00"
  }

  // --------------------------------------------------- decimal numbers

  function DigitChar(d: int): (c: char)
    requires 0 <= d <= 9
    ensures IsDigit(c)
  {
    ('0' as int + d) as char
  }

  function DigitValue(c: char): int
    requires IsDigit(c)
  {
    c as int - '0' as int
  }

  /** The decimal rendering of a natural number, without leading zeros. */
  function NatToDecimal(n: nat): (r: string)
    ensures |r| >= 1 && AllDigits(r)
    ensures |r| > 1 ==> r[0] != '0'
    decreases n
  {
    if n < 10 then [DigitChar(n)] else NatToDecimal(n / 10) + [DigitChar(n % 10)]
  }

  /** `n.toString()` for an integer. */
  function IntToDecimal(n: int): (r: string)
    ensures |r| >= 1
  {
    if n < 0 then "-" + NatToDecimal(-n) else NatToDecimal(n)
  }

  /** The value of a string of decimal digits, most significant first. */
  function DigitsValue(ds: string): nat
    requires AllDigits(ds)
  {
    if |ds| == 0 then 0 else DigitsValue(ds[..|ds| - 1]) * 10 + DigitValue(ds[|ds| - 1])
  }

  /** The longest prefix of `s` made of digits. */
  function DigitPrefix(s: string): (r: string)
    ensures AllDigits(r) && IsPrefix(r, s)
    ensures |r| < |s| ==> !IsDigit(s[|r|])
  {
    if |s| > 0 && IsDigit(s[0]) then [s[0]] + DigitPrefix(s[1..]) else ""
  }

  /**
   * `parseInt(s)` (radix 10): leading whitespace is skipped, one optional sign is
   * read, and the longest run of digits that follows is the value; with no digit
   * the result is NaN, here `None`.
   */
  function ParseInt(s: string): (r: Option<int>)
    ensures r.None? <==> |DigitPrefix(Unsigned(TrimStart(s)))| == 0
  {
    var t := TrimStart(s);
    var ds := DigitPrefix(Unsigned(t));
    var v: int := DigitsValue(ds);
    if |ds| == 0 then None
    else if IsNegative(t) then Some(-v)
    else Some(v)
  }

  predicate IsNegative(t: string) { |t| > 0 && t[0] == '-' }

  /** `t` without one leading sign character. */
  function Unsigned(t: string): string {
    if |t| > 0 && (t[0] == '-' || t[0] == '+') then t[1..] else t
  }

  lemma {:induction false} DecimalValue(n: nat)
    ensures DigitsValue(NatToDecimal(n)) == n
    decreases n
  {
    if n >= 10 {
      var p := NatToDecimal(n / 10);
      var r := NatToDecimal(n);
      assert r == p + [DigitChar(n % 10)];
      assert r[..|r| - 1] == p;
      DecimalValue(n / 10);
    }
  }

  /** A string that is entirely digits is its own digit prefix. */
  lemma {:induction false} DigitPrefixAll(s: string)
    requires AllDigits(s)
    ensures DigitPrefix(s) == s
  {
    if |s| > 0 {
      DigitPrefixAll(s[1..]);
    }
  }

  /** A string whose first character is not whitespace has nothing to trim at the start. */
  lemma TrimStartNoop(s: string)
    requires |s| > 0 && !IsSpace(s[0])
    ensures TrimStart(s) == s
  {
  }

  /** Rendering then parsing an integer gives it back: `parseInt(n.toString()) == n`. */
  lemma ParseIntDecimal(n: int)
    ensures ParseInt(IntToDecimal(n)) == Some(n)
  {
    var m: nat := if n < 0 then -n else n;
    var d := NatToDecimal(m);
    DecimalValue(m);
    if n < 0 {
      assert IntToDecimal(n) == "-" + d;
      ParseIntNegated(d);
    } else {
      assert IntToDecimal(n) == d;
      ParseIntDigits(d);
    }
  }

  /** A minus sign before digits negates their value. */
  lemma ParseIntNegated(ds: string)
    requires |ds| > 0 && AllDigits(ds)
    ensures ParseInt("-" + ds) == Some(-(DigitsValue(ds) as int))
  {
    var s := "-" + ds;
    TrimStartNoop(s);
    assert IsNegative(s);
    assert Unsigned(s) == ds;
    DigitPrefixAll(ds);
  }

  /** Digits parse to their value: `parseInt` of a plain digit string. */
  lemma ParseIntDigits(ds: string)
    requires |ds| > 0 && AllDigits(ds)
    ensures ParseInt(ds) == Some(DigitsValue(ds))
  {
    assert IsDigit(ds[0]);
    TrimStartNoop(ds);
    assert Unsigned(ds) == ds;
    DigitPrefixAll(ds);
  }
}

=== FILE: worker_modal.dfy ===
/**
 * The add-worker modal (components/modals/AddWorkerModal.tsx): its date mask
 * applied to the two date fields, its validator, the create request it sends,
 * and the message it shows when the server refuses.
 */
module WorkerModal {
  import opened Optional
  import opened Strings
  import opened JsValues
  import opened Credentials
  import opened DateInput
  import opened FormErrors
  import opened Requests

  datatype WorkerStatus = Active | Inactive

  function StatusName(s: WorkerStatus): string {
    match s
    case Active => "active"
    case Inactive => "inactive"
  }

  /** The modal's form; dates are the masked `DD/MM/YYYY` text. */
  datatype WorkerForm = WorkerForm(
    name: string,
    phone: string,
    email: string,
    address: string,
    designation: string,
    status: WorkerStatus,
    joinDate: string,
    leaveDate: string)

  /** The fields that can carry a validation error. */
  datatype WorkerField = Name | Phone | Email | JoinDate | LeaveDate

  /** The form as the modal opens it. */
  const EmptyWorkerForm: WorkerForm := WorkerForm("", "", "", "", "weaver", Active, "", "")

  /** Which date field `handleDateInput` was called for. */
  datatype DateName = JoinDateInput | LeaveDateInput

  /**
   * `handleDateInput`: the date field named holds the first eight digits
   * typed, laid out in the `DD/MM/YYYY` shape; every other field is kept.
   */
  function HandleDateInput(form: WorkerForm, which: DateName, value: string): (r: WorkerForm)
    ensures var field := if which == JoinDateInput then r.joinDate else r.leaveDate;
      IsMasked(field) && DigitsOf(field) == Take(DigitsOf(value), 8)
    ensures which == JoinDateInput ==> r.(joinDate := form.joinDate) == form
    ensures which == LeaveDateInput ==> r.(leaveDate := form.leaveDate) == form
  {
    MaskContent(value);
    match which
    case JoinDateInput => form.(joinDate := MaskDate(value))
    case LeaveDateInput => form.(leaveDate := MaskDate(value))
  }

  /** Lexicographic order on (year, month, day). */
  predicate NotAfter(a: DayMonthYear, b: DayMonthYear) {
    a.year < b.year || (a.year == b.year && (a.month < b.month || (a.month == b.month && a.day <= b.day)))
  }

  /**
   * Whether `new Date` of the converted text is a valid date at all: a month
   * outside 1..12 or a day outside 1..31 gives an invalid `Date`.
   */
  predicate MakesDate(p: DayMonthYear) {
    1 <= p.day <= 31 && 1 <= p.month <= 12
  }

  /**
   * `leaveDate <= joinDate` on the two `Date`s built from the converted values:
   * it holds only when both dates read as numbers, both make a valid `Date`,
   * and the leave day is not after the join day (an invalid `Date` compares false).
   */
  predicate LeaveNotAfterJoin(joinDate: string, leaveDate: string) {
    var join := DateParts(joinDate);
    var leave := DateParts(leaveDate);
    && join.Some? && leave.Some?
    && MakesDate(join.value) && MakesDate(leave.value)
    && NotAfter(leave.value, join.value)
  }

  const AfterJoinMessage: string := "Leave date must be after join date"
  const DateFormatMessage: string := "Please enter date in dd/mm/yyyy format"

  /** The leave-date check: the ordering error is set last, so it wins over the format error. */
  function LeaveDateError(joinDate: string, leaveDate: string): (r: Option<string>)
    ensures r.Some? <==> leaveDate != "" && (!IsValidDateFormat(leaveDate) || (joinDate != "" && LeaveNotAfterJoin(joinDate, leaveDate)))
    ensures r.Some? ==> (r.value == AfterJoinMessage <==> joinDate != "" && LeaveNotAfterJoin(joinDate, leaveDate))
    ensures r.Some? && !(joinDate != "" && LeaveNotAfterJoin(joinDate, leaveDate)) ==> r.value == DateFormatMessage
  {
    assert AfterJoinMessage != DateFormatMessage by {
      assert AfterJoinMessage[0] != DateFormatMessage[0];
    }
    if leaveDate != "" && joinDate != "" && LeaveNotAfterJoin(joinDate, leaveDate) then Some(AfterJoinMessage)
    else if leaveDate != "" && !IsValidDateFormat(leaveDate) then Some(DateFormatMessage)
    else None
  }

  /** The phone check: required, then ten digits once whitespace is removed. */
  function PhoneError(phone: string): (r: Option<string>)
    ensures r.Some? <==> IsBlank(phone) || !IsSpacedTenDigitPhone(phone)
    ensures IsBlank(phone) ==> r == Some(PhoneRequiredMessage)
    ensures !IsBlank(phone) && !IsSpacedTenDigitPhone(phone) ==> r == Some(PhoneInvalidMessage)
  {
    if IsBlank(phone) then Some(PhoneRequiredMessage)
    else if !IsSpacedTenDigitPhone(phone) then Some(PhoneInvalidMessage)
    else None
  }

  /**
   * The e-mail check: optional, but when present it must look like `local@domain.tld`.
   * Unlike the name and phone, an e-mail of only spaces counts as present and is refused.
   */
  function EmailError(email: string): (r: Option<string>)
    ensures r.Some? <==> email != "" && !IsDottedEmail(email)
    ensures r.Some? ==> r.value == EmailInvalidMessage
  {
    if email != "" && !IsDottedEmail(email) then Some(EmailInvalidMessage) else None
  }

  const JoinRequiredMessage: string := "Join date is required"

  /** The join-date check: required, then `isValidDateFormat`. */
  function JoinDateError(joinDate: string): (r: Option<string>)
    ensures r.Some? <==> !(joinDate != "" && IsValidDateFormat(joinDate))
    ensures joinDate == "" ==> r == Some(JoinRequiredMessage)
    ensures joinDate != "" && !IsValidDateFormat(joinDate) ==> r == Some(DateFormatMessage)
  {
    if joinDate == "" then Some(JoinRequiredMessage)
    else if !IsValidDateFormat(joinDate) then Some(DateFormatMessage)
    else None
  }

  /** `validateForm`: the error map, one entry per failing field, in the order the source checks them. */
  function ValidateWorker(form: WorkerForm): (errors: map<WorkerField, string>)
    ensures Name in errors <==> IsBlank(form.name)
    ensures Phone in errors <==> IsBlank(form.phone) || !IsSpacedTenDigitPhone(form.phone)
    ensures Email in errors <==> form.email != "" && !IsDottedEmail(form.email)
    ensures JoinDate in errors <==> !(form.joinDate != "" && IsValidDateFormat(form.joinDate))
    ensures LeaveDate in errors <==>
      form.leaveDate != "" &&
      (!IsValidDateFormat(form.leaveDate) || (form.joinDate != "" && LeaveNotAfterJoin(form.joinDate, form.leaveDate)))
    ensures Name in errors ==> errors[Name] == NameRequiredMessage
    ensures Phone in errors ==> errors[Phone] == PhoneError(form.phone).value
    ensures Email in errors ==> errors[Email] == EmailInvalidMessage
    ensures JoinDate in errors ==> errors[JoinDate] == JoinDateError(form.joinDate).value
    ensures LeaveDate in errors ==> errors[LeaveDate] == LeaveDateError(form.joinDate, form.leaveDate).value
    ensures IsBlank(form.phone) ==> errors[Phone] == PhoneRequiredMessage
    ensures form.joinDate == "" ==> errors[JoinDate] == JoinRequiredMessage
    ensures form.leaveDate != "" && form.joinDate != "" && LeaveNotAfterJoin(form.joinDate, form.leaveDate) ==>
      errors[LeaveDate] == AfterJoinMessage
  {
    var named := Record(map[], Name, NameFieldError(form.name));
    var phoned := Record(named, Phone, PhoneError(form.phone));
    var mailed := Record(phoned, Email, EmailError(form.email));
    var joined := Record(mailed, JoinDate, JoinDateError(form.joinDate));
    Record(joined, LeaveDate, LeaveDateError(form.joinDate, form.leaveDate))
  }

  /** The rules a worker must satisfy to be sent. */
  predicate IsAcceptableWorker(form: WorkerForm) {
    && !IsBlank(form.name)
    && !IsBlank(form.phone) && IsSpacedTenDigitPhone(form.phone)
    && (form.email == "" || IsDottedEmail(form.email))
    && form.joinDate != "" && IsValidDateFormat(form.joinDate)
    && (form.leaveDate != "" ==> IsValidDateFormat(form.leaveDate) && !LeaveNotAfterJoin(form.joinDate, form.leaveDate))
  }

  /** The form is valid iff its error map is empty. */
  lemma ValidWorkerIff(form: WorkerForm)
    ensures |ValidateWorker(form)| == 0 <==> IsAcceptableWorker(form)
  {
    var errors := ValidateWorker(form);
    if |errors| != 0 {
      var f :| f in errors;
      assert !IsAcceptableWorker(form) by {
        match f
        case Name =>
        case Phone =>
        case Email =>
        case JoinDate =>
        case LeaveDate =>
      }
    } else {
      assert Name !in errors && Phone !in errors && Email !in errors && JoinDate !in errors && LeaveDate !in errors;
    }
  }

  /** The form as the modal opens it is refused for its name, phone and join date, and for nothing else. */
  lemma NewWorkerBlocked()
    ensures var errors := ValidateWorker(EmptyWorkerForm);
      && Name in errors && Phone in errors && JoinDate in errors
      && Email !in errors && LeaveDate !in errors
      && errors[JoinDate] == JoinRequiredMessage
  {
    assert AllSpace("");
  }

  /** A leave date equal to the join date is rejected: the leave date must be strictly later. */
  lemma EqualDatesRejected(form: WorkerForm)
    requires form.joinDate != "" && form.leaveDate == form.joinDate
    ensures DateParts(form.joinDate).Some? && MakesDate(DateParts(form.joinDate).value) ==>
      LeaveDate in ValidateWorker(form) && ValidateWorker(form)[LeaveDate] == AfterJoinMessage
  {
  }

  /**
   * A leave date with a day outside 1..31 or a month outside 1..12 is no
   * `Date`, so it is never "before" the join date: whatever the join date,
   * it keeps the format message.
   */
  lemma OutOfRangeLeaveNotOrdered(joinDate: string, d: string, m: string, y: string)
    requires |d| > 0 && |m| > 0 && |y| > 0
    requires AllDigits(d) && AllDigits(m) && AllDigits(y)
    requires !(1 <= DigitsValue(d) <= 31 && 1 <= DigitsValue(m) <= 12)
    ensures LeaveDateError(joinDate, d + "/" + m + "/" + y) == Some(DateFormatMessage)
  {
    DatePartsOfDigits(d, m, y);
  }

  /** `formData.x.trim() || undefined`: the trimmed text, or absent when it is blank. */
  function OptionalText(s: string): (v: JsValue)
    ensures v.Undefined? <==> IsBlank(s)
    ensures v.Str? ==> v.s == Trim(s)
  {
    if Trim(s) == "" then Undefined else Str(Trim(s))
  }

  /** The properties the worker object literal always sets, with their values already computed. */
  function WorkerRequired(name: string, phone: string, designation: string, status: string, join: string): (m: map<string, JsValue>)
    ensures "name" in m && m["name"] == Str(name)
    ensures "phone" in m && m["phone"] == Str(phone)
    ensures "designation" in m && m["designation"] == Str(designation)
    ensures "status" in m && m["status"] == Str(status)
    ensures "join_date" in m && m["join_date"] == Str(join)
    ensures "email" !in m && "address" !in m && "leave_date" !in m
  {
    map["name" := Str(name), "phone" := Str(phone), "designation" := Str(designation), "status" := Str(status), "join_date" := Str(join)]
  }

  /**
   * The worker object literal with its property values already computed,
   * serialised: `undefined` values are dropped, every other one is kept.
   */
  function WorkerObject(required: map<string, JsValue>, email: JsValue, address: JsValue, leave: JsValue): (body: JsValue)
    requires "email" !in required && "address" !in required && "leave_date" !in required
    ensures body.Obj?
    ensures forall k :: k in required ==> k in body.fields && body.fields[k] == required[k]
    ensures Get(body, "email") == email && Get(body, "address") == address && Get(body, "leave_date") == leave
    ensures "email" in body.fields <==> !email.Undefined?
    ensures "address" in body.fields <==> !address.Undefined?
    ensures "leave_date" in body.fields <==> !leave.Undefined?
  {
    Obj(Put(Put(Put(required, "email", email), "address", address), "leave_date", leave))
  }

  /** The create request body: trimmed identity fields, blank optionals omitted, dates converted for the backend. */
  function WorkerPayload(form: WorkerForm): (body: JsValue)
    ensures body.Obj?
    ensures Get(body, "name") == Str(Trim(form.name))
    ensures Get(body, "phone") == Str(Trim(form.phone))
    ensures Get(body, "designation") == Str(form.designation)
    ensures Get(body, "status") == Str(StatusName(form.status))
    ensures Get(body, "join_date") == Str(FormatDateForBackend(form.joinDate))
    ensures body.fields.Keys <= {"name", "phone", "email", "address", "designation", "status", "join_date", "leave_date"}
    ensures !IsBlank(form.email) ==> Get(body, "email") == Str(Trim(form.email))
    ensures !IsBlank(form.address) ==> Get(body, "address") == Str(Trim(form.address))
    ensures "email" in body.fields <==> !IsBlank(form.email)
    ensures "address" in body.fields <==> !IsBlank(form.address)
    ensures "leave_date" in body.fields <==> form.leaveDate != ""
    ensures form.leaveDate != "" ==> Get(body, "leave_date") == Str(FormatDateForBackend(form.leaveDate))
  {
    var leave := if form.leaveDate != "" then Str(FormatDateForBackend(form.leaveDate)) else Undefined;
    var required := WorkerRequired(Trim(form.name), Trim(form.phone), form.designation, StatusName(form.status), FormatDateForBackend(form.joinDate));
    WorkerObject(required, OptionalText(form.email), OptionalText(form.address), leave)
  }

  const WorkersPath: string := "/api/v1/workers"

  /** `handleSubmit`: nothing is sent when validation fails; otherwise one `POST` of the payload. */
  function SubmitWorker(form: WorkerForm): (r: Submission<map<WorkerField, string>>)
    ensures r.Blocked? <==> !IsAcceptableWorker(form)
    ensures r.Blocked? ==> r.reason == ValidateWorker(form) && |r.reason| > 0
    ensures r.Sent? ==> r.request.verb == POST && r.request.path == WorkersPath
  {
    ValidWorkerIff(form);
    var errors := ValidateWorker(form);
    if |errors| > 0 then Blocked(errors)
    else Sent(Request(POST, WorkersPath, WorkerPayload(form)))
  }

  /**
   * What a sent request carries: the payload of a form with a non-blank name,
   * a phone with ten digits, a valid join date and a well-formed e-mail if any.
   */
  lemma SentWorkerPayload(form: WorkerForm)
    ensures SubmitWorker(form).Sent? ==> SubmitWorker(form).request.body == WorkerPayload(form)
    ensures SubmitWorker(form).Sent? ==> Trim(form.name) != ""
    ensures SubmitWorker(form).Sent? ==> HasTenDigits(form.phone)
    ensures SubmitWorker(form).Sent? ==> IsValidDateFormat(form.joinDate) && form.joinDate != ""
    ensures SubmitWorker(form).Sent? && form.email != "" ==> IsDottedEmail(form.email)
  {
    if SubmitWorker(form).Sent? {
      SpacedPhoneHasTenDigits(form.phone);
    }
  }

  /** A join date typed as eight digits reaches the backend as the ten-character `YYYY-MM-DD`. */
  lemma TypedJoinDateSent(form: WorkerForm, typed: string)
    ensures var d := DigitsOf(typed);
      var sent := SubmitWorker(HandleDateInput(form, JoinDateInput, typed));
      |d| >= 8 && sent.Sent? ==>
        Get(sent.request.body, "join_date") == Str(d[4..8] + "-" + d[2..4] + "-" + d[..2])
  {
    if |DigitsOf(typed)| >= 8 {
      MaskedToBackend(typed);
    }
  }

  const NetworkErrorMessage: string := "Network error. Please try again."
  const CreateFailedMessage: string := "Failed to create worker"

  /**
   * The banner after a refused create:
   * `message || error || errors?.join(', ') || 'Failed to create worker'`.
   * A body that does not parse, a `null` body, or an `errors` value that is
   * neither absent nor an array makes the handler throw, and the network
   * message is shown instead.
   */
  function CreateErrorMessage(parsed: Option<JsValue>): (m: JsValue)
    ensures Truthy(m)
    ensures parsed.None? ==> m == Str(NetworkErrorMessage)
    ensures parsed.Some? && IsNullish(parsed.value) ==> m == Str(NetworkErrorMessage)
    ensures parsed.Some? && Truthy(Get(parsed.value, "message")) ==> m == Get(parsed.value, "message")
    ensures parsed.Some? && !Truthy(Get(parsed.value, "message")) && Truthy(Get(parsed.value, "error")) ==>
      m == Get(parsed.value, "error")
    ensures parsed.Some? && parsed.value.Obj? && !Truthy(Get(parsed.value, "message")) && !Truthy(Get(parsed.value, "error")) ==>
      var errs := Get(parsed.value, "errors");
      && (errs.Undefined? ==> m == Str(CreateFailedMessage))
      && (errs.Arr? && |errs.items| == 0 ==> m == Str(CreateFailedMessage))
      && (!IsNullish(errs) && !errs.Arr? ==> m == Str(NetworkErrorMessage))
  {
    match parsed
    case None => Str(NetworkErrorMessage)
    case Some(data) =>
      if IsNullish(data) then Str(NetworkErrorMessage)
      else
        var first := Or(Get(data, "message"), Get(data, "error"));
        if Truthy(first) then first
        else
          var errs := Get(data, "errors");
          if IsNullish(errs) then Str(CreateFailedMessage)
          else if errs.Arr? then Or(Str(JoinArray(errs.items, ", ")), Str(CreateFailedMessage))
          else Str(NetworkErrorMessage)
  }
}

=== FILE: workers_page.dfy ===
/**
 * The worker list (app/dashboard/workers/page.tsx): the search and status
 * filter, the three list updates (replace an edited worker, prepend an added
 * one, remove a deleted one) and the four summary counters.
 */
module WorkersPage {
  import opened Optional
  import opened Strings
  import opened Lists
  import opened Requests
  import opened JsValues
  import opened WorkerModal

  /** One entry of a worker's loan history. */
  datatype LoanRecord = LoanRecord(loanAmt: int, loanDate: string)

  /** A worker as listed; amounts are whole rupees. */
  datatype Worker = Worker(
    id: string,
    name: string,
    phone: string,
    email: string,
    status: WorkerStatus,
    loanHistory: seq<LoanRecord>,
    remainingAmt: int)

  /** The status drop-down: every worker, or one status only. */
  datatype StatusFilter = AllStatuses | OnlyStatus(status: WorkerStatus)

  /** Name or e-mail contains the term ignoring case, or the phone contains it exactly. */
  predicate SearchMatches(w: Worker, term: string) {
    || Contains(ToLower(w.name), ToLower(term))
    || Contains(w.phone, term)
    || Contains(ToLower(w.email), ToLower(term))
  }

  predicate StatusMatches(w: Worker, filter: StatusFilter) {
    filter.AllStatuses? || w.status == filter.status
  }

  /** `filteredWorkers`: a worker is shown iff it matches the search and the status filter, in list order. */
  function FilteredWorkers(ws: seq<Worker>, term: string, filter: StatusFilter): (shown: seq<Worker>)
    ensures IsSubsequence(shown, ws)
    ensures forall i :: 0 <= i < |shown| ==> SearchMatches(shown[i], term) && StatusMatches(shown[i], filter)
    ensures forall i :: 0 <= i < |ws| && SearchMatches(ws[i], term) && StatusMatches(ws[i], filter) ==>
      multiset(shown)[ws[i]] == multiset(ws)[ws[i]]
  {
    var keep := w => SearchMatches(w, term) && StatusMatches(w, filter);
    FilterIsSubsequence(ws, keep);
    Filter(ws, keep)
  }

  /** With no search term and the status filter on "all", the whole list is shown. */
  lemma NoFilterShowsAll(ws: seq<Worker>)
    ensures FilteredWorkers(ws, "", AllStatuses) == ws
  {
    forall i | 0 <= i < |ws|
      ensures SearchMatches(ws[i], "")
    {
      ContainsEmpty(ToLower(ws[i].name));
    }
    FilterAll(ws, w => SearchMatches(w, "") && StatusMatches(w, AllStatuses));
  }

  /** `handleWorkerUpdate`: every entry with the edited worker's id is replaced; all others stay in place. */
  function UpdateWorker(ws: seq<Worker>, updated: Worker): (r: seq<Worker>)
    ensures |r| == |ws|
    ensures forall i :: 0 <= i < |ws| && ws[i].id == updated.id ==> r[i] == updated
    ensures forall i :: 0 <= i < |ws| && ws[i].id != updated.id ==> r[i] == ws[i]
  {
    seq(|ws|, i requires 0 <= i < |ws| => if ws[i].id == updated.id then updated else ws[i])
  }

  /** Applying the same update twice is applying it once. */
  lemma UpdateIdempotent(ws: seq<Worker>, updated: Worker)
    ensures UpdateWorker(UpdateWorker(ws, updated), updated) == UpdateWorker(ws, updated)
  {
  }

  /** An update for an id that is not listed leaves the list as it was. */
  lemma UpdateUnknownIsNoop(ws: seq<Worker>, updated: Worker)
    requires forall i :: 0 <= i < |ws| ==> ws[i].id != updated.id
    ensures UpdateWorker(ws, updated) == ws
  {
  }

  /** `handleWorkerAdded`: the new worker goes first and the old list follows. */
  function AddWorker(ws: seq<Worker>, added: Worker): (r: seq<Worker>)
    ensures |r| == |ws| + 1
    ensures r[0] == added && r[1..] == ws
  {
    [added] + ws
  }

  /** The confirmed delete's request: `DELETE /workers/<id>` for the selected worker, nothing without one. */
  function DeleteRequest(selected: Option<Worker>): (r: Option<Request>)
    ensures r.Some? <==> selected.Some?
    ensures r.Some? ==> r.value.verb == DELETE && r.value.path == "/workers/" + selected.value.id
  {
    if selected.Some? then Some(Request(DELETE, "/workers/" + selected.value.id, Undefined)) else None
  }

  /**
   * The list after the delete response: on an ok response every entry with
   * the deleted id is removed and the rest keep their order; otherwise the
   * list is unchanged.
   */
  function ApplyDelete(ws: seq<Worker>, id: string, ok: bool): (r: seq<Worker>)
    ensures !ok ==> r == ws
    ensures IsSubsequence(r, ws)
    ensures ok ==> forall i :: 0 <= i < |r| ==> r[i].id != id
    ensures ok ==> forall i :: 0 <= i < |ws| && ws[i].id != id ==> multiset(r)[ws[i]] == multiset(ws)[ws[i]]
  {
    SubsequenceRefl(ws);
    FilterIsSubsequence(ws, (w: Worker) => w.id != id);
    if ok then Filter(ws, (w: Worker) => w.id != id) else ws
  }

  /** Deleting a worker that was just added, whose id was new, restores the previous list. */
  lemma DeleteUndoesAdd(ws: seq<Worker>, added: Worker)
    requires forall i :: 0 <= i < |ws| ==> ws[i].id != added.id
    ensures ApplyDelete(AddWorker(ws, added), added.id, true) == ws
  {
    var keep := (w: Worker) => w.id != added.id;
    FilterAll(ws, keep);
    assert AddWorker(ws, added)[1..] == ws;
  }

  predicate IsActive(w: Worker) { w.status == Active }

  /** The "Active Workers" counter: the number of active workers, never more than the total. */
  function ActiveCount(ws: seq<Worker>): (n: nat)
    ensures n <= |ws|
    ensures n == |Filter(ws, IsActive)|
  {
    Count(ws, IsActive)
  }

  function LoanCount(w: Worker): int { |w.loanHistory| }

  function Remaining(w: Worker): int { w.remainingAmt }

  /** The "Total Loans" counter: the loan-history lengths added up; never negative. */
  function TotalLoans(ws: seq<Worker>): (n: int)
    ensures n >= 0
  {
    SumNonNegative(ws, LoanCount);
    Sum(ws, LoanCount)
  }

  /** The "Pending Amount" counter: the remaining amounts added up. */
  function PendingAmount(ws: seq<Worker>): (n: int)
    ensures |ws| == 0 ==> n == 0
    ensures (forall i :: 0 <= i < |ws| ==> ws[i].remainingAmt >= 0) ==> n >= 0
  {
    SumNonNegative(ws, Remaining);
    Sum(ws, Remaining)
  }

  /** The pending amount of two lists put together is the sum of their pending amounts. */
  lemma PendingConcat(a: seq<Worker>, b: seq<Worker>)
    ensures PendingAmount(a + b) == PendingAmount(a) + PendingAmount(b)
  {
    SumConcat(a, b, Remaining);
  }

  /** Adding a worker moves each counter by exactly that worker's share. */
  lemma CountersAfterAdd(ws: seq<Worker>, added: Worker)
    ensures |AddWorker(ws, added)| == |ws| + 1
    ensures ActiveCount(AddWorker(ws, added)) == ActiveCount(ws) + (if IsActive(added) then 1 else 0)
    ensures TotalLoans(AddWorker(ws, added)) == TotalLoans(ws) + |added.loanHistory|
    ensures PendingAmount(AddWorker(ws, added)) == PendingAmount(ws) + added.remainingAmt
  {
    assert AddWorker(ws, added)[1..] == ws;
  }

  /** What the entries with a given id still owe. */
  function OwedBy(ws: seq<Worker>, id: string): int {
    if |ws| == 0 then 0 else (if ws[0].id == id then ws[0].remainingAmt else 0) + OwedBy(ws[1..], id)
  }

  /** A successful delete lowers the pending amount by exactly what the removed entries owed. */
  lemma {:induction false} PendingAfterDelete(ws: seq<Worker>, id: string)
    ensures PendingAmount(ApplyDelete(ws, id, true)) == PendingAmount(ws) - OwedBy(ws, id)
  {
    if |ws| > 0 {
      PendingAfterDelete(ws[1..], id);
      var rest := ApplyDelete(ws[1..], id, true);
      if ws[0].id != id {
        assert ApplyDelete(ws, id, true) == [ws[0]] + rest;
        assert ([ws[0]] + rest)[1..] == rest;
      } else {
        assert ApplyDelete(ws, id, true) == rest;
      }
    }
  }
}
